=== FILE: README.md ===
# CityJSON to binary tiles: a Dafny model of the tile baker's core

TileBake turns the city objects of a CityJSON file into triangle meshes
("SubObjects") and groups them into square tiles. Each tile becomes one
binary file named after its position. This project models the logic of
that pipeline in Dafny, together with the small CSV reader of the
csv-to-CityJSON tool, and proves properties of the model:

- `common.dfy` (module `Common`): vectors; `Num` (a double that may be
  NaN); `Outcome` (a value, or the .NET exception the code would throw);
  sums and means.
- `text.dfy` (module `Text`):
  - `string.Split` and `Join`, with their round trip;
  - `Contains`, `Replace(x, "")` and the decimal text of an integer.
- `cityjson.dfy` (module `CityJsonReader`): the `CityJSON` reader.
  - The loading transform.
  - Reading a city object, its Solid and MultiSurface geometry, holes,
    texture coordinates and semantics.
  - `LoadCityObjectByIndex`.
- `meshops.dfy` (module `MeshOps`): the `SubObject` operations.
  - `MergeSimilarVertices`, with the `vertexNormalCombination` equality.
  - `ClipSpikes`, `calculateNormals` and `SimplifyMesh`'s vertex budget.
  - `saveMesh`, which writes a library mesh back and compacts its vertex
    ids.
- `tileclip.dfy` (module `TileClip`): `clipSubobject`.
  - The tile grid around a mesh.
  - Column and row cuts.
  - The centre-of-cell centroids of the pieces.
- `converter.dfy` (module `Converter`): the converter's per-feature work.
  - Picking a submesh and a vertex density from the object filters.
  - Choosing the id.
  - `AppendCityObjectGeometry`, with the triangulator as a parameter.
  - `ToSubObjectMeshData` and its centroid.
  - The body of the parallel parse loop, and the whole parse.
- `tiling.dfy` (module `Tiling`): `TileSubobjects` and `WriteTileData`.
  - The tile key of a centroid.
  - Bucketing SubObjects into tiles.
  - The tile file name.
  - The write-or-skip decision.
- `csvparse.dfy` (module `CsvParse`): `parseFile` and
  `getUniquePropertyValues`.

Exceptions are values. A null dereference, an index out of range or a
duplicate dictionary key becomes `Throws(fault)`. Because the parallel
loop does not catch, one throwing feature makes the whole parse throw.

Doubles are `real`. NaN is kept explicitly only where the code depends on
it: the mean of zero vertices is 0/0, and such a tile's file name
contains "NaN".

These outside parts are parameters of the model:
- The mesh library: building, measuring, reducing and cutting a mesh.
  These become the fields of `MeshLibrary`.
- The polygon triangulator. This becomes `Triangulator`, a function type
  whose results are assumed to be sound meshes.
- Normalising a vector. This becomes `unitNormal`.

Three details of the code that the model keeps:
- The vertex budget of `SimplifyMesh` truncates area times density with
  `(int)` (TileBakeLibrary/SubObject.cs:189); it does not round.
- When several object filters name the same type, the last one decides
  (TileBakeLibrary/CityJSONToTileConverter.cs:534-536).
- Of several attribute values that match, the last one in filter order
  decides (TileBakeLibrary/CityJSONToTileConverter.cs:544-556).

The three defects under "## Findings" are modelled twice: as written and
corrected. The converter's pipeline (`Features`, `Reduce`, `ParseProcess`)
is built on the corrected members. "## Left out" says where this makes
the pipeline differ from the code.

## Model

| member | source | states |
|---|---|---|
| CityJsonReader.Load | TileBakeLibrary/CityJSONParsing/CityJSON.cs:49-103 | no "CityObjects" gives no document; otherwise every vertex is the raw vertex times the scale plus the offset, the identity when the transform is absent or switched off, and every texture path is the file path followed by the image name |
| CityJsonReader.LoadWithoutTransform | TileBakeLibrary/CityJSONParsing/CityJSON.cs:67-90 | without a transform, or with scale and offset both switched off, the vertices are loaded unchanged |
| CityJsonReader.LookupAll | TileBakeLibrary/CityJSONParsing/CityJSON.cs:378-434 | a ring of vertex references resolves exactly when every reference is in range, and then element i is the referenced vertex |
| CityJsonReader.KeptHoles | TileBakeLibrary/CityJSONParsing/CityJSON.cs:378-434 | the kept holes are exactly the holes with at least the minimum vertex count and the minimum area, in their original order, each as often as it occurs |
| CityJsonReader.SquareHoleArea | TileBakeLibrary/CityJSONParsing/CityJSON.cs:413-420 | the hole area is the shoelace over X and Z: a square of side s, axis-aligned in X and Z, has area s² whatever its Y coordinates |
| CityJsonReader.FlatHoleDropped | TileBakeLibrary/CityJSONParsing/CityJSON.cs:409-428 | a hole whose points all have the same Z, the height in this code base, has area 0, so it is dropped whenever the minimum hole size is positive |
| CityJsonReader.ReadSurfaceVectors | TileBakeLibrary/CityJSONParsing/CityJSON.cs:378-434 | the outer ring is the first ring resolved; the inner rings are exactly the kept holes among the other rings resolved, in order; no texture and no semantics yet; reading succeeds whenever every reference is in range |
| CityJsonReader.ReadSurfacesOk | TileBakeLibrary/CityJSONParsing/CityJSON.cs:291-339 | a list of boundaries reads exactly when every one of its surfaces reads |
| CityJsonReader.ReadSolid | TileBakeLibrary/CityJSONParsing/CityJSON.cs:291-303 | only the exterior shell counts: no shells gives no surfaces; otherwise the read fails exactly when a boundary of the exterior shell fails, and surface i is boundary i of that shell read; interior shells never change the result |
| CityJsonReader.SetSemantics | TileBakeLibrary/CityJSONParsing/CityJSON.cs:237-252 | surface i takes the semantics of the surface entry that value i selects; more values than surfaces throws; later surfaces are unchanged |
| CityJsonReader.MultiSurfaceRings | TileBakeLibrary/CityJSONParsing/CityJSON.cs:309-323 | a MultiSurface boundary reads exactly when every reference of its rings is in range; ring 0 resolved is the outer ring and the other rings resolved are the holes, none filtered out |
| CityJsonReader.MultiSurfacesOk | TileBakeLibrary/CityJSONParsing/CityJSON.cs:309-324 | the boundaries of a MultiSurface read exactly when every one of them reads |
| CityJsonReader.ReadMultiSurface | TileBakeLibrary/CityJSONParsing/CityJSON.cs:305-339 | the read succeeds exactly when every boundary reads and there are no more semantic values than boundaries; one surface per boundary, with that boundary's outer ring and unfiltered holes and no texture; surface i takes its semantics and its SurfaceType from the entry that value i selects, and a surface without a value is the boundary as read |
| CityJsonReader.AddSurfaceUVs | TileBakeLibrary/CityJSONParsing/CityJSON.cs:341-377 | the rings are untouched; on a surface without a texture, the first value picks the texture and the rest are the outer ring's UVs; otherwise every value is a UV; the inner rings' UVs are appended without their first value |
| CityJsonReader.ApplyUVs | TileBakeLibrary/CityJSONParsing/CityJSON.cs:199-231 | texture values are applied to consecutive surfaces from a start index, and succeed only when they fit within the surfaces; the rings and the surfaces outside the range are unchanged |
| CityJsonReader.ReadEntry | TileBakeLibrary/CityJSONParsing/CityJSON.cs:181-254 | a geometry entry of another type reads nothing; a Solid gives its exterior-shell surfaces with their rings, and succeeds exactly when the shell reads, its texture lists fit the surfaces and its first semantic value list is no longer than the surfaces; a MultiSurface gives ReadMultiSurface's surfaces with their rings, and succeeds exactly when that read does and its texture list fits the surfaces |
| CityJsonReader.LastReadableEntryWins | TileBakeLibrary/CityJSONParsing/CityJSON.cs:180-197 | each selected Solid or MultiSurface entry replaces the surfaces read before it, so the object's surfaces are those of the last such entry |
| CityJsonReader.ReadObject | TileBakeLibrary/CityJSONParsing/CityJSON.cs:159-289 | an object without a type, or of a type other than a non-empty filter, is null, and only those are; otherwise it has the type, an empty key, the attributes (none for a missing node), the surfaces of the selected geometry and the children as read |
| CityJsonReader.LoadCityObjectByIndex | TileBakeLibrary/CityJSONParsing/CityJSON.cs:110-122 | the result is null exactly when the object at that index has no type; otherwise it carries the key at that index, its type and its attributes |
| CityJsonReader.LoadCityObjectByIndexAsWritten | TileBakeLibrary/CityJSONParsing/CityJSON.cs:264-283 | reading the children as written: null exactly when the object has no type, and otherwise named by its key |
| CityJsonReader.MissingChildThrows | TileBakeLibrary/CityJSONParsing/CityJSON.cs:270-278 | a building whose child key is missing throws when read as written, but loads with no children under the corrected reading |
| CityJsonReader.NullChildThrowsFirst | TileBakeLibrary/CityJSONParsing/CityJSON.cs:268-283 | as written, a missing child throws a null-reference exception before the next child is read, even when that next child would throw an index error |
| MeshOps.Lookup | TileBakeLibrary/SubObject.cs:55-71 | the index of the most recent stored key that matches, or -1 when no stored key matches |
| MeshOps.DedupShape | TileBakeLibrary/SubObject.cs:53-72 | no two kept vertices match each other; every corner's new index points at a kept vertex that matches it |
| MeshOps.DedupCanonical | TileBakeLibrary/SubObject.cs:53-72 | vertices are numbered in order of first use: every kept key is used by some corner, the first corner to use a vertex is its kept key, and no corner uses a vertex beyond one past those used before it |
| MeshOps.DedupIdempotent | TileBakeLibrary/SubObject.cs:41-78 | merging the merged corners again gives the same vertices and indices |
| MeshOps.DedupLoop | TileBakeLibrary/SubObject.cs:53-72 | the loop over the corners computes the dictionary merge |
| MeshOps.MergeSimilarVertices | TileBakeLibrary/SubObject.cs:41-78 | throws exactly when a corner index is out of range; a valid mesh stays valid; only vertices, normals and indices change; every corner keeps its position and, within the tolerance, its normal; no two kept vertex/normal pairs are similar; every kept vertex is used, and vertices are numbered by first use, each taking the vertex and normal of the first corner that uses it |
| MeshOps.MergeIdempotent | TileBakeLibrary/SubObject.cs:41-78 | merging an already merged SubObject changes nothing |
| MeshOps.MergeTwoTriangles | TileBakeLibrary/SubObject.cs:53-72 | two triangles that share one corner keep five vertices, and the shared corner is reused |
| MeshOps.SimilarIsReflexiveSymmetric | TileBakeLibrary/SubObject.cs:407-424 | the tolerance equality, with and without the hash test, is reflexive and symmetric |
| MeshOps.TiltedOriginMerged | TileBakeLibrary/SubObject.cs:407-424 | two corners at one position whose normals differ by less than the tolerance merge into one vertex |
| MeshOps.MergeSimilarVerticesAsWritten | TileBakeLibrary/SubObject.cs:41-78 | the merge through a hashed dictionary throws exactly when an index is out of range and keeps the corner count; every corner points at a kept pair that is similar and hashes alike; no two kept pairs are similar and hash alike; vertices are numbered by first use; two corners share a vertex only when their normals hash alike |
| MeshOps.TiltedOriginKeptWithNormalHash | TileBakeLibrary/SubObject.cs:51-59 | when the two normals hash differently, the dictionary keeps both corners, although Equals calls them equal |
| MeshOps.MergeDistinctTriangle | TileBakeLibrary/SubObject.cs:53-72 | three corners no two of which match become vertices 0, 1 and 2 |
| MeshOps.DedupFanSteps | TileBakeLibrary/SubObject.cs:53-72 | a further triangle whose first corner matches only the first kept key, and whose other two corners match nothing, reuses vertex 0 and adds two vertices after the kept ones |
| MeshOps.FanMerged | TileBakeLibrary/SubObject.cs:53-72 | for any number of fan triangles around the origin, tilted origin normals included, the merge keeps the origin once and every outer corner, and each triangle's first corner becomes vertex 0 |
| MeshOps.FanMergesThree | TileBakeLibraryUnitTests/MeshOptimisationTests.cs:15-68 | with Equals as the match, the twelve corners of the unit test's four fan triangles lose three vertices, the later origin corners (two with a normal 0.0005 off) all becoming vertex 0 |
| MeshOps.InRangeHeights | TileBakeLibrary/SubObject.cs:210 | the heights strictly between floor and ceiling, in order; all are kept exactly when no vertex is outside the band |
| MeshOps.ClipSpikes | TileBakeLibrary/SubObject.cs:208-236 | x and y never change; a vertex above the ceiling or below the floor takes the mean in-band height, or the middle of the band when no vertex is in band; the others are unchanged |
| MeshOps.ClipSpikesBounded | TileBakeLibrary/SubObject.cs:208-236 | with floor at most ceiling, every height after clipping lies within the band |
| MeshOps.ClipSpikesIdempotent | TileBakeLibrary/SubObject.cs:208-236 | clipping twice is clipping once |
| MeshOps.ClipSpikesExample | TileBakeLibrary/SubObject.cs:208-236 | heights 5, 30, -15, 10 in band (-10, 25) become 5, 7.5, 7.5, 10 |
| MeshOps.NormalsAfter | TileBakeLibrary/SubObject.cs:363-375 | recomputing the normals throws exactly when a triangle reads a vertex or normal out of range; the normal count is unchanged |
| MeshOps.NormalOfLastTriangle | TileBakeLibrary/SubObject.cs:363-375 | a vertex's normal is the face normal of the last triangle that uses it, and is unchanged when no triangle uses it |
| MeshOps.CalculateNormals | TileBakeLibrary/SubObject.cs:363-375 | an index list whose length is not a multiple of three throws; a valid mesh stays valid; only the normals change and their count is kept |
| MeshOps.Compact | TileBakeLibrary/SubObject.cs:136-160 | one vertex and one normal per live id, three indices per live triangle, each in range, and each corner at the position of its triangle's vertex |
| MeshOps.CompactIndices | TileBakeLibrary/SubObject.cs:154-160 | the loop over the triangles writes the compacted index list |
| MeshOps.PositionMap | TileBakeLibrary/SubObject.cs:143-147 | the first loop sends every live vertex id to its position among the ascending live ids |
| MeshOps.RenumberWith | TileBakeLibrary/SubObject.cs:154-161 | looking each triangle corner up in that map gives the corner's compact index |
| MeshOps.SaveMesh | TileBakeLibrary/SubObject.cs:136-164 | the result is a valid mesh with three indices per mesh triangle; only vertices, normals and indices change |
| MeshOps.SaveMeshKeepsCorners | TileBakeLibrary/SubObject.cs:136-164 | every corner of the saved SubObject sits where the mesh's triangle puts it |
| MeshOps.SaveMeshUsesMeshNormals | TileBakeLibrary/SubObject.cs:136-164 | every corner of the saved SubObject carries, within the tolerance, the mesh's normal for that vertex |
| MeshOps.SaveMeshFreshAgrees | TileBakeLibrary/SubObject.cs:136-164 | on a SubObject with no normals yet, saveMesh as written and the corrected one agree |
| MeshOps.SaveMeshAsWrittenUsesStaleNormals | TileBakeLibrary/SubObject.cs:136-152 | as written, the normals list is not cleared, so the merge pairs each new vertex with the old normal at its index |
| MeshOps.SaveMeshKeepsStaleNormal | TileBakeLibrary/SubObject.cs:136-164 | a SubObject with normal North whose mesh gives normal Up keeps North as written and gets Up when corrected |
| MeshOps.Truncate | TileBakeLibrary/SubObject.cs:189 | `(int)` on a double truncates toward zero |
| MeshOps.VertexBudget | TileBakeLibrary/SubObject.cs:187-190 | the budget is the boundary-edge count plus area times density rounded down |
| MeshOps.VertexBudgetTruncates | TileBakeLibrary/SubObject.cs:189 | 10 m² at 0.15 per m² with 4 boundary edges gives a budget of 5, not the 6 that rounding would give |
| MeshOps.SimplifyMesh | TileBakeLibrary/SubObject.cs:166-206 | the simplified SubObject is a valid mesh; only vertices, normals and indices change |
| MeshOps.SimplifyKeepsSmallMesh | TileBakeLibrary/SubObject.cs:168-196 | the mesh, built and with its coincident edges merged, is not reduced when it is within its budget, only written back |
| MeshOps.SimplifyReducesLargeMesh | TileBakeLibrary/SubObject.cs:168-204 | the mesh, built and with its coincident edges merged, when over its budget is reduced to the budget, and the result's corners are the reduced mesh's triangles |
| TileClip.GridFloor | TileBakeLibrary/SubObject.cs:245-246 | the tile line at or below a coordinate: a multiple of the size, within one size of it |
| TileClip.GridCeil | TileBakeLibrary/SubObject.cs:247-248 | the tile line at or above a coordinate: a multiple of the size, within one size of it |
| TileClip.Steps | TileBakeLibrary/SubObject.cs:256 | the loop positions lo, lo+size, … below hi; there are none exactly when lo ≥ hi, and the last one reaches hi within one size |
| TileClip.StepsFit | TileBakeLibrary/SubObject.cs:256 | between two grid lines, every step's cell ends at or before the upper line |
| TileClip.GridSpan | TileBakeLibrary/SubObject.cs:241-248 | the grid rectangle around the mesh bounds contains them and lies on tile lines |
| TileClip.CutColumnMesh | TileBakeLibrary/SubObject.cs:298-320 | when the mesh reaches left of the column's line, what remains of it becomes the column, otherwise it is untouched; a mesh that ends within the column is the column, cut at the left line when it crosses it |
| TileClip.CreateSubobjectFromMesh | TileBakeLibrary/SubObject.cs:284-296 | a piece keeps the id and the submesh, is a valid mesh, and has its centroid inside cell (x, y) |
| TileClip.ClipMesh | TileBakeLibrary/SubObject.cs:322-361 | a cell gives a piece exactly when the row cut leaves vertices, and that piece is centred in the cell |
| TileClip.RowPieces | TileBakeLibrary/SubObject.cs:268-276 | each row line gives at most one piece, and every piece is centred in the cell of the column at that row |
| TileClip.ColumnPieces | TileBakeLibrary/SubObject.cs:258-277 | every piece of a column is centred in a cell of that column whose row lies between the grid lines around the column's bounds |
| TileClip.ColumnsPieces | TileBakeLibrary/SubObject.cs:256-278 | every piece from the column loop keeps the id and the submesh and is centred in a grid cell, with the integer or the real half size, whose column lies in the grid span |
| TileClip.ClipSubobject | TileBakeLibrary/SubObject.cs:239-282 | a mesh within one cell gives no pieces; otherwise every piece is a valid mesh with the id and submesh, centred in a grid cell whose column lies in the mesh's grid span |
| Converter.ApplySemantics | TileBakeLibrary/CityJSONToTileConverter.cs:547-555 | the submesh becomes the rule's target exactly when some attribute has that name and value |
| Converter.LastFiring | TileBakeLibrary/CityJSONToTileConverter.cs:541-557 | the last rule whose attribute matches, or -1 |
| Converter.PickAppend | TileBakeLibrary/CityJSONToTileConverter.cs:541-557 | applying two lists of rules in turn is applying their concatenation |
| Converter.ValuesPickLastFiring | TileBakeLibrary/CityJSONToTileConverter.cs:544-556 | the values of one attribute filter choose the submesh of the last value that matches, else keep the current one |
| Converter.AttributeFiltersPickLastFiring | TileBakeLibrary/CityJSONToTileConverter.cs:541-557 | all attribute filters together choose the submesh of the last matching rule in filter order |
| Converter.LastFilterFor | TileBakeLibrary/CityJSONToTileConverter.cs:534-536 | the last object filter for the type, or -1 |
| Converter.SelectionByLastFilter | TileBakeLibrary/CityJSONToTileConverter.cs:534-560 | with no filter for the type, the submesh is -1 and the density 0; otherwise the last filter for the type gives the density and, through its rules, the submesh |
| Converter.SelectionExample | TileBakeLibrary/CityJSONToTileConverter.cs:534-560 | a building whose "bouwjaar" is "1900" goes to submesh 2, and a later building filter replaces an earlier one |
| Text.RemoveAllAbsent | TileBakeLibrary/CityJSONToTileConverter.cs:577-580 | removing a text that does not occur leaves the id unchanged |
| Text.RemoveAllFirstOccurrence | TileBakeLibrary/CityJSONToTileConverter.cs:577-580 | removing a text keeps everything before its leftmost occurrence, deletes that occurrence and carries on after it; with RemoveAllAbsent this fixes the result for every input |
| Text.RemoveAllOneChar | TileBakeLibrary/CityJSONToTileConverter.cs:577-580 | removing a one-character text deletes every copy of that character and keeps every other character as often as it occurs |
| Converter.FirstNamed | TileBakeLibrary/CityJSONToTileConverter.cs:571-584 | the index of the first attribute with the identifier name, or -1 when no attribute has it |
| Converter.IdFromSemantics | TileBakeLibrary/CityJSONToTileConverter.cs:571-584 | the id is the value of the first attribute named as the identifier, with the removal text stripped; with no such attribute it is the key |
| Converter.ChooseId | TileBakeLibrary/CityJSONToTileConverter.cs:569-585 | with no identifier configured the id is the object's key; otherwise it is the stripped value of the first attribute with the identifier name, or the key when no attribute has that name |
| Converter.AppendTriangle | TileBakeLibrary/CityJSONToTileConverter.cs:620-653 | a triangle surface adds its three points, the next three indices, three copies of its face normal when normals are calculated and of the default normal otherwise, and its outer ring's UVs; what was collected stays in front |
| Converter.AppendPolygon | TileBakeLibrary/CityJSONToTileConverter.cs:661-724 | a polygon adds the triangulator's vertices, moved back by the first point, and its indices shifted past the vertices so far; what was collected stays |
| Converter.AppendSurface | TileBakeLibrary/CityJSONToTileConverter.cs:629-724 | a surface is read exactly when its outer ring has a first point; a ring of one or two points adds nothing; the collected indices stay in range, and whole triangles stay whole when the triangulator returns whole triangles |
| Converter.CollectSurfaces | TileBakeLibrary/CityJSONToTileConverter.cs:629-725 | all surfaces are collected exactly when none has an empty outer ring; every collected index points at a collected vertex; the index count is a multiple of 3 when the triangulator returns whole triangles |
| Converter.TrianglesCollectedInOrder | TileBakeLibrary/CityJSONToTileConverter.cs:632-653 | an object made only of triangles contributes its outer rings' points in order, each triangle indexing its own three points |
| Converter.AppendCityObjectGeometry | TileBakeLibrary/CityJSONToTileConverter.cs:619-734 | succeeds exactly when no surface has an empty outer ring; changes only vertices, normals, UVs and indices, keeping the earlier ones in front; every appended index lies between the old and the new vertex count; when no vertex was collected nothing changes; in-range indices stay in range, and a valid mesh stays valid when the triangulator returns whole triangles |
| Converter.AppendObjects | TileBakeLibrary/CityJSONToTileConverter.cs:592-599 | the object and its children are appended in turn, succeeding exactly when none has an empty outer ring; in-range indices stay in range, and a valid mesh stays valid when the triangulator returns whole triangles |
| Converter.ObjectMesh | TileBakeLibrary/CityJSONToTileConverter.cs:569-599 | the mesh of the object and its children is built exactly when no outer ring is empty; its indices point at its vertices; it carries the chosen id and the selected submesh and density; it is a valid mesh when the triangulator returns whole triangles |
| Converter.MeanCentroid | TileBakeLibrary/CityJSONToTileConverter.cs:607-614 | the centroid is a number exactly when there are vertices; with none it is NaN |
| Converter.CentroidInsideBounds | TileBakeLibrary/CityJSONToTileConverter.cs:607-614 | the centroid lies inside any box that contains every vertex |
| Converter.ToSubObjectMeshData | TileBakeLibrary/CityJSONToTileConverter.cs:522-617 | a null object throws; the result is null exactly when no filter gives a submesh or the built mesh's index count is not a multiple of 3; it throws exactly when a surface has an empty outer ring; otherwise a valid mesh with the selected submesh and density, the chosen id and the mean centroid |
| Converter.WholeTrianglesNeverDropped | TileBakeLibrary/CityJSONToTileConverter.cs:600-605 | with a triangulator that returns whole triangles, an object is null exactly when no filter gives it a submesh |
| Converter.StrayIndexDropped | TileBakeLibrary/CityJSONToTileConverter.cs:600-605 | a selected building whose square wall is triangulated into four indices is null |
| Converter.Prepare | TileBakeLibrary/CityJSONToTileConverter.cs:467-484 | the result is the reduced SubObject with at most its heights changed: exactly the reduced one without spike clipping, and with every height within the band with it; the mesh stays valid and the id, submesh and centroid are kept |
| Converter.Reduce | TileBakeLibrary/CityJSONToTileConverter.cs:467-480 | simplify when a vertex density is set, merge otherwise; a valid mesh stays valid and only vertices, normals and indices change |
| Converter.ProcessFeature | TileBakeLibrary/CityJSONToTileConverter.cs:455-512 | a loading exception passes through; a feature is skipped or throws exactly when ToSubObjectMeshData is null or throws; otherwise, not tiled, the result is exactly the prepared SubObject, and tiled it is the clipped pieces of the prepared SubObject, or that SubObject with its normals recalculated when there are no pieces; every result is a valid mesh with the feature's id and submesh |
| Converter.Features | TileBakeLibrary/CityJSONToTileConverter.cs:437-455 | every index from 0 to the object count is processed once |
| Converter.Gather | TileBakeLibrary/CityJSONToTileConverter.cs:445-519 | the parse throws exactly when a feature throws; otherwise it holds every feature's SubObjects in feature order and counts exactly the skipped features; every SubObject is a valid mesh on a submesh |
| Converter.ContributionsSnoc | TileBakeLibrary/CityJSONToTileConverter.cs:450-516 | one more feature adds its SubObjects after those of the earlier features, and one more skip when it is skipped |
| Converter.FailureSticks | TileBakeLibrary/CityJSONToTileConverter.cs:450-516 | once a feature has thrown, later features do not change the outcome |
| Converter.ParseFailsIffFeatureThrows | TileBakeLibrary/CityJSONToTileConverter.cs:432-520 | the parse throws exactly when processing some index throws |
| Converter.GatherLoop | TileBakeLibrary/CityJSONToTileConverter.cs:450-516 | the loop over the features computes the gathered result |
| Converter.ParseProcess | TileBakeLibrary/CityJSONToTileConverter.cs:432-520 | the parse of a file is the gathered results of its features: their SubObjects in feature order and the number of skipped features; every SubObject is a valid mesh on a submesh |
| Tiling.TileCoord | TileBakeLibrary/CityJSONToTileConverter.cs:281-282 | a NaN coordinate stays NaN; a number is bracketed by its tile line and the next |
| Tiling.TileKeyExamples | TileBakeLibrary/CityJSONToTileConverter.cs:281-282 | with 1000 m tiles, (1500, 2500) lies in tile (1000, 2000) and (999, 999) in tile (0, 0) |
| Tiling.ClippedPieceTile | TileBakeLibrary/CityJSONToTileConverter.cs:281-282 | a clipped piece of cell (x, y) falls in tile (x, y) |
| Tiling.PieceInCellTile | TileBakeLibrary/CityJSONToTileConverter.cs:281-282 | a piece centred in the cell at (x, y) falls in the tile at (x, y) |
| Tiling.ClippedPiecesTiled | TileBakeLibrary/CityJSONToTileConverter.cs:281-282 | every clipped piece gets a finite tile key whose x is a column of the mesh's grid span |
| Tiling.FindTile | TileBakeLibrary/CityJSONToTileConverter.cs:291-303 | the first tile whose position equals the key, or -1 when there is none; NaN equals nothing |
| Tiling.AddKeepsPartition | TileBakeLibrary/CityJSONToTileConverter.cs:279-313 | adding one SubObject keeps the tiles a partition of the SubObjects seen |
| Tiling.BucketPartitions | TileBakeLibrary/CityJSONToTileConverter.cs:276-315 | the tiles have distinct positions and no empty tile; they hold every SubObject once; a finite tile holds exactly the SubObjects with its key; a NaN-keyed SubObject gets a tile of its own; every tile is named from its position |
| Tiling.BucketOrder | TileBakeLibrary/CityJSONToTileConverter.cs:305-312 | tiles are created in the order their first SubObject appears, so positions only grow at the end |
| Tiling.AddKeepsPositions | TileBakeLibrary/CityJSONToTileConverter.cs:291-313 | adding one SubObject leaves the positions of the existing tiles in place at the front of the list |
| Tiling.SearchTiles | TileBakeLibrary/CityJSONToTileConverter.cs:290-304 | the inner loop finds a tile exactly when one with the SubObject's key exists, and then it is the first such tile |
| Tiling.TileSubobjects | TileBakeLibrary/CityJSONToTileConverter.cs:276-315 | the loop computes the bucketing, and the tiles partition the SubObjects |
| Tiling.WriteTileData | TileBakeLibrary/CityJSONToTileConverter.cs:332-361 | every tile is written or skipped; exactly the non-empty tiles whose file name has no "NaN" are written |
| Tiling.SkipMatchesPosition | TileBakeLibrary/CityJSONToTileConverter.cs:346 | when neither the output folder nor the LOD text contains an 'N', the name test skips exactly the empty tiles and the tiles at a NaN position |
| Tiling.NaNFolderSkipsEveryTile | TileBakeLibrary/CityJSONToTileConverter.cs:346 | under an output folder named "out/NaN/" even a filled tile at a finite position is skipped |
| CsvParse.Fields | csvToCityJSON/csvToCityJSON/csvToCityJSON/csv/csvParse.cs:66-71 | a line is kept exactly when it has as many fields as there are columns, and its fields joined by ';' give the line back |
| CsvParse.ItemOf | csvToCityJSON/csvToCityJSON/csvToCityJSON/csv/csvParse.cs:72-79 | the item maps each column to its field; it throws a duplicate-key exception exactly when a column name repeats |
| CsvParse.ParseLines | csvToCityJSON/csvToCityJSON/csvToCityJSON/csv/csvParse.cs:63-80 | one item per data line of the right width, in order; throws exactly when such a line exists and the header repeats a name |
| CsvParse.ParseFile | csvToCityJSON/csvToCityJSON/csvToCityJSON/csv/csvParse.cs:55-82 | an empty file throws; otherwise it throws exactly on a repeated column with some well-formed line; the new items are ParseLines' items, appended after the earlier ones, and new item k maps each column to the field of the k-th well-formed line; the property values are untouched |
| CsvParse.ItemRebuildsLine | csvToCityJSON/csvToCityJSON/csvToCityJSON/csv/csvParse.cs:66-79 | an item's values in column order, joined with ';', give back the line it was read from |
| CsvParse.DuplicateColumnThrows | csvToCityJSON/csvToCityJSON/csvToCityJSON/csv/csvParse.cs:76 | the file "id;id" / "1;2" throws a duplicate-key exception |
| CsvParse.SearchColumn | csvToCityJSON/csvToCityJSON/csvToCityJSON/csv/csvParse.cs:25-36 | the last column with that name, or column 0 when there is none |
| CsvParse.ColumnValues | csvToCityJSON/csvToCityJSON/csvToCityJSON/csv/csvParse.cs:37-50 | the searched field of every well-formed data line, in order |
| CsvParse.AddUnique | csvToCityJSON/csvToCityJSON/csvToCityJSON/csv/csvParse.cs:46-49 | the earlier values stay in front; the result holds exactly the earlier and the new values; no value is added twice |
| CsvParse.AddUniqueFirstSeenOrder | csvToCityJSON/csvToCityJSON/csvToCityJSON/csv/csvParse.cs:37-50 | the added values appear in the order of their first occurrence |
| CsvParse.AddUniqueKeepsDistinctNew | csvToCityJSON/csvToCityJSON/csvToCityJSON/csv/csvParse.cs:46-49 | no added value repeats an earlier one |
| CsvParse.UniquePropertyValues | csvToCityJSON/csvToCityJSON/csvToCityJSON/csv/csvParse.cs:21-53 | an empty file throws; the items are untouched; the earlier values stay in front and stay distinct; a value is present exactly when it was before or is the searched field of a well-formed line |

## Left out

- Floating point. Doubles and floats are reals, so float32 rounding of
  normals and UVs and the `(float)` casts are not modelled. NaN is
  modelled only for the centroid and the tile key.
- Normalising a vector (`Math.Sqrt` in `CalculateNormal`) is the
  parameter `unitNormal`. The face normal is the cross product it is
  applied to.
- The g3 mesh library is the `MeshLibrary` record of functions:
  `DMesh3` construction, bounds, area, boundary edges, `Reducer`, the
  plane cuts and vertex normals. `build` is `createMesh`, with
  `MeshNormals.QuickCompute` inside it. `mergeEdges` is the recomputed
  normals followed by `MergeCoincidentEdges`, which only `SimplifyMesh`
  applies; `clipSubobject` cuts the mesh `build` gives. Their geometry is
  not modelled.
- The Poly2Mesh triangulator is the `Triangulator` type. Its output is
  assumed to have in-range indices, a normal per vertex and, when it has
  UVs, one UV per vertex. An output with fewer normals or UVs than
  vertices would throw in the append loop; that case is not modelled.
  Whole triangles are not assumed, so the check that drops a mesh whose
  index count is not a multiple of 3 is modelled. Triangulation quality
  is not modelled.
- JSON parsing is out of scope. A document is given already parsed:
  object keys in file order, nodes as datatypes. A missing node is an
  `Option`.
- File and console I/O, the stream reader, `Directory.CreateDirectory`,
  the progress counters and `WriteBakingLog` are not modelled.
- Binary export, Brotli compression, `AddObjectsFromBinaryTile` and
  `ParseExistingBinaryTile` are not modelled.
- Parallelism. `Parallel.ForEach` is modelled as a sequential pass in
  index order. A `ConcurrentBag` gives no order, so the order of the
  parsed SubObjects is one of the orders the program may produce. An
  exception in any feature makes the whole parse throw.
- `GetOrAddVertexIndex` is not modelled because no caller reaches it.
- The normal-angle parameter of `MergeSimilarVertices` is not modelled
  because the method body ignores it.
- `skipTrianglesBelowArea` is not modelled: the converter sets it, but
  the object filter configuration and SubObject.cs do not declare it.
- The converter calls `MergeSimilarVertices()`, `ClipSubobject` and
  `CalculateNormals()`, while SubObject.cs declares
  `MergeSimilarVertices(float)`, `clipSubobject` and `calculateNormals`.
  The model maps each call to the declared method.
- `csvItem.cs` is not part of this model. An item is its property map.
- `ParseFile`: items added before a duplicate-key exception are not
  kept. The model returns the exception in place of the whole parser.
- `UniquePropertyValues`: likewise, values added before a failure are not
  kept.
- `ReadObject` and `ReadChildren` carry a fuel bound: the number of
  objects in the file. Each step down a child reference uses one unit. A
  chain of distinct objects is at most that long, so the fuel never runs
  out on a file whose child references are acyclic. It runs out, as
  `StackOverflow`, only on a child cycle, where the code's recursion
  overflows the stack.
- `CityJsonReader.Load`: without "CityObjects" it returns no document.
  The code's constructor returns early instead, and the converter then
  sees an object count of 0 and parses no features. The two are the same
  for the pipeline.
- Tile size is a positive whole number, as the converter's `int`
  field holds it. A non-positive size is outside the model.
- `TilePath`: the text of the LOD is a parameter (`lodText`) instead of
  `float.ToString()`. A coordinate's text is the integer's decimal
  digits, so -0 and exponent notation of large doubles are not modelled.
- `CityJsonReader.ReadEntry`: for either entry type it states the rings
  of each surface and when the read succeeds, not each surface's texture
  and semantics. Those are stated by `ApplyUVs` and `SetSemantics`, which
  it composes.
- `MeshOps.MergeSimilarVerticesAsWritten`: the hash of a normal is a
  parameter, not the .NET default struct hash, so which normals hash
  alike is not modelled.
- `TileClip.CutColumnMesh`: the cut results are library values. Only the
  choice between the cut-off part and the mesh's own triangles is
  stated. It follows the code: after a left cut the SubObject's own mesh
  becomes the column, right cut included, so later columns cut a mesh
  that has already been cut. No corrected variant is modelled, because
  what the cuts leave depends on the mesh library.
- `Converter.Features`: each feature is loaded with
  `LoadCityObjectByIndex`, the corrected child loop, not with
  `LoadCityObjectByIndexAsWritten`. A building with a missing child
  therefore parses here, while the code throws.
- `Converter.Reduce`: it merges with `MergeSimilarVertices`, which
  compares corners by Equals alone, not with
  `MergeSimilarVerticesAsWritten`. It simplifies with `SimplifyMesh`.
- `MeshOps.SimplifyMesh`: it writes back with the corrected `SaveMesh`,
  not with `SaveMeshAsWritten`, so a simplified SubObject gets the
  reduced mesh's normals rather than its old ones.
- `MeshOps.SaveMesh`: it is the corrected `saveMesh`, which replaces the
  normals. Both it and `SaveMeshAsWritten` merge with
  `MergeSimilarVertices`, not the hashed merge.
- `TileClip.ClipSubobject`: the pieces are saved with `SaveMesh` and so
  merged without the hash. A fresh piece has no normals, so the stale
  normals cannot show there (`SaveMeshFreshAgrees`).
- `TileClip.ClipSubobject`: a piece's row is stated to be on the grid, not
  to lie within the mesh's grid span in y. The row lines come from the
  bounds of each cut column, which are mesh-library values.
  `ColumnPieces` states the row bound in terms of those column bounds.
- `Converter.Prepare`: it inherits the corrected merge and write-back
  through `Reduce`.
- `Converter.ProcessFeature`: it inherits them through `Prepare` and
  `ClipSubobject`.
- `Converter.ParseProcess`: it parses with the pipeline above. Its
  SubObjects are those of the corrected pipeline, and a file with a
  missing child key succeeds here but throws in the code.

## Findings

| source | as written | input that shows it | evidently intended | confidence | as-written member | corrected member |
|---|---|---|---|---|---|---|
| TileBakeLibrary/CityJSONParsing/CityJSON.cs:270-283 | a child key that names no object is reported, then read anyway; `ReadCityObject(null)` and `child.keyName` dereference null, and the `child != null` test comes after the dereference | a Building "b-1" with `"children": ["part-1"]` and no object "part-1" | skip the missing or typeless child and keep loading the parent | high, not executed | CityJsonReader.MissingChildThrows | CityJsonReader.LoadCityObjectByIndex |
| TileBakeLibrary/SubObject.cs:136-152 | `saveMesh` clears `vertices` and `triangleIndices` but not `normals`, so the library's normals are appended after the old ones and the merge pairs new vertex i with old normal i | a SubObject with one vertex and normal North whose mesh's normal is Up keeps North | replace the normals along with the vertices | high, not executed | MeshOps.SaveMeshKeepsStaleNormal | MeshOps.SaveMeshUsesMeshNormals |
| TileBakeLibrary/SubObject.cs:396-424 | `vertexNormalCombination` overrides `Equals` with a tolerance but not `GetHashCode`, so the dictionary compares only keys whose default hash, which depends on the exact normal, is equal | two corners at the origin with normals (0,0,1) and (0,0,1.0005) stay two vertices when their default hashes differ | corners with the same position and nearly the same normal merge | medium, not executed | MeshOps.TiltedOriginKeptWithNormalHash | MeshOps.TiltedOriginMerged |

=== FILE: cityjson.dfy ===
/**
  The feature reader (CityJSON class): the vertex transform applied when a
  document is loaded, and the flattening of one city object, with its geometry
  entries of the requested LOD and its children, into surfaces that each have
  an outer ring and holes.

  The document arrives already parsed. Its JSON shapes are the records below.
  A JSON `null` inside a semantics or texture value array is `None`. The
  reader's `AsInt` turns it into 0.
 */
module CityJsonReader {
  import opened Common

  /** A name/value pair: a feature attribute or a field of a semantic surface. */
  datatype Semantic = Semantic(name: string, value: string)

  /** A surface boundary: ring 0 is the outer ring, rings 1.. are holes; entries are vertex references. */
  type Rings = seq<seq<int>>

  /** A surface's texture rings; entry 0 of ring 0 names the texture, the rest are texture-vertex references. */
  type UVRings = seq<seq<Option<int>>>

  /** `semantics` of a MultiSurface: the semantic surfaces and one value per surface. */
  datatype SemanticsNode = SemanticsNode(surfaces: seq<seq<Semantic>>, values: seq<Option<int>>)

  /** `semantics` of a Solid: the semantic surfaces and one value list per shell. */
  datatype SolidSemanticsNode = SolidSemanticsNode(surfaces: seq<seq<Semantic>>, shellValues: seq<seq<Option<int>>>)

  /** One entry of a city object's `geometry` array. Texture values are those of the first theme. */
  datatype GeometryNode =
    | SolidNode(lod: real, shells: seq<seq<Rings>>, shellUVs: Option<seq<seq<UVRings>>>,
                solidSemantics: Option<SolidSemanticsNode>)
    | MultiSurfaceNode(lod: real, surfaces: seq<Rings>, surfaceUVs: Option<seq<UVRings>>,
                       semantics: Option<SemanticsNode>)
    | OtherNode(lod: real, typeName: string)

  datatype ObjectNode = ObjectNode(
    objectType: Option<string>,
    attributes: Option<seq<Semantic>>,
    geometry: seq<GeometryNode>,
    children: Option<seq<string>>)

  datatype TransformNode = TransformNode(scale: Option<Vec3>, translate: Option<Vec3>)

  datatype TextureNode = TextureNode(image: string, wrapMode: string)

  /** A parsed CityJSON document; `CityObjects` keeps the key order of the file. */
  datatype Document = Document(
    cityObjects: Option<seq<(string, ObjectNode)>>,
    transform: Option<TransformNode>,
    vertices: seq<Vec3>,
    textureVertices: seq<Vec2>,
    textures: seq<TextureNode>)

  datatype SurfaceTexture = SurfaceTexture(path: string, wrapMode: string)

  /** A loaded document: transformed vertices plus the reader's hole-filter settings. */
  datatype CityJson = CityJson(
    objects: seq<(string, ObjectNode)>,
    vertices: seq<Vec3>,
    textureVertices: seq<Vec2>,
    textures: seq<SurfaceTexture>,
    transformOffset: Vec3,
    minHoleVertices: int,
    minHoleSize: real)

  datatype Surface = Surface(
    outerRing: seq<Vec3>,
    innerRings: seq<seq<Vec3>>,
    outerRingUVs: seq<Vec2>,
    innerRingUVs: seq<seq<Vec2>>,
    surfaceType: Option<string>,
    semantics: seq<Semantic>,
    texture: Option<SurfaceTexture>,
    textureNumber: int)

  datatype CityObject = CityObject(
    objectType: string,
    keyName: string,
    semantics: seq<Semantic>,
    surfaces: seq<Surface>,
    children: seq<CityObject>)

  /** A surface as the Surface constructor leaves it, with its rings filled in. */
  function NewSurface(outer: seq<Vec3>, inner: seq<seq<Vec3>>): Surface {
    Surface(outer, inner, [], [], None, [], None, -1)
  }

  // ---------------------------------------------------------------- loading

  const DefaultMinHoleVertices: int := 3
  const DefaultMinHoleSize: real := 1.0

  function ApplyTransform(v: Vec3, scale: Vec3, offset: Vec3): Vec3 {
    Vec3(v.x * scale.x + offset.x, v.y * scale.y + offset.y, v.z * scale.z + offset.z)
  }

  function TransformScale(doc: Document, applyScale: bool): (s: Vec3)
    ensures !applyScale || doc.transform.None? ==> s == Vec3(1.0, 1.0, 1.0)
  {
    if applyScale && doc.transform.Some? && doc.transform.value.scale.Some?
    then doc.transform.value.scale.value else Vec3(1.0, 1.0, 1.0)
  }

  function TransformOffset(doc: Document, applyOffset: bool): (o: Vec3)
    ensures !applyOffset || doc.transform.None? ==> o == Vec3(0.0, 0.0, 0.0)
  {
    if applyOffset && doc.transform.Some? && doc.transform.value.translate.Some?
    then doc.transform.value.translate.value else Vec3(0.0, 0.0, 0.0)
  }

  function TransformAll(raw: seq<Vec3>, scale: Vec3, offset: Vec3): (r: seq<Vec3>)
    ensures |r| == |raw|
    ensures forall i | 0 <= i < |raw| :: r[i] == ApplyTransform(raw[i], scale, offset)
  {
    seq(|raw|, i requires 0 <= i < |raw| => ApplyTransform(raw[i], scale, offset))
  }

  /**
    The CityJSON constructor: a document without `CityObjects` fails to load;
    otherwise every raw vertex becomes raw * scale + offset, component-wise.
   */
  function Load(filePath: string, doc: Document, applyScale: bool, applyOffset: bool,
                minHoleVertices: int, minHoleSize: real): (r: Option<CityJson>)
    ensures r.None? <==> doc.cityObjects.None?
    ensures r.Some? ==> r.value.objects == doc.cityObjects.value
    ensures r.Some? ==> |r.value.vertices| == |doc.vertices|
    ensures r.Some? ==> forall i | 0 <= i < |doc.vertices| ::
      r.value.vertices[i] == ApplyTransform(doc.vertices[i], TransformScale(doc, applyScale), TransformOffset(doc, applyOffset))
    ensures r.Some? ==> r.value.textureVertices == doc.textureVertices
    ensures r.Some? ==> |r.value.textures| == |doc.textures|
    ensures r.Some? ==> forall i | 0 <= i < |doc.textures| ::
      r.value.textures[i] == SurfaceTexture(filePath + doc.textures[i].image, doc.textures[i].wrapMode)
  {
    if doc.cityObjects.None? then None
    else
      var scale := TransformScale(doc, applyScale);
      var offset := TransformOffset(doc, applyOffset);
      var textures := seq(|doc.textures|, i requires 0 <= i < |doc.textures| =>
        SurfaceTexture(filePath + doc.textures[i].image, doc.textures[i].wrapMode));
      Some(CityJson(doc.cityObjects.value, TransformAll(doc.vertices, scale, offset),
                    doc.textureVertices, textures, offset, minHoleVertices, minHoleSize))
  }

  /** Without a transform (or with both parts disabled) the vertices are read unchanged. */
  lemma LoadWithoutTransform(filePath: string, doc: Document, applyScale: bool, applyOffset: bool)
    requires doc.cityObjects.Some?
    requires doc.transform.None? || (!applyScale && !applyOffset)
    ensures Load(filePath, doc, applyScale, applyOffset, DefaultMinHoleVertices, DefaultMinHoleSize).value.vertices
            == doc.vertices
  {
    var r := Load(filePath, doc, applyScale, applyOffset, DefaultMinHoleVertices, DefaultMinHoleSize).value;
    assert forall i | 0 <= i < |doc.vertices| :: r.vertices[i] == doc.vertices[i];
  }

  // ------------------------------------------------------- ring references

  /** `table[ref]` for every reference, in order; a reference out of range throws. */
  function LookupAll<T>(refs: seq<int>, table: seq<T>): (r: Outcome<seq<T>>)
    ensures r.Ok? <==> forall i | 0 <= i < |refs| :: 0 <= refs[i] < |table|
    ensures r.Ok? ==> |r.value| == |refs|
    ensures r.Ok? ==> forall i | 0 <= i < |refs| :: r.value[i] == table[refs[i]]
    decreases |refs|
  {
    if |refs| == 0 then Ok([])
    else
      var head :- At(table, refs[0]);
      var rest :- LookupAll(refs[1..], table);
      Ok([head] + rest)
  }

  function LookupRings(rings: seq<seq<int>>, vertices: seq<Vec3>): (r: Outcome<seq<seq<Vec3>>>)
    ensures r.Ok? <==> forall i | 0 <= i < |rings| :: LookupAll(rings[i], vertices).Ok?
    ensures r.Ok? ==> |r.value| == |rings|
    ensures r.Ok? ==> forall i | 0 <= i < |rings| :: r.value[i] == LookupAll(rings[i], vertices).value
    decreases |rings|
  {
    if |rings| == 0 then Ok([])
    else
      var head :- LookupAll(rings[0], vertices);
      var rest :- LookupRings(rings[1..], vertices);
      Ok([head] + rest)
  }

  /** JSON `AsInt`: a null entry reads as 0. */
  function AsInt(v: Option<int>): int {
    v.GetOr(0)
  }

  function AsInts(vs: seq<Option<int>>): (r: seq<int>)
    ensures |r| == |vs|
    ensures forall i | 0 <= i < |vs| :: r[i] == AsInt(vs[i])
  {
    seq(|vs|, i requires 0 <= i < |vs| => AsInt(vs[i]))
  }

  // ---------------------------------------------------------------- holes

  function ShoelaceTerm(a: Vec3, b: Vec3): real {
    a.x * b.z - a.z * b.x
  }

  /** Sum of the shoelace terms from vertex j on, over X and Z, wrapping to vertex 0. */
  function ShoelaceSum(ring: seq<Vec3>, j: nat): real
    requires j <= |ring|
    decreases |ring| - j
  {
    if j == |ring| then 0.0
    else ShoelaceTerm(ring[j], ring[(j + 1) % |ring|]) + ShoelaceSum(ring, j + 1)
  }

  /**
    The shoelace area of a hole over its X and Z coordinates. Heights are Z in
    this code base, so this is the area of the hole's projection onto the
    vertical X/Z plane, not its area seen from above.
   */
  function HoleArea(ring: seq<Vec3>): real {
    Abs(ShoelaceSum(ring, 0)) / 2.0
  }

  /** A square of side s, axis-aligned in X and Z, has area s², whatever its Y coordinates. */
  lemma SquareHoleArea(a: real, b: real, s: real, y0: real, y1: real, y2: real, y3: real)
    requires s >= 0.0
    ensures HoleArea([Vec3(a, y0, b), Vec3(a + s, y1, b), Vec3(a + s, y2, b + s), Vec3(a, y3, b + s)]) == s * s
  {
    var ring := [Vec3(a, y0, b), Vec3(a + s, y1, b), Vec3(a + s, y2, b + s), Vec3(a, y3, b + s)];
    assert ShoelaceSum(ring, 4) == 0.0;
    assert ShoelaceSum(ring, 3) == a * b - (b + s) * a;
    assert ShoelaceSum(ring, 2) == (a + s) * (b + s) - (b + s) * a + ShoelaceSum(ring, 3);
    assert ShoelaceSum(ring, 1) == (a + s) * (b + s) - b * (a + s) + ShoelaceSum(ring, 2);
    assert ShoelaceSum(ring, 0) == a * b - b * (a + s) + ShoelaceSum(ring, 1);
    assert ShoelaceSum(ring, 0) == 2.0 * s * s;
  }

  predicate KeepHole(hole: seq<Vec3>, minHoleVertices: int, minHoleSize: real) {
    |hole| >= minHoleVertices && HoleArea(hole) >= minHoleSize
  }

  /** With every point at height z, the shoelace sum from vertex j on telescopes to z * (x_j - x_0). */
  lemma {:induction false} FlatShoelace(ring: seq<Vec3>, z: real, j: nat)
    requires j < |ring|
    requires forall k | 0 <= k < |ring| :: ring[k].z == z
    ensures ShoelaceSum(ring, j) == z * (ring[j].x - ring[0].x)
    decreases |ring| - j
  {
    var next := if j + 1 < |ring| then j + 1 else 0;
    assert (j + 1) % |ring| == next;
    var a, b := ring[j], ring[next];
    assert ShoelaceTerm(a, b) == z * (a.x - b.x) by {
      assert a.z == z && b.z == z;
      assert a.x * b.z - a.z * b.x == a.x * z - z * b.x;
    }
    if j + 1 < |ring| {
      FlatShoelace(ring, z, j + 1);
    }
  }

  /**
    A horizontal hole, all of whose points share one height, measures 0 and
    is dropped whenever a positive minimum area is set.
   */
  lemma FlatHoleDropped(hole: seq<Vec3>, z: real, minHoleVertices: int, minHoleSize: real)
    requires forall k | 0 <= k < |hole| :: hole[k].z == z
    requires minHoleSize > 0.0
    ensures HoleArea(hole) == 0.0
    ensures !KeepHole(hole, minHoleVertices, minHoleSize)
  {
    if |hole| > 0 {
      FlatShoelace(hole, z, 0);
    }
  }

  /** `a` is `b` with some elements left out, the rest in their order. */
  predicate SubsequenceOf<T(==)>(a: seq<T>, b: seq<T>)
    decreases |b|
  {
    |a| == 0 || (|b| > 0 && ((a[0] == b[0] && SubsequenceOf(a[1..], b[1..])) || SubsequenceOf(a, b[1..])))
  }

  /**
    The holes that survive filtering: too few vertices or too small an area
    drops a hole; the kept ones stay in order, each as often as it occurs.
   */
  function KeptHoles(holes: seq<seq<Vec3>>, minHoleVertices: int, minHoleSize: real): (r: seq<seq<Vec3>>)
    ensures forall i | 0 <= i < |r| :: KeepHole(r[i], minHoleVertices, minHoleSize)
    ensures forall i | 0 <= i < |holes| :: KeepHole(holes[i], minHoleVertices, minHoleSize) ==> holes[i] in r
    ensures SubsequenceOf(r, holes)
    ensures forall h :: multiset(r)[h] == if KeepHole(h, minHoleVertices, minHoleSize) then multiset(holes)[h] else 0
    decreases |holes|
  {
    if |holes| == 0 then []
    else
      var rest := KeptHoles(holes[1..], minHoleVertices, minHoleSize);
      assert forall i | 1 <= i < |holes| :: holes[i] == holes[1..][i - 1];
      assert holes == [holes[0]] + holes[1..];
      assert multiset(holes) == multiset{holes[0]} + multiset(holes[1..]);
      if KeepHole(holes[0], minHoleVertices, minHoleSize) then [holes[0]] + rest else rest
  }

  /**
    ReadSurfaceVectors: the outer ring is the referenced vertices in order; the
    holes are looked up the same way and then filtered.
   */
  function ReadSurfaceVectors(cj: CityJson, rings: Rings): (r: Outcome<Surface>)
    ensures r.Ok? ==> LookupAll(if |rings| > 0 then rings[0] else [], cj.vertices) == Ok(r.value.outerRing)
    ensures r.Ok? ==> r.value.textureNumber == -1 && r.value.semantics == []
    ensures r.Ok? ==> forall i | 0 <= i < |r.value.innerRings| ::
      |r.value.innerRings[i]| >= cj.minHoleVertices && HoleArea(r.value.innerRings[i]) >= cj.minHoleSize
    ensures r.Ok? ==>
      var holes := LookupRings(if |rings| > 1 then rings[1..] else [], cj.vertices);
      holes.Ok? && SubsequenceOf(r.value.innerRings, holes.value)
    ensures r.Ok? ==>
      r.value.innerRings == KeptHoles(LookupRings(if |rings| > 1 then rings[1..] else [], cj.vertices).value,
                                      cj.minHoleVertices, cj.minHoleSize)
    ensures (forall i | 0 <= i < |rings| :: LookupAll(rings[i], cj.vertices).Ok?) ==> r.Ok?
  {
    var outer :- LookupAll(if |rings| > 0 then rings[0] else [], cj.vertices);
    var holes :- LookupRings(if |rings| > 1 then rings[1..] else [], cj.vertices);
    Ok(NewSurface(outer, KeptHoles(holes, cj.minHoleVertices, cj.minHoleSize)))
  }

  function ReadSurfaces(cj: CityJson, boundaries: seq<Rings>): (r: Outcome<seq<Surface>>)
    ensures r.Ok? ==> |r.value| == |boundaries|
    ensures r.Ok? ==> forall i | 0 <= i < |boundaries| :: ReadSurfaceVectors(cj, boundaries[i]) == Ok(r.value[i])
    decreases |boundaries|
  {
    if |boundaries| == 0 then Ok([])
    else
      var head :- ReadSurfaceVectors(cj, boundaries[0]);
      var rest :- ReadSurfaces(cj, boundaries[1..]);
      Ok([head] + rest)
  }

  /** The surfaces read exactly when every one of them reads. */
  lemma {:induction false} ReadSurfacesOk(cj: CityJson, boundaries: seq<Rings>)
    ensures ReadSurfaces(cj, boundaries).Ok? <==> forall i | 0 <= i < |boundaries| :: ReadSurfaceVectors(cj, boundaries[i]).Ok?
    decreases |boundaries|
  {
    if |boundaries| > 0 {
      var rest := boundaries[1..];
      ReadSurfacesOk(cj, rest);
      assert forall i | 1 <= i < |boundaries| :: boundaries[i] == rest[i - 1];
    }
  }

  /**
    ReadSolid: only the exterior shell `boundaries[0]` is read; interior
    shells neither add surfaces nor make the read fail.
   */
  function ReadSolid(cj: CityJson, shells: seq<seq<Rings>>): (r: Outcome<seq<Surface>>)
    ensures |shells| == 0 ==> r == Ok([])
    ensures |shells| > 0 ==> (r.Ok? <==> forall i | 0 <= i < |shells[0]| :: ReadSurfaceVectors(cj, shells[0][i]).Ok?)
    ensures r.Ok? && |shells| > 0 ==>
      && |r.value| == |shells[0]|
      && forall i | 0 <= i < |shells[0]| :: ReadSurfaceVectors(cj, shells[0][i]) == Ok(r.value[i])
  {
    if |shells| == 0 then Ok([])
    else
      ReadSurfacesOk(cj, shells[0]);
      ReadSurfaces(cj, shells[0])
  }

  // ------------------------------------------------------------- semantics

  /** ReadSemantics: the key/value pairs of a node in key order; nothing for a null node. */
  function ReadSemantics(node: Option<seq<Semantic>>): (r: seq<Semantic>)
    ensures node.None? ==> r == []
    ensures node.Some? ==> r == node.value
  {
    node.GetOr([])
  }

  /** The first field with this name, as `node["name"]` finds it. */
  function FieldValue(fields: seq<Semantic>, name: string): (r: Option<string>)
    ensures r.Some? <==> exists i | 0 <= i < |fields| :: fields[i].name == name
    ensures r.Some? ==> exists i | 0 <= i < |fields| :: fields[i].name == name && fields[i].value == r.value
    decreases |fields|
  {
    if |fields| == 0 then None
    else if fields[0].name == name then Some(fields[0].value)
    else
      var r := FieldValue(fields[1..], name);
      assert forall i | 1 <= i < |fields| :: fields[i] == fields[1..][i - 1];
      r
  }

  /** `semantics.surfaces[value]`: an index out of range (or negative) yields a null node. */
  function SemanticSurface(surfaces: seq<seq<Semantic>>, value: Option<int>): Option<seq<Semantic>> {
    var id := AsInt(value);
    if 0 <= id < |surfaces| then Some(surfaces[id]) else None
  }

  function WithSemantics(s: Surface, node: Option<seq<Semantic>>, withType: bool): Surface {
    if withType then s.(surfaceType := if node.Some? then FieldValue(node.value, "type") else None,
                        semantics := ReadSemantics(node))
    else s.(semantics := ReadSemantics(node))
  }

  /**
    Surface i takes its semantics (and, when `withType`, its SurfaceType) from
    `surfaces[values[i]]`; more values than surfaces throws.
   */
  function SetSemantics(surfs: seq<Surface>, surfaces: seq<seq<Semantic>>, values: seq<Option<int>>,
                        withType: bool): (r: Outcome<seq<Surface>>)
    ensures r.Ok? <==> |values| <= |surfs|
    ensures r.Ok? ==> |r.value| == |surfs|
    ensures r.Ok? ==> forall i | 0 <= i < |values| ::
      r.value[i] == WithSemantics(surfs[i], SemanticSurface(surfaces, values[i]), withType)
    ensures r.Ok? ==> forall i | |values| <= i < |surfs| :: r.value[i] == surfs[i]
    decreases |values|
  {
    if |values| == 0 then Ok(surfs)
    else
      var prev :- SetSemantics(surfs, surfaces, values[..|values| - 1], withType);
      var i := |values| - 1;
      var s :- At(prev, i);
      Ok(prev[i := WithSemantics(s, SemanticSurface(surfaces, values[i]), withType)])
  }

  /** ReadMultiSurface: ring 0 is the outer ring, rings 1.. are holes, unfiltered. */
  function MultiSurfaceRings(cj: CityJson, rings: Rings): (r: Outcome<Surface>)
    ensures r.Ok? ==> LookupAll(if |rings| > 0 then rings[0] else [], cj.vertices) == Ok(r.value.outerRing)
    ensures r.Ok? ==> LookupRings(if |rings| > 1 then rings[1..] else [], cj.vertices) == Ok(r.value.innerRings)
    ensures r.Ok? ==> r.value.textureNumber == -1 && r.value.semantics == []
    ensures r.Ok? <==> LookupAll(if |rings| > 0 then rings[0] else [], cj.vertices).Ok? &&
                       LookupRings(if |rings| > 1 then rings[1..] else [], cj.vertices).Ok?
  {
    var outer :- LookupAll(if |rings| > 0 then rings[0] else [], cj.vertices);
    var holes :- LookupRings(if |rings| > 1 then rings[1..] else [], cj.vertices);
    Ok(NewSurface(outer, holes))
  }

  function MultiSurfaces(cj: CityJson, boundaries: seq<Rings>): (r: Outcome<seq<Surface>>)
    ensures r.Ok? ==> |r.value| == |boundaries|
    ensures r.Ok? ==> forall i | 0 <= i < |boundaries| :: MultiSurfaceRings(cj, boundaries[i]) == Ok(r.value[i])
    decreases |boundaries|
  {
    if |boundaries| == 0 then Ok([])
    else
      var head :- MultiSurfaceRings(cj, boundaries[0]);
      var rest :- MultiSurfaces(cj, boundaries[1..]);
      Ok([head] + rest)
  }

  /** The boundaries of a MultiSurface read exactly when every one of them reads. */
  lemma {:induction false} MultiSurfacesOk(cj: CityJson, boundaries: seq<Rings>)
    ensures MultiSurfaces(cj, boundaries).Ok? <==> forall i | 0 <= i < |boundaries| :: MultiSurfaceRings(cj, boundaries[i]).Ok?
    decreases |boundaries|
  {
    if |boundaries| > 0 {
      var rest := boundaries[1..];
      MultiSurfacesOk(cj, rest);
      assert forall i | 1 <= i < |boundaries| :: boundaries[i] == rest[i - 1];
    }
  }

  /**
    ReadMultiSurface: one surface per boundary, its rings looked up with the
    holes kept unfiltered; then value i gives surface i its semantics and
    SurfaceType. More values than boundaries throws, as does a reference
    out of range.
   */
  function ReadMultiSurface(cj: CityJson, boundaries: seq<Rings>, sem: Option<SemanticsNode>): (r: Outcome<seq<Surface>>)
    ensures r.Ok? ==> |r.value| == |boundaries|
    ensures r.Ok? <==> (forall i | 0 <= i < |boundaries| :: MultiSurfaceRings(cj, boundaries[i]).Ok?) &&
                       (sem.None? || |sem.value.values| <= |boundaries|)
    ensures r.Ok? ==> forall i | 0 <= i < |boundaries| ::
      var read := MultiSurfaceRings(cj, boundaries[i]);
      && read.Ok?
      && r.value[i].outerRing == read.value.outerRing
      && r.value[i].innerRings == read.value.innerRings
      && r.value[i].textureNumber == -1
    ensures r.Ok? ==> forall i | 0 <= i < |boundaries| && (sem.None? || |sem.value.values| <= i) ::
      r.value[i] == MultiSurfaceRings(cj, boundaries[i]).value
    ensures r.Ok? && sem.Some? ==> |sem.value.values| <= |boundaries|
    ensures r.Ok? && sem.Some? ==> forall i | 0 <= i < |sem.value.values| && i < |boundaries| ::
      var node := SemanticSurface(sem.value.surfaces, sem.value.values[i]);
      r.value[i].semantics == ReadSemantics(node) &&
      r.value[i].surfaceType == (if node.Some? then FieldValue(node.value, "type") else None)
  {
    MultiSurfacesOk(cj, boundaries);
    var surfs :- MultiSurfaces(cj, boundaries);
    if sem.None? then Ok(surfs)
    else
      SemanticsKeepRings(surfs, sem.value.surfaces, sem.value.values, true);
      SetSemantics(surfs, sem.value.surfaces, sem.value.values, true)
  }

  /** Attaching semantics leaves every surface's rings and texture number as they were. */
  lemma SemanticsKeepRings(surfs: seq<Surface>, surfaces: seq<seq<Semantic>>, values: seq<Option<int>>, withType: bool)
    ensures var r := SetSemantics(surfs, surfaces, values, withType);
            r.Ok? ==> forall i | 0 <= i < |surfs| ::
              && r.value[i].outerRing == surfs[i].outerRing
              && r.value[i].innerRings == surfs[i].innerRings
              && r.value[i].textureNumber == surfs[i].textureNumber
  {
    var r := SetSemantics(surfs, surfaces, values, withType);
    if r.Ok? {
      forall i | 0 <= i < |surfs|
        ensures r.value[i].outerRing == surfs[i].outerRing && r.value[i].innerRings == surfs[i].innerRings
        ensures r.value[i].textureNumber == surfs[i].textureNumber
      {
        if i < |values| {
          assert r.value[i] == WithSemantics(surfs[i], SemanticSurface(surfaces, values[i]), withType);
        }
      }
    }
  }

  // ----------------------------------------------------------------- UVs

  /**
    AddSurfaceUVs: the first outer entry names the texture while the surface
    has none (-1); the other outer entries map through the texture vertices;
    each inner ring drops its first entry and maps the rest. Texture and
    texture-vertex references out of range throw.
   */
  function AddSurfaceUVs(cj: CityJson, node: UVRings, surf: Surface): (r: Outcome<Surface>)
    ensures r.Ok? ==> r.value.outerRing == surf.outerRing && r.value.innerRings == surf.innerRings
    ensures r.Ok? && surf.textureNumber == -1 && |node| > 0 && |node[0]| > 0 ==>
      var first := AsInt(node[0][0]);
      && r.value.textureNumber == first
      && 0 <= first < |cj.textures|
      && r.value.texture == Some(cj.textures[first])
      && |r.value.outerRingUVs| == |node[0]| - 1
      && forall k | 0 <= k < |node[0]| - 1 :: 0 <= AsInt(node[0][k + 1]) < |cj.textureVertices| &&
                                                 r.value.outerRingUVs[k] == cj.textureVertices[AsInt(node[0][k + 1])]
    ensures r.Ok? && surf.textureNumber != -1 && |node| > 0 ==>
      && r.value.textureNumber == surf.textureNumber
      && |r.value.outerRingUVs| == |node[0]|
      && forall k | 0 <= k < |node[0]| :: 0 <= AsInt(node[0][k]) < |cj.textureVertices| &&
                                             r.value.outerRingUVs[k] == cj.textureVertices[AsInt(node[0][k])]
    ensures r.Ok? && |node| == 0 ==> r.value.outerRingUVs == [] && r.value.innerRingUVs == surf.innerRingUVs
    ensures r.Ok? && |node| > 0 ==>
      && |r.value.innerRingUVs| == |surf.innerRingUVs| + |node| - 1
      && r.value.innerRingUVs[..|surf.innerRingUVs|] == surf.innerRingUVs
      && forall i | 1 <= i < |node| ::
           LookupAll(AsInts(DropFirst(node[i])), cj.textureVertices) == Ok(r.value.innerRingUVs[|surf.innerRingUVs| + i - 1])
  {
    var s1 :- OuterUVs(cj, if |node| > 0 then node[0] else [], surf);
    var inner :- InnerUVs(cj, if |node| > 1 then node[1..] else []);
    Ok(s1.(innerRingUVs := surf.innerRingUVs + inner))
  }

  /** The outer-ring part of AddSurfaceUVs; only the texture fields and the outer UVs change. */
  function OuterUVs(cj: CityJson, outer: seq<Option<int>>, surf: Surface): (r: Outcome<Surface>)
    ensures r.Ok? ==> r.value == surf.(textureNumber := r.value.textureNumber, texture := r.value.texture,
                                       outerRingUVs := r.value.outerRingUVs)
    ensures r.Ok? && surf.textureNumber == -1 && |outer| > 0 ==>
      var first := AsInt(outer[0]);
      && r.value.textureNumber == first
      && 0 <= first < |cj.textures|
      && r.value.texture == Some(cj.textures[first])
      && |r.value.outerRingUVs| == |outer| - 1
      && forall k | 0 <= k < |outer| - 1 :: 0 <= AsInt(outer[k + 1]) < |cj.textureVertices| &&
                                               r.value.outerRingUVs[k] == cj.textureVertices[AsInt(outer[k + 1])]
    ensures r.Ok? && !(surf.textureNumber == -1 && |outer| > 0) ==>
      && r.value.textureNumber == surf.textureNumber
      && |r.value.outerRingUVs| == |outer|
      && forall k | 0 <= k < |outer| :: 0 <= AsInt(outer[k]) < |cj.textureVertices| &&
                                           r.value.outerRingUVs[k] == cj.textureVertices[AsInt(outer[k])]
  {
    if surf.textureNumber == -1 && |outer| > 0 then
      var first := AsInt(outer[0]);
      var tex :- At(cj.textures, first);
      var uvs :- LookupAll(AsInts(outer[1..]), cj.textureVertices);
      Ok(surf.(textureNumber := first, texture := Some(tex), outerRingUVs := uvs))
    else
      var uvs :- LookupAll(AsInts(outer), cj.textureVertices);
      Ok(surf.(outerRingUVs := uvs))
  }

  /** A ring without its first entry; an empty ring stays empty. */
  function DropFirst<T>(ring: seq<T>): (r: seq<T>)
    ensures |r| == if |ring| == 0 then 0 else |ring| - 1
    ensures forall k | 0 <= k < |r| :: r[k] == ring[k + 1]
  {
    if |ring| == 0 then [] else ring[1..]
  }

  /** The inner-ring UV lists: the first entry of each ring is skipped. */
  function InnerUVs(cj: CityJson, rings: seq<seq<Option<int>>>): (r: Outcome<seq<seq<Vec2>>>)
    ensures r.Ok? ==> |r.value| == |rings|
    ensures r.Ok? ==> forall i | 0 <= i < |rings| :: LookupAll(AsInts(DropFirst(rings[i])), cj.textureVertices) == Ok(r.value[i])
    decreases |rings|
  {
    if |rings| == 0 then Ok([])
    else
      var head :- LookupAll(AsInts(DropFirst(rings[0])), cj.textureVertices);
      var rest :- InnerUVs(cj, rings[1..]);
      Ok([head] + rest)
  }

  /** Surfaces start.. take the UV lists in order; a list without a surface throws. */
  function ApplyUVs(cj: CityJson, surfs: seq<Surface>, nodes: seq<UVRings>, start: nat): (r: Outcome<seq<Surface>>)
    ensures r.Ok? && |nodes| > 0 ==> start + |nodes| <= |surfs|
    ensures r.Ok? ==> |r.value| == |surfs|
    ensures r.Ok? ==> forall i | 0 <= i < |surfs| && !(start <= i < start + |nodes|) :: r.value[i] == surfs[i]
    ensures r.Ok? ==> forall i | 0 <= i < |surfs| ::
      r.value[i].outerRing == surfs[i].outerRing && r.value[i].innerRings == surfs[i].innerRings
    decreases |nodes|
  {
    if |nodes| == 0 then Ok(surfs)
    else
      var s :- At(surfs, start);
      var s' :- AddSurfaceUVs(cj, nodes[0], s);
      ApplyUVs(cj, surfs[start := s'], nodes[1..], start + 1)
  }

  // ------------------------------------------------------ geometry entries

  /** A geometry entry is used when no LOD is requested (-1) or its LOD is the requested one. */
  predicate Selected(g: GeometryNode, lod: real) {
    lod == -1.0 || g.lod == lod
  }

  /**
    The surfaces one Solid or MultiSurface entry yields, after its textures and
    semantics are attached; None for an entry of any other type, which leaves
    the surfaces read so far as they are.
   */
  function ReadEntry(cj: CityJson, g: GeometryNode): (r: Outcome<Option<seq<Surface>>>)
    ensures g.OtherNode? <==> r == Ok(None)
    ensures g.SolidNode? && r.Ok? ==>
      && ReadSolid(cj, g.shells).Ok?
      && |r.value.value| == |ReadSolid(cj, g.shells).value|
      && forall i | 0 <= i < |r.value.value| ::
           && r.value.value[i].outerRing == ReadSolid(cj, g.shells).value[i].outerRing
           && r.value.value[i].innerRings == ReadSolid(cj, g.shells).value[i].innerRings
    ensures g.SolidNode? ==>
      (r.Ok? <==> && ReadSolid(cj, g.shells).Ok?
                  && SolidUVs(cj, ReadSolid(cj, g.shells).value, g.shellUVs).Ok?
                  && (g.solidSemantics.None? || |ShellValues(g.solidSemantics.value)| <= |ReadSolid(cj, g.shells).value|))
    ensures g.MultiSurfaceNode? && r.Ok? ==>
      && ReadMultiSurface(cj, g.surfaces, g.semantics).Ok?
      && |r.value.value| == |g.surfaces|
      && forall i | 0 <= i < |g.surfaces| ::
           && r.value.value[i].outerRing == ReadMultiSurface(cj, g.surfaces, g.semantics).value[i].outerRing
           && r.value.value[i].innerRings == ReadMultiSurface(cj, g.surfaces, g.semantics).value[i].innerRings
    ensures g.MultiSurfaceNode? ==>
      (r.Ok? <==> && ReadMultiSurface(cj, g.surfaces, g.semantics).Ok?
                  && (g.surfaceUVs.None? || ApplyUVs(cj, ReadMultiSurface(cj, g.surfaces, g.semantics).value, g.surfaceUVs.value, 0).Ok?))
  {
    match g
    case SolidNode(_, shells, uvs, sem) =>
      var s0 :- ReadSolid(cj, shells);
      var s1 :- SolidUVs(cj, s0, uvs);
      if sem.None? then Ok(Some(s1))
      else
        SemanticsKeepRings(s1, sem.value.surfaces, ShellValues(sem.value), false);
        var s2 :- SetSemantics(s1, sem.value.surfaces, ShellValues(sem.value), false);
        Ok(Some(s2))
    case MultiSurfaceNode(_, boundaries, uvs, sem) =>
      var s0 :- ReadMultiSurface(cj, boundaries, sem);
      var s1 :- if uvs.None? then Ok(s0) else ApplyUVs(cj, s0, uvs.value, 0);
      // ReadMultiSurface has already checked the value count against the surfaces.
      if sem.None? then Ok(Some(s1))
      else
        SemanticsKeepRings(s1, sem.value.surfaces, sem.value.values, false);
        Ok(Some(SetSemantics(s1, sem.value.surfaces, sem.value.values, false).value))
    case OtherNode(_, _) => Ok(None)
  }

  /** The value list of the exterior shell; none when no shell has one. */
  function ShellValues(sem: SolidSemanticsNode): seq<Option<int>> {
    if |sem.shellValues| > 0 then sem.shellValues[0] else []
  }

  /**
    A Solid's texture values: the exterior shell's list applies from surface 0,
    the next list from where the first one ended. No texture node changes
    nothing.
   */
  function SolidUVs(cj: CityJson, surfs: seq<Surface>, uvs: Option<seq<seq<UVRings>>>): (r: Outcome<seq<Surface>>)
    ensures uvs.None? ==> r == Ok(surfs)
    ensures r.Ok? ==> |r.value| == |surfs|
    ensures r.Ok? ==> forall i | 0 <= i < |surfs| ::
      r.value[i].outerRing == surfs[i].outerRing && r.value[i].innerRings == surfs[i].innerRings
  {
    if uvs.None? then Ok(surfs)
    else
      var exterior :- ApplyUVs(cj, surfs, if |uvs.value| > 0 then uvs.value[0] else [], 0);
      if |uvs.value| > 1 then ApplyUVs(cj, exterior, uvs.value[1], |uvs.value[0]|) else Ok(exterior)
  }

  /** The geometry loop of ReadCityObject, entry by entry in file order. */
  function ReadGeometry(cj: CityJson, entries: seq<GeometryNode>, lod: real): Outcome<seq<Surface>>
    decreases |entries|
  {
    if |entries| == 0 then Ok([])
    else
      var prev :- ReadGeometry(cj, entries[..|entries| - 1], lod);
      var g := Last(entries);
      if !Selected(g, lod) then Ok(prev)
      else
        var read :- ReadEntry(cj, g);
        Ok(read.GetOr(prev))
  }

  /** Index of the last selected Solid or MultiSurface entry, -1 if there is none. */
  function LastReadable(entries: seq<GeometryNode>, lod: real): (k: int)
    ensures -1 <= k < |entries|
    ensures k >= 0 ==> Selected(entries[k], lod) && !entries[k].OtherNode?
    ensures forall j | k < j < |entries| :: !Selected(entries[j], lod) || entries[j].OtherNode?
    decreases |entries|
  {
    if |entries| == 0 then -1
    else if Selected(Last(entries), lod) && !Last(entries).OtherNode? then |entries| - 1
    else LastReadable(entries[..|entries| - 1], lod)
  }

  /**
    When several entries match, the surfaces of the last Solid or MultiSurface
    one replace the earlier ones; with none, the object has no surfaces.
   */
  lemma {:induction false} LastReadableEntryWins(cj: CityJson, entries: seq<GeometryNode>, lod: real)
    requires ReadGeometry(cj, entries, lod).Ok?
    ensures var k := LastReadable(entries, lod);
            var surfaces := ReadGeometry(cj, entries, lod).value;
            if k < 0 then surfaces == [] else ReadEntry(cj, entries[k]) == Ok(Some(surfaces))
    decreases |entries|
  {
    if |entries| > 0 {
      var init := entries[..|entries| - 1];
      var g := Last(entries);
      var prev := ReadGeometry(cj, init, lod);
      assert prev.Ok?;
      LastReadableEntryWins(cj, init, lod);
      if Selected(g, lod) && !g.OtherNode? {
        assert LastReadable(entries, lod) == |entries| - 1;
        assert ReadEntry(cj, g).Ok? && ReadEntry(cj, g).value.Some?;
      } else {
        assert LastReadable(entries, lod) == LastReadable(init, lod);
        assert ReadGeometry(cj, entries, lod) == prev;
        var k := LastReadable(init, lod);
        if k >= 0 {
          assert entries[k] == init[k];
        }
      }
    }
  }

  // ---------------------------------------------------------- city objects

  function LookupObject(objects: seq<(string, ObjectNode)>, key: string): (r: Option<ObjectNode>)
    ensures r.Some? ==> exists i | 0 <= i < |objects| :: objects[i] == (key, r.value)
    ensures r.None? ==> forall i | 0 <= i < |objects| :: objects[i].0 != key
    decreases |objects|
  {
    if |objects| == 0 then None
    else if objects[0].0 == key then Some(objects[0].1)
    else
      var r := LookupObject(objects[1..], key);
      assert forall i | 1 <= i < |objects| :: objects[i] == objects[1..][i - 1];
      r
  }

  /**
    ReadCityObject. No type: null. A non-empty filter that differs from the
    type: null. Otherwise the attributes, the surfaces of the selected geometry
    and the children, which are read with no type filter. `asWritten` selects
    how a child that reads as null is handled (see ReadChildren). `fuel` bounds
    the depth of child references, which the format requires to be acyclic.
   */
  function ReadObject(cj: CityJson, node: ObjectNode, filter: string, lod: real, fuel: nat, asWritten: bool)
    : (r: Outcome<Option<CityObject>>)
    ensures node.objectType.None? ==> r == Ok(None)
    ensures node.objectType.Some? && filter != "" && node.objectType.value != filter ==> r == Ok(None)
    ensures r == Ok(None) ==> node.objectType.None? || (filter != "" && node.objectType.value != filter)
    ensures r.Ok? && r.value.Some? ==>
      && r.value.value.objectType == node.objectType.value
      && r.value.value.keyName == ""
      && r.value.value.semantics == (if node.attributes.Some? then node.attributes.value else [])
      && ReadGeometry(cj, node.geometry, lod) == Ok(r.value.value.surfaces)
    ensures r.Ok? && r.value.Some? && node.children.None? ==> r.value.value.children == []
    ensures r.Ok? && r.value.Some? && node.children.Some? ==>
      ReadChildren(cj, node.children.value, lod, fuel, asWritten) == Ok(r.value.value.children)
    decreases fuel, 1
  {
    if node.objectType.None? then Ok(None)
    else if filter != "" && node.objectType.value != filter then Ok(None)
    else
      var surfaces :- ReadGeometry(cj, node.geometry, lod);
      var children :- if node.children.None? then Ok([]) else ReadChildren(cj, node.children.value, lod, fuel, asWritten);
      Ok(Some(CityObject(node.objectType.value, "", ReadSemantics(node.attributes), surfaces, children)))
  }

  /**
    The children loop. A key with no object, or an object without a type, reads
    as null. As written, the loop then sets `keyName` on that null child and
    throws. Corrected, it skips the child, which the null check that follows
    the assignment evidently meant to do.
   */
  function ReadChildren(cj: CityJson, keys: seq<string>, lod: real, fuel: nat, asWritten: bool)
    : (r: Outcome<seq<CityObject>>)
    ensures r.Ok? && !asWritten ==> |r.value| <= |keys|
    ensures r.Ok? && asWritten ==> |r.value| == |keys|
    ensures r.Ok? ==> forall i | 0 <= i < |r.value| :: r.value[i].keyName in keys
    decreases fuel, 0, |keys|
  {
    if |keys| == 0 then Ok([])
    else if fuel == 0 then Throws(StackOverflow)
    else
      var found := LookupObject(cj.objects, keys[0]);
      var child :- if found.None? then Ok(None) else ReadObject(cj, found.value, "", lod, fuel - 1, asWritten);
      if child.None? && asWritten then Throws(NullReference)
      else
        var rest :- ReadChildren(cj, keys[1..], lod, fuel, asWritten);
        if child.None? then Ok(rest) else Ok([child.value.(keyName := keys[0])] + rest)
  }

  /** The number of city objects in the file. */
  function CityObjectCount(cj: CityJson): nat {
    |cj.objects|
  }

  /**
    LoadCityObjectByIndex: reads the object at `index` with the type filter
    reset to "" and names it with the key at that index. The result is null
    exactly when the object has no type.
   */
  function LoadCityObjectByIndex(cj: CityJson, index: nat, lod: real): (r: Outcome<Option<CityObject>>)
    requires index < CityObjectCount(cj)
    ensures r == Ok(None) <==> cj.objects[index].1.objectType.None?
    ensures r.Ok? && r.value.Some? ==>
      && r.value.value.keyName == cj.objects[index].0
      && r.value.value.objectType == cj.objects[index].1.objectType.value
      && r.value.value.semantics == (if cj.objects[index].1.attributes.Some? then cj.objects[index].1.attributes.value else [])
  {
    var (key, node) := cj.objects[index];
    var o :- ReadObject(cj, node, "", lod, |cj.objects|, false);
    Ok(if o.Some? then Some(o.value.(keyName := key)) else None)
  }

  /** The source's reading of the same object, with its children loop as written. */
  function LoadCityObjectByIndexAsWritten(cj: CityJson, index: nat, lod: real): (r: Outcome<Option<CityObject>>)
    requires index < CityObjectCount(cj)
    ensures r == Ok(None) <==> cj.objects[index].1.objectType.None?
    ensures r.Ok? && r.value.Some? ==> r.value.value.keyName == cj.objects[index].0
  {
    var (key, node) := cj.objects[index];
    var o :- ReadObject(cj, node, "", lod, |cj.objects|, true);
    Ok(if o.Some? then Some(o.value.(keyName := key)) else None)
  }

  /**
    A building whose `children` names a key that is not in the file: the loop
    as written throws a null dereference; the corrected loop reads the building
    without that child.
   */
  lemma MissingChildThrows()
    ensures var building := ObjectNode(Some("Building"), None, [], Some(["part-1"]));
            var cj := CityJson([("b-1", building)], [], [], [], Vec3(0.0, 0.0, 0.0), 3, 1.0);
            && LoadCityObjectByIndexAsWritten(cj, 0, -1.0) == Throws(NullReference)
            && LoadCityObjectByIndex(cj, 0, -1.0) == Ok(Some(CityObject("Building", "b-1", [], [], [])))
  {
    var building := ObjectNode(Some("Building"), None, [], Some(["part-1"]));
    var cj := CityJson([("b-1", building)], [], [], [], Vec3(0.0, 0.0, 0.0), 3, 1.0);
    assert LookupObject(cj.objects, "part-1").None?;
    assert ReadChildren(cj, ["part-1"], -1.0, 1, true) == Throws(NullReference);
    assert ReadChildren(cj, ["part-1"], -1.0, 1, false) == Ok([]);
  }

  /**
    Children ["part-1", "b-2"], where "part-1" is missing and "b-2" references
    a vertex that does not exist: as written, the null child throws before the
    next child is read.
   */
  lemma NullChildThrowsFirst()
    ensures var broken := ObjectNode(Some("BuildingPart"), None, [MultiSurfaceNode(1.0, [[[5]]], None, None)], None);
            var building := ObjectNode(Some("Building"), None, [], Some(["part-1", "b-2"]));
            var cj := CityJson([("b-1", building), ("b-2", broken)], [], [], [], Vec3(0.0, 0.0, 0.0), 3, 1.0);
            && LoadCityObjectByIndexAsWritten(cj, 0, -1.0) == Throws(NullReference)
            && LoadCityObjectByIndexAsWritten(cj, 1, -1.0) == Throws(IndexOutOfRange)
  {
    var broken := ObjectNode(Some("BuildingPart"), None, [MultiSurfaceNode(1.0, [[[5]]], None, None)], None);
    var building := ObjectNode(Some("Building"), None, [], Some(["part-1", "b-2"]));
    var cj := CityJson([("b-1", building), ("b-2", broken)], [], [], [], Vec3(0.0, 0.0, 0.0), 3, 1.0);
    assert LookupObject(cj.objects, "part-1").None?;
    assert ReadChildren(cj, ["part-1", "b-2"], -1.0, 2, true) == Throws(NullReference);
    assert LookupAll([5], cj.vertices) == Throws(IndexOutOfRange);
    assert MultiSurfaces(cj, [[[5]]]) == Throws(IndexOutOfRange);
    assert ReadGeometry(cj, broken.geometry, -1.0) == Throws(IndexOutOfRange);
  }
}

=== FILE: common.dfy ===
/**
  Shared value types of the tile baker: points and vectors over the reals,
  IEEE "not a number" where the pipeline can produce it, and the outcome of a
  step that may raise one of the runtime exceptions the C# code can hit.
 */
module Common {

  /** A double-precision point or vector (Vector3Double / Vector3). */
  datatype Vec3 = Vec3(x: real, y: real, z: real)

  /** A texture coordinate or a 2D position (Vector2 / Vector2Double). */
  datatype Vec2 = Vec2(x: real, y: real)

  function Add(a: Vec3, b: Vec3): Vec3 {
    Vec3(a.x + b.x, a.y + b.y, a.z + b.z)
  }

  function Sub(a: Vec3, b: Vec3): Vec3 {
    Vec3(a.x - b.x, a.y - b.y, a.z - b.z)
  }

  function Cross(u: Vec3, v: Vec3): Vec3 {
    Vec3(u.y * v.z - u.z * v.y, u.z * v.x - u.x * v.z, u.x * v.y - u.y * v.x)
  }

  function Abs(r: real): real {
    if r < 0.0 then -r else r
  }

  /** A double that is either a finite value or NaN (the result of 0.0/0.0). */
  datatype Num = Finite(value: real) | NaN

  /** `==` on doubles: NaN is equal to nothing, itself included. */
  predicate NumEq(a: Num, b: Num) {
    a.Finite? && b.Finite? && a.value == b.value
  }

  /** Division of a sum by a count, as `double / int` does it. */
  function Quotient(sum: real, count: nat): Num {
    if count == 0 then NaN else Finite(sum / count as real)
  }

  datatype Option<T> = None | Some(value: T) {
    function GetOr(default: T): T {
      match this
      case Some(v) => v
      case None => default
    }
  }

  /** The runtime exceptions a step of the pipeline can raise. */
  datatype Fault =
    | IndexOutOfRange   // List / array indexer out of bounds
    | NullReference     // member access on a null object
    | DuplicateKey      // Dictionary.Add with a key already present
    | StackOverflow     // unbounded recursion through child references

  /** The result of a step: a value, or the exception it raises. */
  datatype Outcome<T> = Ok(value: T) | Throws(fault: Fault) {
    predicate IsFailure() {
      Throws?
    }

    function PropagateFailure<U>(): Outcome<U>
      requires Throws?
    {
      Throws(fault)
    }

    function Extract(): T
      requires Ok?
    {
      value
    }
  }

  /** `list[i]` on a C# List or array: out-of-range indices throw. */
  function At<T>(s: seq<T>, i: int): (r: Outcome<T>)
    ensures r.Ok? <==> 0 <= i < |s|
    ensures r.Ok? ==> r.value == s[i]
  {
    if 0 <= i < |s| then Ok(s[i]) else Throws(IndexOutOfRange)
  }

  function Last<T>(s: seq<T>): T
    requires |s| > 0
  {
    s[|s| - 1]
  }

  /** Sum of a sequence of reals, accumulated front to back. */
  function Sum(s: seq<real>): real
    decreases |s|
  {
    if |s| == 0 then 0.0 else Sum(s[..|s| - 1]) + Last(s)
  }

  /** Every value of the sequence lies strictly between `lo` and `hi`; so does their mean. */
  lemma {:induction false} SumBounds(s: seq<real>, lo: real, hi: real)
    requires forall i | 0 <= i < |s| :: lo < s[i] < hi
    ensures |s| > 0 ==> lo * |s| as real < Sum(s) < hi * |s| as real
    decreases |s|
  {
    if |s| > 1 {
      var init := s[..|s| - 1];
      assert forall i | 0 <= i < |init| :: init[i] == s[i];
      SumBounds(init, lo, hi);
      var n := |init| as real;
      assert Sum(s) == Sum(init) + s[|s| - 1];
      assert lo < s[|s| - 1] < hi;
      assert lo * n < Sum(init) < hi * n;
      assert |s| as real == n + 1.0;
      assert lo * (n + 1.0) == lo * n + lo;
      assert hi * (n + 1.0) == hi * n + hi;
    } else if |s| == 1 {
      assert s[..0] == [];
    }
  }

  /** A product with a positive factor is positive only when the other factor is. */
  lemma PositiveFactor(x: real, n: real)
    requires n > 0.0 && x * n > 0.0
    ensures x > 0.0
  {
    if x <= 0.0 {
      assert false;
    }
  }

  lemma MeanBounds(s: seq<real>, lo: real, hi: real)
    requires |s| > 0
    requires forall i | 0 <= i < |s| :: lo < s[i] < hi
    ensures lo < Sum(s) / |s| as real < hi
  {
    SumBounds(s, lo, hi);
    var n := |s| as real;
    var mean := Sum(s) / n;
    assert mean * n == Sum(s);
    assert (mean - lo) * n == Sum(s) - lo * n;
    assert (hi - mean) * n == hi * n - Sum(s);
    PositiveFactor(mean - lo, n);
    PositiveFactor(hi - mean, n);
  }
}

=== FILE: converter.dfy ===
/**
  The per-feature part of the CityJSON to tile conversion: choosing the
  submesh and vertex density of a CityObject from the configured filters,
  choosing its identifier, turning its surfaces (and its children's) into one
  triangle mesh, and then simplifying or merging, clipping spikes and cutting
  the result into tile-sized pieces.

  The polygon triangulator (Poly2Mesh) and the unit-normal computation are
  parameters: their geometry is not modelled.
 */
module Converter {
  import opened Common
  import opened Text
  import opened CityJsonReader
  import opened MeshOps
  import opened TileClip

  // ------------------------------------------------------------ configuration

  datatype ValueToSubmesh = ValueToSubmesh(value: string, submeshIndex: int)

  datatype AttributeFilter = AttributeFilter(attributeName: string, valueToSubMesh: seq<ValueToSubmesh>)

  datatype CityObjectFilter = CityObjectFilter(
    objectType: string,
    defaultSubmeshIndex: int,
    attributeFilters: seq<AttributeFilter>,
    maxVerticesPerSquareMeter: real)

  /** The converter's settings that the per-feature work reads. */
  datatype Settings = Settings(
    filters: seq<CityObjectFilter>,
    identifier: string,
    removeFromID: string,
    clipSpikes: bool,
    spikeCeiling: real,
    spikeFloor: real,
    tilingMethod: string,
    tileSize: int)

  // ------------------------------------------------------- submesh selection

  /** The CityObject has an attribute with this name and value. */
  predicate HasAttribute(sems: seq<Semantic>, name: string, value: string) {
    exists l | 0 <= l < |sems| :: sems[l].name == name && sems[l].value == value
  }

  /** The innermost loop: every semantic with the name and value sets the index to `target`. */
  function ApplySemantics(idx: int, name: string, value: string, target: int, sems: seq<Semantic>): (r: int)
    ensures r == if HasAttribute(sems, name, value) then target else idx
    decreases |sems|
  {
    if |sems| == 0 then idx
    else
      var init := sems[..|sems| - 1];
      var before := ApplySemantics(idx, name, value, target, init);
      assert HasAttribute(init, name, value) ==> HasAttribute(sems, name, value) by {
        if HasAttribute(init, name, value) {
          var l :| 0 <= l < |init| && init[l].name == name && init[l].value == value;
          assert sems[l] == init[l];
        }
      }
      assert HasAttribute(sems, name, value) ==> HasAttribute(init, name, value) || (Last(sems).name == name && Last(sems).value == value) by {
        if HasAttribute(sems, name, value) && !(Last(sems).name == name && Last(sems).value == value) {
          var l :| 0 <= l < |sems| && sems[l].name == name && sems[l].value == value;
          assert init[l] == sems[l];
        }
      }
      if Last(sems).name == name && Last(sems).value == value then target else before
  }

  /** The loop over an attribute filter's value-to-submesh entries. */
  function ApplyValues(idx: int, name: string, values: seq<ValueToSubmesh>, sems: seq<Semantic>): int
    decreases |values|
  {
    if |values| == 0 then idx
    else
      var v := Last(values);
      ApplySemantics(ApplyValues(idx, name, values[..|values| - 1], sems), name, v.value, v.submeshIndex, sems)
  }

  /** The loop over a filter's attribute filters, starting from its default submesh index. */
  function ApplyAttributeFilters(idx: int, afs: seq<AttributeFilter>, sems: seq<Semantic>): int
    decreases |afs|
  {
    if |afs| == 0 then idx
    else
      var af := Last(afs);
      ApplyValues(ApplyAttributeFilters(idx, afs[..|afs| - 1], sems), af.attributeName, af.valueToSubMesh, sems)
  }

  /** The submesh index and vertex density the filters give a CityObject. */
  datatype Selection = Selection(submeshIndex: int, maxVerticesPerSquareMeter: real)

  /** -1 (no submesh) and the density a new SubObject starts with. */
  const NoSelection := Selection(-1, 0.0)

  /** The loop over the filters: each filter for the object's type overwrites the selection. */
  function SelectFilters(filters: seq<CityObjectFilter>, objectType: string, sems: seq<Semantic>): Selection
    decreases |filters|
  {
    if |filters| == 0 then NoSelection
    else
      var f := Last(filters);
      if f.objectType == objectType then
        Selection(ApplyAttributeFilters(f.defaultSubmeshIndex, f.attributeFilters, sems), f.maxVerticesPerSquareMeter)
      else SelectFilters(filters[..|filters| - 1], objectType, sems)
  }

  /** One attribute rule: a CityObject with this attribute value goes to this submesh. */
  datatype Rule = Rule(name: string, value: string, submeshIndex: int)

  function RulesFor(name: string, values: seq<ValueToSubmesh>): (r: seq<Rule>)
    ensures |r| == |values|
    ensures forall k | 0 <= k < |values| :: r[k] == Rule(name, values[k].value, values[k].submeshIndex)
  {
    seq(|values|, k requires 0 <= k < |values| => Rule(name, values[k].value, values[k].submeshIndex))
  }

  /** The rules of a filter, attribute filter by attribute filter. */
  function Rules(afs: seq<AttributeFilter>): seq<Rule>
    decreases |afs|
  {
    if |afs| == 0 then []
    else Rules(afs[..|afs| - 1]) + RulesFor(Last(afs).attributeName, Last(afs).valueToSubMesh)
  }

  predicate Fires(r: Rule, sems: seq<Semantic>) {
    HasAttribute(sems, r.name, r.value)
  }

  /** The position of the last rule that fires, -1 when none does. */
  function LastFiring(rules: seq<Rule>, sems: seq<Semantic>): (k: int)
    ensures -1 <= k < |rules|
    ensures k >= 0 ==> Fires(rules[k], sems)
    ensures forall j | k < j < |rules| :: !Fires(rules[j], sems)
    decreases |rules|
  {
    if |rules| == 0 then -1
    else if Fires(Last(rules), sems) then |rules| - 1
    else LastFiring(rules[..|rules| - 1], sems)
  }

  /** The submesh index of the last rule that fires, or `idx` when none does. */
  function Pick(idx: int, rules: seq<Rule>, sems: seq<Semantic>): int {
    var k := LastFiring(rules, sems);
    if k < 0 then idx else rules[k].submeshIndex
  }

  /** Choosing from two lists of rules in turn is choosing from the two together. */
  lemma {:induction false} PickAppend(idx: int, a: seq<Rule>, b: seq<Rule>, sems: seq<Semantic>)
    ensures Pick(idx, a + b, sems) == Pick(Pick(idx, a, sems), b, sems)
    decreases |b|
  {
    if |b| == 0 {
      assert a + b == a;
    } else {
      var init := b[..|b| - 1];
      assert (a + b)[..|a + b| - 1] == a + init;
      assert Last(a + b) == Last(b);
      PickAppend(idx, a, init, sems);
    }
  }

  /** The value loop gives the submesh of the last entry whose value the object has. */
  lemma {:induction false} ValuesPickLastFiring(idx: int, name: string, values: seq<ValueToSubmesh>, sems: seq<Semantic>)
    ensures ApplyValues(idx, name, values, sems) == Pick(idx, RulesFor(name, values), sems)
    decreases |values|
  {
    if |values| > 0 {
      var init := values[..|values| - 1];
      var v := Last(values);
      ValuesPickLastFiring(idx, name, init, sems);
      assert RulesFor(name, values) == RulesFor(name, init) + [Rule(name, v.value, v.submeshIndex)];
      PickAppend(idx, RulesFor(name, init), [Rule(name, v.value, v.submeshIndex)], sems);
    }
  }

  /**
    Over all attribute filters of a filter, the submesh is that of the last
    rule (in attribute-filter, then value order) whose attribute value the
    object has; the filter's default when it has none of them.
   */
  lemma {:induction false} AttributeFiltersPickLastFiring(idx: int, afs: seq<AttributeFilter>, sems: seq<Semantic>)
    ensures ApplyAttributeFilters(idx, afs, sems) == Pick(idx, Rules(afs), sems)
    decreases |afs|
  {
    if |afs| > 0 {
      var init := afs[..|afs| - 1];
      var af := Last(afs);
      AttributeFiltersPickLastFiring(idx, init, sems);
      ValuesPickLastFiring(ApplyAttributeFilters(idx, init, sems), af.attributeName, af.valueToSubMesh, sems);
      PickAppend(idx, Rules(init), RulesFor(af.attributeName, af.valueToSubMesh), sems);
    }
  }

  /** The position of the last filter for the object type, -1 when there is none. */
  function LastFilterFor(filters: seq<CityObjectFilter>, objectType: string): (i: int)
    ensures -1 <= i < |filters|
    ensures i >= 0 ==> filters[i].objectType == objectType
    ensures forall j | i < j < |filters| :: filters[j].objectType != objectType
    decreases |filters|
  {
    if |filters| == 0 then -1
    else if Last(filters).objectType == objectType then |filters| - 1
    else LastFilterFor(filters[..|filters| - 1], objectType)
  }

  /**
    The last filter for the object's type decides alone: its density, and
    the submesh of its last rule that fires, else its default. With no filter
    for the type there is no submesh (-1).
   */
  lemma {:induction false} SelectionByLastFilter(filters: seq<CityObjectFilter>, objectType: string, sems: seq<Semantic>)
    ensures var i := LastFilterFor(filters, objectType);
            SelectFilters(filters, objectType, sems)
            == if i < 0 then NoSelection
               else Selection(Pick(filters[i].defaultSubmeshIndex, Rules(filters[i].attributeFilters), sems),
                              filters[i].maxVerticesPerSquareMeter)
    decreases |filters|
  {
    if |filters| > 0 {
      var f := Last(filters);
      if f.objectType == objectType {
        AttributeFiltersPickLastFiring(f.defaultSubmeshIndex, f.attributeFilters, sems);
      } else {
        SelectionByLastFilter(filters[..|filters| - 1], objectType, sems);
      }
    }
  }

  /**
    The settings of the default configuration: a building attribute rule
    sends a building whose "bouwjaar" is "1900" to submesh 2, and a later
    filter for the same type replaces the earlier one.
   */
  lemma SelectionExample()
    ensures var old1900 := AttributeFilter("bouwjaar", [ValueToSubmesh("1900", 2)]);
            var buildings := CityObjectFilter("Building", 0, [old1900], 0.0);
            var roads := CityObjectFilter("Road", 1, [], 0.5);
            var sems := [Semantic("bouwjaar", "1900")];
            && SelectFilters([buildings, roads], "Building", sems) == Selection(2, 0.0)
            && SelectFilters([buildings, roads], "Building", []) == Selection(0, 0.0)
            && SelectFilters([buildings, roads], "Bridge", sems) == NoSelection
            && SelectFilters([buildings, roads, buildings.(attributeFilters := [])], "Building", sems) == Selection(0, 0.0)
  {
    var sems := [Semantic("bouwjaar", "1900")];
    assert HasAttribute(sems, "bouwjaar", "1900") by {
      assert sems[0].name == "bouwjaar" && sems[0].value == "1900";
    }
    var buildings := CityObjectFilter("Building", 0, [AttributeFilter("bouwjaar", [ValueToSubmesh("1900", 2)])], 0.0);
    var roads := CityObjectFilter("Road", 1, [], 0.5);
    assert [buildings, roads][..1] == [buildings];
    assert [buildings][..0] == [];
    assert SelectFilters([buildings], "Bridge", sems) == NoSelection;
  }

  // ------------------------------------------------------------- identifier

  /** Replace(removeFromID, "") when something is to be removed. */
  function StripId(value: string, removeFromID: string): (r: string)
    ensures removeFromID == "" || !Contains(value, removeFromID) ==> r == value
    ensures |r| <= |value|
  {
    if removeFromID == "" then value
    else
      RemoveAllAbsent(value, removeFromID);
      RemoveAll(value, removeFromID)
  }

  /** Index of the first semantic with this name, -1 when there is none. */
  function FirstNamed(sems: seq<Semantic>, name: string): (k: int)
    ensures -1 <= k < |sems|
    ensures k >= 0 ==> sems[k].name == name
    ensures forall i | 0 <= i < |sems| && (k < 0 || i < k) :: sems[i].name != name
    decreases |sems|
  {
    if |sems| == 0 then -1
    else if sems[0].name == name then 0
    else
      var k := FirstNamed(sems[1..], name);
      assert forall i | 1 <= i < |sems| :: sems[1..][i - 1] == sems[i];
      if k < 0 then -1 else k + 1
  }

  /**
    The identifier loop: the first semantic with the identifier name gives the
    id, then `break`; with no such semantic the key stays.
   */
  function IdFromSemantics(keyName: string, identifier: string, removeFromID: string, sems: seq<Semantic>): (id: string)
    ensures var k := FirstNamed(sems, identifier);
            id == if k < 0 then keyName else StripId(sems[k].value, removeFromID)
    decreases |sems|
  {
    if |sems| == 0 then keyName
    else if sems[0].name == identifier then StripId(sems[0].value, removeFromID)
    else
      var rest := IdFromSemantics(keyName, identifier, removeFromID, sems[1..]);
      var k := FirstNamed(sems[1..], identifier);
      assert k >= 0 ==> sems[1..][k] == sems[k + 1];
      rest
  }

  /** The SubObject's id: the object's key, unless an identifier attribute is configured and present. */
  function ChooseId(keyName: string, identifier: string, removeFromID: string, sems: seq<Semantic>): (id: string)
    ensures identifier == "" ==> id == keyName
    ensures identifier != "" ==> var k := FirstNamed(sems, identifier);
                                 id == if k < 0 then keyName else StripId(sems[k].value, removeFromID)
  {
    if identifier == "" then keyName else IdFromSemantics(keyName, identifier, removeFromID, sems)
  }

  // ------------------------------------------------------- geometry building

  /** The input of the triangulator: rings relative to the first outer-ring point, and their UVs. */
  datatype Polygon = Polygon(outside: seq<Vec3>, holes: seq<seq<Vec3>>, outsideUVs: seq<Vec2>, holesUVs: seq<seq<Vec2>>)

  /** The triangulator's output: vertices, a normal per vertex, triangle indices and optional UVs. */
  datatype MeshData = MeshData(vertices: seq<Vec3>, normals: seq<Vec3>, indices: seq<int>, uvs: Option<seq<Vec2>>)

  /**
    What the triangulator is taken to deliver: per-vertex normals and UVs,
    and indices over its vertices. Whole triangles are not assumed: an index
    count that is not a multiple of 3 reaches the converter's own check.
   */
  predicate SoundMeshData(d: MeshData) {
    && |d.normals| == |d.vertices|
    && (d.uvs.Some? ==> |d.uvs.value| == |d.vertices|)
    && forall j | 0 <= j < |d.indices| :: 0 <= d.indices[j] < |d.vertices|
  }

  type Triangulator = f: Polygon -> MeshData | forall p :: SoundMeshData(f(p))
    witness (p: Polygon) => MeshData([], [], [], None)

  /** A triangulator that always returns whole triangles. */
  ghost predicate WholeTriangles(triangulate: Triangulator) {
    forall p :: |triangulate(p).indices| % 3 == 0
  }

  /** The normal of triangle surfaces when normals are not calculated. */
  const DefaultNormal := Vec3(0.0, 1.0, 0.0)

  /** The lists AppendCityObjectGeometry collects before it appends them. */
  datatype Collected = Collected(vertices: seq<Vec3>, normals: seq<Vec3>, uvs: seq<Vec2>, indices: seq<int>)

  /**
    The collected lists fit a SubObject that already has `base` vertices:
    a normal per vertex, and every index pointing at a collected vertex.
   */
  predicate CollectedFits(c: Collected, base: nat) {
    && |c.normals| == |c.vertices|
    && forall j | 0 <= j < |c.indices| :: base <= c.indices[j] < base + |c.vertices|
  }

  function Relative(ring: seq<Vec3>, origin: Vec3): (r: seq<Vec3>)
    ensures |r| == |ring|
  {
    seq(|ring|, i requires 0 <= i < |ring| => Sub(ring[i], origin))
  }

  function SurfacePolygon(s: Surface, origin: Vec3): Polygon {
    var holes := seq(|s.innerRings|, i requires 0 <= i < |s.innerRings| => Relative(s.innerRings[i], origin));
    Polygon(Relative(s.outerRing, origin), holes, s.outerRingUVs, s.innerRingUVs)
  }

  /** A surface that is already a triangle, which skips the triangulator. */
  predicate IsTriangle(s: Surface) {
    |s.outerRing| == 3 && |s.innerRings| == 0
  }

  /** The triangle fast path: the three points as they are, indices n, n+1, n+2, one normal for all three. */
  function AppendTriangle(c: Collected, base: nat, s: Surface, calculateNormals: bool, unitNormal: Vec3 -> Vec3)
    : (r: Collected)
    requires CollectedFits(c, base) && IsTriangle(s)
    ensures CollectedFits(r, base)
    ensures r.vertices == c.vertices + s.outerRing
    ensures r.indices == c.indices + [base + |c.vertices|, base + |c.vertices| + 1, base + |c.vertices| + 2]
    ensures |r.normals| == |c.normals| + 3 && r.normals[..|c.normals|] == c.normals
    ensures calculateNormals ==> forall k | |c.normals| <= k < |r.normals| ::
      r.normals[k] == FaceNormal(s.outerRing[0], s.outerRing[1], s.outerRing[2], unitNormal)
    ensures !calculateNormals ==> forall k | |c.normals| <= k < |r.normals| :: r.normals[k] == DefaultNormal
    ensures r.uvs == c.uvs + s.outerRingUVs
  {
    var n := base + |c.vertices|;
    var ring := s.outerRing;
    var f := if calculateNormals then FaceNormal(ring[0], ring[1], ring[2], unitNormal) else DefaultNormal;
    Collected(c.vertices + ring, c.normals + [f, f, f], c.uvs + s.outerRingUVs, c.indices + [n, n + 1, n + 2])
  }

  /**
    A polygon goes through the triangulator relative to its first point;
    its vertices come back shifted by that point and its indices by the
    number of vertices before it.
   */
  function AppendPolygon(c: Collected, base: nat, s: Surface, triangulate: Triangulator): (r: Collected)
    requires CollectedFits(c, base) && |s.outerRing| > 0
    ensures CollectedFits(r, base)
    ensures |r.vertices| >= |c.vertices| && r.vertices[..|c.vertices|] == c.vertices
    ensures |r.indices| >= |c.indices| && r.indices[..|c.indices|] == c.indices
    ensures var d := triangulate(SurfacePolygon(s, s.outerRing[0]));
            && |r.vertices| == |c.vertices| + |d.vertices|
            && (forall j | 0 <= j < |d.vertices| :: Sub(r.vertices[|c.vertices| + j], s.outerRing[0]) == d.vertices[j])
            && |r.indices| == |c.indices| + |d.indices|
            && forall j | 0 <= j < |d.indices| :: r.indices[|c.indices| + j] == base + |c.vertices| + d.indices[j]
  {
    var origin := s.outerRing[0];
    var d := triangulate(SurfacePolygon(s, origin));
    var uvs := if d.uvs.Some? then d.uvs.value else [];
    var r := Collected(c.vertices + Placed(d.vertices, origin), c.normals + d.normals, c.uvs + uvs,
                       c.indices + Shifted(d.indices, base + |c.vertices|));
    AppendedFits(c, base, d, r);
    r
  }

  /** The triangulator's vertices moved back by the polygon's first point. */
  function Placed(vs: seq<Vec3>, origin: Vec3): (r: seq<Vec3>)
    ensures |r| == |vs|
    ensures forall j | 0 <= j < |vs| :: Sub(r[j], origin) == vs[j]
  {
    seq(|vs|, j requires 0 <= j < |vs| => Add(vs[j], origin))
  }

  /** The triangulator's indices moved past the `n` vertices before them. */
  function Shifted(ix: seq<int>, n: int): (r: seq<int>)
    ensures |r| == |ix|
    ensures forall j | 0 <= j < |ix| :: r[j] - n == ix[j]
  {
    seq(|ix|, j requires 0 <= j < |ix| => n + ix[j])
  }

  /** Appending a sound triangulation, its indices shifted past the vertices so far, keeps the lists in step. */
  lemma AppendedFits(c: Collected, base: nat, d: MeshData, r: Collected)
    requires CollectedFits(c, base) && SoundMeshData(d)
    requires |r.vertices| == |c.vertices| + |d.vertices| && r.normals == c.normals + d.normals
    requires r.indices == c.indices + Shifted(d.indices, base + |c.vertices|)
    ensures CollectedFits(r, base)
  {
    assert forall j | |c.indices| <= j < |r.indices| :: r.indices[j] == base + |c.vertices| + d.indices[j - |c.indices|];
  }

  /**
    One surface of the loop. A triangle is taken as it is; an empty outer
    ring throws when its first point is read; a ring of one or two points is
    skipped; any other surface goes through the triangulator.
   */
  function AppendSurface(c: Collected, base: nat, s: Surface, calculateNormals: bool,
                         triangulate: Triangulator, unitNormal: Vec3 -> Vec3): (r: Outcome<Collected>)
    requires CollectedFits(c, base)
    ensures r.Ok? <==> |s.outerRing| > 0
    ensures r.Ok? ==> CollectedFits(r.value, base)
    ensures 0 < |s.outerRing| < 3 ==> r == Ok(c)
    ensures r.Ok? && |c.indices| % 3 == 0 && WholeTriangles(triangulate) ==> |r.value.indices| % 3 == 0
  {
    if IsTriangle(s) then Ok(AppendTriangle(c, base, s, calculateNormals, unitNormal))
    else if |s.outerRing| == 0 then Throws(IndexOutOfRange)
    else if |s.outerRing| < 3 then Ok(c)
    else Ok(AppendPolygon(c, base, s, triangulate))
  }

  /** The surface loop of AppendCityObjectGeometry. */
  function CollectSurfaces(base: nat, surfaces: seq<Surface>, calculateNormals: bool,
                           triangulate: Triangulator, unitNormal: Vec3 -> Vec3): (r: Outcome<Collected>)
    ensures r.Ok? <==> forall s | s in surfaces :: |s.outerRing| > 0
    ensures r.Ok? ==> CollectedFits(r.value, base)
    ensures r.Ok? && WholeTriangles(triangulate) ==> |r.value.indices| % 3 == 0
    decreases |surfaces|
  {
    if |surfaces| == 0 then Ok(Collected([], [], [], []))
    else
      var init := surfaces[..|surfaces| - 1];
      assert forall s | s in init :: s in surfaces;
      var c :- CollectSurfaces(base, init, calculateNormals, triangulate, unitNormal);
      AppendSurface(c, base, Last(surfaces), calculateNormals, triangulate, unitNormal)
  }

  /** The outer rings of the surfaces, one after the other. */
  function OuterRings(surfaces: seq<Surface>): seq<Vec3>
    decreases |surfaces|
  {
    if |surfaces| == 0 then [] else OuterRings(surfaces[..|surfaces| - 1]) + Last(surfaces).outerRing
  }

  /** The collected lists so far form a triangle soup: index j points at vertex base + j. */
  predicate Soup(c: Collected, base: nat) {
    |c.indices| == |c.vertices| && forall j | 0 <= j < |c.indices| :: c.indices[j] == base + j
  }

  lemma TriangleKeepsSoup(c: Collected, base: nat, s: Surface, calculateNormals: bool, unitNormal: Vec3 -> Vec3)
    requires CollectedFits(c, base) && IsTriangle(s) && Soup(c, base)
    ensures Soup(AppendTriangle(c, base, s, calculateNormals, unitNormal), base)
  {
    var r := AppendTriangle(c, base, s, calculateNormals, unitNormal);
    var n := base + |c.vertices|;
    forall j | 0 <= j < |r.indices|
      ensures r.indices[j] == base + j
    {
      if j < |c.indices| {
        assert r.indices[j] == c.indices[j];
      } else {
        assert r.indices[j] == [n, n + 1, n + 2][j - |c.indices|];
      }
    }
  }

  /**
    A CityObject made of triangles only becomes a triangle soup: its corner
    points in order, with index j of the collected list pointing at vertex
    base + j.
   */
  lemma {:induction false} TrianglesCollectedInOrder(base: nat, surfaces: seq<Surface>, calculateNormals: bool,
                                                     triangulate: Triangulator, unitNormal: Vec3 -> Vec3)
    requires forall s | s in surfaces :: IsTriangle(s)
    ensures var r := CollectSurfaces(base, surfaces, calculateNormals, triangulate, unitNormal);
            r.Ok? && r.value.vertices == OuterRings(surfaces) && Soup(r.value, base)
    decreases |surfaces|
  {
    if |surfaces| > 0 {
      var init := surfaces[..|surfaces| - 1];
      assert forall s | s in init :: s in surfaces;
      TrianglesCollectedInOrder(base, init, calculateNormals, triangulate, unitNormal);
      var c := CollectSurfaces(base, init, calculateNormals, triangulate, unitNormal).value;
      assert Last(surfaces) in surfaces;
      TriangleKeepsSoup(c, base, Last(surfaces), calculateNormals, unitNormal);
    }
  }

  /**
    A SubObject's lists before the divisibility check: a normal per vertex
    and every index pointing at a vertex, the index count not yet known to
    be a multiple of 3.
   */
  predicate IndexedMesh(so: SubObject) {
    && |so.normals| == |so.vertices|
    && forall i | 0 <= i < |so.triangleIndices| :: 0 <= so.triangleIndices[i] < |so.vertices|
  }

  /** Appending collected lists that fit keeps the indices in range and puts the new ones past the old vertices. */
  lemma CollectedAppended(so: SubObject, c: Collected, r: SubObject)
    requires CollectedFits(c, |so.vertices|)
    requires r == so.(vertices := so.vertices + c.vertices, normals := so.normals + c.normals,
                      uvs := so.uvs + c.uvs, triangleIndices := so.triangleIndices + c.indices)
    ensures IndexedMesh(so) ==> IndexedMesh(r)
    ensures ValidMesh(so) && |c.indices| % 3 == 0 ==> ValidMesh(r)
    ensures forall j | |so.triangleIndices| <= j < |r.triangleIndices| ::
              |so.vertices| <= r.triangleIndices[j] < |r.vertices|
  {
    assert forall j | |so.triangleIndices| <= j < |r.triangleIndices| ::
             r.triangleIndices[j] == c.indices[j - |so.triangleIndices|];
    if ValidMesh(so) && |c.indices| % 3 == 0 {
      var a, b := |so.triangleIndices| / 3, |c.indices| / 3;
      assert |r.triangleIndices| == 3 * (a + b);
      MultipleOfThree(a + b);
    }
  }

  /**
    AppendCityObjectGeometry: the collected lists are appended to the
    SubObject only when at least one vertex was collected.
   */
  function AppendCityObjectGeometry(so: SubObject, obj: CityObject, calculateNormals: bool,
                                    triangulate: Triangulator, unitNormal: Vec3 -> Vec3): (r: Outcome<SubObject>)
    ensures r.Ok? <==> forall s | s in obj.surfaces :: |s.outerRing| > 0
    ensures r.Ok? && IndexedMesh(so) ==> IndexedMesh(r.value)
    ensures r.Ok? && ValidMesh(so) && WholeTriangles(triangulate) ==> ValidMesh(r.value)
    ensures r.Ok? ==> r.value == so.(vertices := r.value.vertices, normals := r.value.normals,
                                     uvs := r.value.uvs, triangleIndices := r.value.triangleIndices)
    ensures r.Ok? ==> |r.value.vertices| >= |so.vertices| && r.value.vertices[..|so.vertices|] == so.vertices
    ensures r.Ok? ==> |r.value.triangleIndices| >= |so.triangleIndices|
                      && r.value.triangleIndices[..|so.triangleIndices|] == so.triangleIndices
    ensures r.Ok? ==> forall j | |so.triangleIndices| <= j < |r.value.triangleIndices| ::
                        |so.vertices| <= r.value.triangleIndices[j] < |r.value.vertices|
    ensures r.Ok? && |r.value.vertices| == |so.vertices| ==> r.value == so
  {
    var c :- CollectSurfaces(|so.vertices|, obj.surfaces, calculateNormals, triangulate, unitNormal);
    if |c.vertices| > 0 then
      var r := so.(vertices := so.vertices + c.vertices, normals := so.normals + c.normals,
                   uvs := so.uvs + c.uvs, triangleIndices := so.triangleIndices + c.indices);
      CollectedAppended(so, c, r);
      Ok(r)
    else
      Ok(so)
  }

  /** The object itself and then each child, appended in turn. */
  function AppendObjects(so: SubObject, objs: seq<CityObject>, calculateNormals: bool,
                         triangulate: Triangulator, unitNormal: Vec3 -> Vec3): (r: Outcome<SubObject>)
    ensures r.Ok? <==> forall o | o in objs :: forall s | s in o.surfaces :: |s.outerRing| > 0
    ensures r.Ok? && IndexedMesh(so) ==> IndexedMesh(r.value)
    ensures r.Ok? && ValidMesh(so) && WholeTriangles(triangulate) ==> ValidMesh(r.value)
    ensures r.Ok? ==> r.value == so.(vertices := r.value.vertices, normals := r.value.normals,
                                     uvs := r.value.uvs, triangleIndices := r.value.triangleIndices)
    decreases |objs|
  {
    if |objs| == 0 then Ok(so)
    else
      var init := objs[..|objs| - 1];
      assert forall o | o in objs :: o in init || o == Last(objs);
      var before :- AppendObjects(so, init, calculateNormals, triangulate, unitNormal);
      AppendCityObjectGeometry(before, Last(objs), calculateNormals, triangulate, unitNormal)
  }

  // --------------------------------------------------------------- centroid

  function Xs(vs: seq<Vec3>): (r: seq<real>)
    ensures |r| == |vs| && forall i | 0 <= i < |vs| :: r[i] == vs[i].x
  {
    seq(|vs|, i requires 0 <= i < |vs| => vs[i].x)
  }

  function Ys(vs: seq<Vec3>): (r: seq<real>)
    ensures |r| == |vs| && forall i | 0 <= i < |vs| :: r[i] == vs[i].y
  {
    seq(|vs|, i requires 0 <= i < |vs| => vs[i].y)
  }

  /** The mean x and y of the vertices; 0 / 0 gives NaN for a SubObject without vertices. */
  function MeanCentroid(vs: seq<Vec3>): (c: Centroid)
    ensures c.x.Finite? <==> |vs| > 0
    ensures c.y.Finite? <==> |vs| > 0
  {
    Centroid(Quotient(Sum(Xs(vs)), |vs|), Quotient(Sum(Ys(vs)), |vs|))
  }

  /** The centroid lies inside any open box around all vertices. */
  lemma CentroidInsideBounds(vs: seq<Vec3>, lo: Vec2, hi: Vec2)
    requires |vs| > 0
    requires forall i | 0 <= i < |vs| :: lo.x < vs[i].x < hi.x && lo.y < vs[i].y < hi.y
    ensures var c := MeanCentroid(vs);
            lo.x < c.x.value < hi.x && lo.y < c.y.value < hi.y
  {
    MeanBounds(Xs(vs), lo.x, hi.x);
    MeanBounds(Ys(vs), lo.y, hi.y);
  }

  // ------------------------------------------------- ToSubObjectMeshData

  /** Every surface of the object and of its children has a first outer-ring point. */
  predicate RingsReadable(o: CityObject) {
    forall c | c in [o] + o.children :: forall s | s in c.surfaces :: |s.outerRing| > 0
  }

  /**
    The SubObject the object and its children build for a selection, before
    the index count is checked: the chosen id, the selected submesh and
    density, normals calculated exactly when the density is 0.
   */
  function ObjectMesh(o: CityObject, st: Settings, sel: Selection, triangulate: Triangulator,
                      unitNormal: Vec3 -> Vec3): (r: Outcome<SubObject>)
    ensures r.Ok? <==> RingsReadable(o)
    ensures r.Ok? ==> IndexedMesh(r.value)
    ensures r.Ok? && WholeTriangles(triangulate) ==> ValidMesh(r.value)
    ensures r.Ok? ==> && r.value.id == ChooseId(o.keyName, st.identifier, st.removeFromID, o.semantics)
                      && r.value.parentSubmeshIndex == sel.submeshIndex
                      && r.value.maxVerticesPerSquareMeter == sel.maxVerticesPerSquareMeter
  {
    var id := ChooseId(o.keyName, st.identifier, st.removeFromID, o.semantics);
    var start := EmptySubObject().(id := id, parentSubmeshIndex := sel.submeshIndex,
                                   maxVerticesPerSquareMeter := sel.maxVerticesPerSquareMeter);
    var calculateNormals := sel.maxVerticesPerSquareMeter == 0.0;
    AppendObjects(start, [o] + o.children, calculateNormals, triangulate, unitNormal)
  }

  /**
    ToSubObjectMeshData. A null object throws at its key. An object no
    filter gives a submesh is dropped (None), and so is one whose mesh ends
    with an index count that is not a multiple of 3. Otherwise the mesh of
    the object and its children is kept, and the centroid is the mean vertex
    position.
   */
  function ToSubObjectMeshData(obj: Option<CityObject>, st: Settings, triangulate: Triangulator,
                               unitNormal: Vec3 -> Vec3): (r: Outcome<Option<SubObject>>)
    ensures obj.None? ==> r == Throws(NullReference)
    ensures obj.Some? ==> var sel := SelectFilters(st.filters, obj.value.objectType, obj.value.semantics);
              var m := ObjectMesh(obj.value, st, sel, triangulate, unitNormal);
              && (r == Ok(None) <==> sel.submeshIndex == -1 || (m.Ok? && |m.value.triangleIndices| % 3 != 0))
              && (r.Throws? <==> sel.submeshIndex != -1 && !RingsReadable(obj.value))
    ensures r.Ok? && r.value.Some? ==>
              var so := r.value.value;
              var o := obj.value;
              var sel := SelectFilters(st.filters, o.objectType, o.semantics);
              && ValidMesh(so)
              && so.parentSubmeshIndex == sel.submeshIndex
              && so.maxVerticesPerSquareMeter == sel.maxVerticesPerSquareMeter
              && so.id == ChooseId(o.keyName, st.identifier, st.removeFromID, o.semantics)
              && so.centroid == MeanCentroid(so.vertices)
  {
    if obj.None? then Throws(NullReference)
    else
      var o := obj.value;
      var sel := SelectFilters(st.filters, o.objectType, o.semantics);
      if sel.submeshIndex == -1 then Ok(None)
      else
        var so :- ObjectMesh(o, st, sel, triangulate, unitNormal);
        if |so.triangleIndices| % 3 != 0 then Ok(None)
        else Ok(Some(so.(centroid := MeanCentroid(so.vertices))))
  }

  /**
    With a triangulator that returns whole triangles the divisibility check
    never fires: an object is dropped exactly when no filter gives it a
    submesh.
   */
  lemma WholeTrianglesNeverDropped(o: CityObject, st: Settings, triangulate: Triangulator, unitNormal: Vec3 -> Vec3)
    requires WholeTriangles(triangulate)
    ensures ToSubObjectMeshData(Some(o), st, triangulate, unitNormal) == Ok(None)
            <==> SelectFilters(st.filters, o.objectType, o.semantics).submeshIndex == -1
  {
    var sel := SelectFilters(st.filters, o.objectType, o.semantics);
    var m := ObjectMesh(o, st, sel, triangulate, unitNormal);
    assert m.Ok? ==> ValidMesh(m.value);
  }

  /** A triangulator that answers every polygon with one triangle and a stray fourth index. */
  const StrayIndex: Triangulator :=
    (p: Polygon) => MeshData([Vec3(0.0, 0.0, 0.0), Vec3(1.0, 0.0, 0.0), Vec3(0.0, 1.0, 0.0)],
                             [DefaultNormal, DefaultNormal, DefaultNormal], [0, 1, 2, 0], None)

  /** A unit square wall, which is not a triangle and so goes through the triangulator. */
  const SquareWall := NewSurface([Vec3(0.0, 0.0, 0.0), Vec3(1.0, 0.0, 0.0), Vec3(1.0, 1.0, 0.0), Vec3(0.0, 1.0, 0.0)], [])

  lemma StrayIndexCollected(unitNormal: Vec3 -> Vec3)
    ensures var c := CollectSurfaces(0, [SquareWall], false, StrayIndex, unitNormal);
            c.Ok? && |c.value.vertices| == 3 && |c.value.indices| == 4
  {
    var empty := Collected([], [], [], []);
    var polygon := AppendPolygon(empty, 0, SquareWall, StrayIndex);
    assert |polygon.indices| == 4 && |polygon.vertices| == 3;
    assert AppendSurface(empty, 0, SquareWall, false, StrayIndex, unitNormal) == Ok(polygon);
    assert [SquareWall][..0] == [];
  }

  /**
    A selected building with one square wall, triangulated into four
    indices, is dropped: the index count 4 is not a multiple of 3.
   */
  lemma StrayIndexDropped(unitNormal: Vec3 -> Vec3)
    ensures var o := CityObject("Building", "b1", [], [SquareWall], []);
            var st := Settings([CityObjectFilter("Building", 0, [], 1.0)], "", "", false, 0.0, 0.0, "", 1000);
            && SelectFilters(st.filters, "Building", []).submeshIndex == 0
            && ToSubObjectMeshData(Some(o), st, StrayIndex, unitNormal) == Ok(None)
  {
    var o := CityObject("Building", "b1", [], [SquareWall], []);
    var st := Settings([CityObjectFilter("Building", 0, [], 1.0)], "", "", false, 0.0, 0.0, "", 1000);
    var sel := SelectFilters(st.filters, "Building", []);
    assert sel == Selection(0, 1.0);
    var start := EmptySubObject().(id := "b1", parentSubmeshIndex := 0, maxVerticesPerSquareMeter := 1.0);
    StrayIndexCollected(unitNormal);
    var built := AppendCityObjectGeometry(start, o, false, StrayIndex, unitNormal);
    assert |built.value.triangleIndices| == 4;
    assert ChooseId("b1", "", "", []) == "b1";
    assert [o] + o.children == [o] && [o][..0] == [];
    assert AppendObjects(start, [], false, StrayIndex, unitNormal) == Ok(start);
    assert AppendObjects(start, [o], false, StrayIndex, unitNormal) == built;
    assert ObjectMesh(o, st, sel, StrayIndex, unitNormal) == built;
  }

  // ------------------------------------------------------- per-feature work

  /** The library functions the per-feature work calls. */
  datatype Toolkit = Toolkit(mesh: MeshLibrary, triangulate: Triangulator, unitNormal: Vec3 -> Vec3)

  /** Simplify when a density is set, merge otherwise; then clip spikes when asked to. */
  function Prepare(so: SubObject, st: Settings, kit: Toolkit): (r: SubObject)
    requires ValidMesh(so)
    ensures ValidMesh(r)
    ensures r.id == so.id && r.parentSubmeshIndex == so.parentSubmeshIndex && r.centroid == so.centroid
    ensures !st.clipSpikes ==> r == Reduce(so, kit.mesh)
    ensures var reduced := Reduce(so, kit.mesh);
            && r == reduced.(vertices := r.vertices)
            && |r.vertices| == |reduced.vertices|
            && forall i | 0 <= i < |r.vertices| :: r.vertices[i].x == reduced.vertices[i].x && r.vertices[i].y == reduced.vertices[i].y
    ensures st.clipSpikes && st.spikeFloor <= st.spikeCeiling ==>
              forall i | 0 <= i < |r.vertices| :: st.spikeFloor <= r.vertices[i].z <= st.spikeCeiling
  {
    var reduced := Reduce(so, kit.mesh);
    if st.clipSpikes then
      var clipped := ClipSpikes(reduced.vertices, st.spikeCeiling, st.spikeFloor);
      assert st.spikeFloor <= st.spikeCeiling ==>
               forall i | 0 <= i < |clipped| :: st.spikeFloor <= clipped[i].z <= st.spikeCeiling by {
        if st.spikeFloor <= st.spikeCeiling {
          ClipSpikesBounded(reduced.vertices, st.spikeCeiling, st.spikeFloor);
        }
      }
      reduced.(vertices := clipped)
    else reduced
  }

  /** SimplifyMesh when the SubObject has a vertex density, MergeSimilarVertices otherwise. */
  function Reduce(so: SubObject, lib: MeshLibrary): (r: SubObject)
    requires ValidMesh(so)
    ensures ValidMesh(r)
    ensures r == so.(vertices := r.vertices, normals := r.normals, triangleIndices := r.triangleIndices)
    ensures so.maxVerticesPerSquareMeter > 0.0 ==> r == SimplifyMesh(so, lib)
    ensures so.maxVerticesPerSquareMeter <= 0.0 ==> MergeSimilarVertices(so) == Ok(r)
  {
    if so.maxVerticesPerSquareMeter > 0.0 then SimplifyMesh(so, lib) else MergeSimilarVertices(so).value
  }

  /**
    The body of the parallel loop for one feature: None when the feature is
    skipped, otherwise the SubObjects it adds to the bag. Tiled, these are
    the pieces of the clipped SubObject, or the SubObject itself (with its
    normals recalculated) when it fits in one tile.
   */
  function ProcessFeature(loaded: Outcome<Option<CityObject>>, st: Settings, kit: Toolkit): (r: Outcome<Option<seq<SubObject>>>)
    requires st.tileSize > 0
    ensures loaded.Throws? ==> r == Throws(loaded.fault)
    ensures loaded.Ok? ==> (r == Ok(None) <==> ToSubObjectMeshData(loaded.value, st, kit.triangulate, kit.unitNormal) == Ok(None))
    ensures loaded.Ok? ==> (r.Throws? <==> ToSubObjectMeshData(loaded.value, st, kit.triangulate, kit.unitNormal).Throws?)
    ensures r.Ok? && r.value.Some? ==>
              var made := ToSubObjectMeshData(loaded.value, st, kit.triangulate, kit.unitNormal).value.value;
              && |r.value.value| > 0
              && (st.tilingMethod != "TILED" ==> |r.value.value| == 1)
              && forall p | p in r.value.value ::
                   ValidMesh(p) && p.id == made.id && p.parentSubmeshIndex == made.parentSubmeshIndex
    ensures r.Ok? && r.value.Some? && st.tilingMethod != "TILED" ==>
              var made := ToSubObjectMeshData(loaded.value, st, kit.triangulate, kit.unitNormal).value.value;
              r.value.value == [Prepare(made, st, kit)]
    ensures r.Ok? && r.value.Some? && st.tilingMethod == "TILED" ==>
              var made := ToSubObjectMeshData(loaded.value, st, kit.triangulate, kit.unitNormal).value.value;
              var so := Prepare(made, st, kit);
              var pieces := ClipSubobject(kit.mesh, so, st.tileSize);
              r.value.value == if |pieces| == 0 then [CalculateNormals(so, kit.unitNormal).value] else pieces
  {
    var obj :- loaded;
    var made :- ToSubObjectMeshData(obj, st, kit.triangulate, kit.unitNormal);
    if made.None? then Ok(None)
    else
      var so := Prepare(made.value, st, kit);
      if st.tilingMethod == "TILED" then
        var pieces := ClipSubobject(kit.mesh, so, st.tileSize);
        if |pieces| == 0 then Ok(Some([CalculateNormals(so, kit.unitNormal).value]))
        else Ok(Some(pieces))
      else Ok(Some([so]))
  }

  /** What one feature gives: an exception, a skip (None), or the SubObjects it adds. */
  type FeatureResult = Outcome<Option<seq<SubObject>>>

  /** A feature that is not skipped adds at least one SubObject, and each is a valid mesh on a submesh. */
  predicate WellProcessed(f: FeatureResult) {
    f.Ok? && f.value.Some? ==>
      |f.value.value| > 0 && forall p | p in f.value.value :: ValidMesh(p) && p.parentSubmeshIndex != -1
  }

  /** The per-feature results of a CityJSON file, by feature index. */
  function Features(cj: CityJson, lod: real, st: Settings, kit: Toolkit): (fs: seq<FeatureResult>)
    requires st.tileSize > 0
    ensures |fs| == CityObjectCount(cj)
    ensures forall i | 0 <= i < |fs| :: fs[i] == ProcessFeature(LoadCityObjectByIndex(cj, i, lod), st, kit)
    ensures forall i | 0 <= i < |fs| :: WellProcessed(fs[i])
  {
    seq(CityObjectCount(cj), i requires 0 <= i < CityObjectCount(cj) =>
      ProcessFeature(LoadCityObjectByIndex(cj, i, lod), st, kit))
  }

  /** What the parse process returns: the SubObjects of all features, and how many features were skipped. */
  datatype Parsed = Parsed(objects: seq<SubObject>, skipped: nat)

  /** The SubObjects one feature adds to the bag: none when it is skipped or throws. */
  function Contribution(f: FeatureResult): seq<SubObject> {
    if f.Ok? && f.value.Some? then f.value.value else []
  }

  /** The SubObjects of all features, the first feature's first. */
  function AllContributions(fs: seq<FeatureResult>): seq<SubObject>
    decreases |fs|
  {
    if |fs| == 0 then [] else Contribution(fs[0]) + AllContributions(fs[1..])
  }

  /** The number of skipped features. */
  function SkippedCount(fs: seq<FeatureResult>): nat
    decreases |fs|
  {
    if |fs| == 0 then 0 else (if fs[0] == Ok(None) then 1 else 0) + SkippedCount(fs[1..])
  }

  /** One more feature adds its own SubObjects after the others', and one more skip when it is skipped. */
  lemma {:induction false} ContributionsSnoc(fs: seq<FeatureResult>, f: FeatureResult)
    ensures AllContributions(fs + [f]) == AllContributions(fs) + Contribution(f)
    ensures SkippedCount(fs + [f]) == SkippedCount(fs) + (if f == Ok(None) then 1 else 0)
    decreases |fs|
  {
    if |fs| == 0 {
      assert [f][1..] == [];
    } else {
      assert (fs + [f])[1..] == fs[1..] + [f];
      ContributionsSnoc(fs[1..], f);
    }
  }

  /**
    The bag the parallel loop fills, in feature order: one throwing feature
    fails the whole run, a skipped feature is counted, the others add their
    SubObjects.
   */
  function Gather(fs: seq<FeatureResult>): (r: Outcome<Parsed>)
    requires forall i | 0 <= i < |fs| :: WellProcessed(fs[i])
    ensures r.Throws? <==> exists i | 0 <= i < |fs| :: fs[i].Throws?
    ensures r.Ok? ==> r.value.skipped <= |fs| && |r.value.objects| + r.value.skipped >= |fs|
    ensures r.Ok? ==> forall p | p in r.value.objects :: ValidMesh(p) && p.parentSubmeshIndex != -1
    ensures r.Ok? ==> r.value == Parsed(AllContributions(fs), SkippedCount(fs))
    decreases |fs|
  {
    if |fs| == 0 then Ok(Parsed([], 0))
    else
      var init := fs[..|fs| - 1];
      var before := Gather(init);
      var f := Last(fs);
      assert fs == init + [f];
      ContributionsSnoc(init, f);
      if before.Throws? then
        assert forall i | 0 <= i < |init| :: init[i] == fs[i];
        before
      else if f.Throws? then Throws(f.fault)
      else
        assert forall i | 0 <= i < |init| :: init[i] == fs[i];
        assert WellProcessed(fs[|fs| - 1]);
        if f.value.None? then Ok(Parsed(before.value.objects, before.value.skipped + 1))
        else Ok(Parsed(before.value.objects + f.value.value, before.value.skipped))
  }

  /** Once a feature has thrown, the run has failed with that exception, whatever follows. */
  lemma {:induction false} FailureSticks(fs: seq<FeatureResult>, n: nat)
    requires forall i | 0 <= i < |fs| :: WellProcessed(fs[i])
    requires n <= |fs| && Gather(fs[..n]).Throws?
    ensures Gather(fs) == Gather(fs[..n])
    decreases |fs| - n
  {
    if n == |fs| {
      assert fs[..n] == fs;
    } else {
      assert fs[..n + 1][..n] == fs[..n];
      FailureSticks(fs, n + 1);
    }
  }

  /** The run fails exactly when one of the features throws. */
  lemma ParseFailsIffFeatureThrows(cj: CityJson, lod: real, st: Settings, kit: Toolkit)
    requires st.tileSize > 0
    ensures Gather(Features(cj, lod, st, kit)).Throws? <==>
            exists i | 0 <= i < CityObjectCount(cj) :: ProcessFeature(LoadCityObjectByIndex(cj, i, lod), st, kit).Throws?
  {
    var fs := Features(cj, lod, st, kit);
    if Gather(fs).Throws? {
      var i :| 0 <= i < |fs| && fs[i].Throws?;
      assert ProcessFeature(LoadCityObjectByIndex(cj, i, lod), st, kit).Throws?;
    }
  }

  /** The loop that fills the bag, feature by feature. */
  method GatherLoop(fs: seq<FeatureResult>) returns (r: Outcome<Parsed>)
    requires forall i | 0 <= i < |fs| :: WellProcessed(fs[i])
    ensures r == Gather(fs)
  {
    var objects: seq<SubObject> := [];
    var skipped := 0;
    for i := 0 to |fs|
      invariant Gather(fs[..i]) == Ok(Parsed(objects, skipped))
    {
      var feature := fs[i];
      assert fs[..i + 1][..i] == fs[..i];
      if feature.Throws? {
        FailureSticks(fs, i + 1);
        return Throws(feature.fault);
      }
      if feature.value.None? {
        skipped := skipped + 1;
      } else {
        objects := objects + feature.value.value;
      }
    }
    assert fs[..|fs|] == fs;
    r := Ok(Parsed(objects, skipped));
  }

  /** CityJSONParseProcess: every feature processed, the results gathered. */
  method ParseProcess(cj: CityJson, lod: real, st: Settings, kit: Toolkit) returns (r: Outcome<Parsed>)
    requires st.tileSize > 0
    ensures r == Gather(Features(cj, lod, st, kit))
    ensures r.Ok? ==> forall p | p in r.value.objects :: ValidMesh(p) && p.parentSubmeshIndex != -1
    ensures r.Ok? ==> var fs := Features(cj, lod, st, kit);
                      r.value == Parsed(AllContributions(fs), SkippedCount(fs))
  {
    r := GatherLoop(Features(cj, lod, st, kit));
  }
}

=== FILE: csvparse.dfy ===
/**
  The CSV reader of the csv-to-CityJSON tool: a header line of column names
  separated by ';', then data lines. A data line with as many fields as
  there are columns becomes an item mapping each column name to its field;
  other lines are skipped. A second operation collects the distinct values
  of one column in the order they are first seen.

  The file is given as its sequence of lines; reading it is not modelled.
 */
module CsvParse {
  import opened Common
  import opened Text

  const Separator := ';'

  /** One data line: column name to field text (csvItem.properties). */
  datatype CsvItem = CsvItem(properties: map<string, string>)

  /** The parser's state: the items and the property values collected so far, over all calls. */
  datatype CsvParser = CsvParser(items: seq<CsvItem>, propertyValues: seq<string>)

  const NewParser := CsvParser([], [])

  predicate Distinct<T(==)>(s: seq<T>) {
    forall i, j | 0 <= i < j < |s| :: s[i] != s[j]
  }

  /** The line's fields when it has one per column; None for a line the parser skips. */
  function Fields(columns: seq<string>, line: string): (r: Option<seq<string>>)
    ensures r.Some? ==> |r.value| == |columns| && Join(r.value, Separator) == line
    ensures r.Some? <==> CountChar(line, Separator) + 1 == |columns|
  {
    var fields := Split(line, Separator);
    if |fields| == |columns| then Some(fields) else None
  }

  // ---------------------------------------------------------------- parseFile

  /**
    The dictionary of one line, filled column by column with Dictionary.Add:
    a column name that comes twice throws.
   */
  function ItemOf(columns: seq<string>, fields: seq<string>): (r: Outcome<map<string, string>>)
    requires |columns| == |fields|
    ensures r.Ok? <==> Distinct(columns)
    ensures r.Throws? ==> r == Throws(DuplicateKey)
    ensures r.Ok? ==> forall c :: c in r.value <==> c in columns
    ensures r.Ok? ==> forall i | 0 <= i < |columns| :: columns[i] in r.value && r.value[columns[i]] == fields[i]
    decreases |columns|
  {
    if |columns| == 0 then Ok(map[])
    else
      var n := |columns| - 1;
      var before := ItemOf(columns[..n], fields[..n]);
      DistinctSnoc(columns[..n], columns[n]);
      assert columns[..n] + [columns[n]] == columns;
      if before.Throws? then before
      else if columns[n] in before.value then Throws(DuplicateKey)
      else
        var m := before.value[columns[n] := fields[n]];
        assert forall c :: c in m <==> c in columns by {
          assert forall c :: c in columns <==> c in columns[..n] || c == columns[n];
        }
        assert forall i | 0 <= i < |columns| :: columns[i] in m && m[columns[i]] == fields[i] by {
          forall i | 0 <= i < |columns|
            ensures columns[i] in m && m[columns[i]] == fields[i]
          {
            if i < n {
              assert columns[..n][i] == columns[i] && fields[..n][i] == fields[i];
              assert columns[i] != columns[n];
            }
          }
        }
        Ok(m)
  }

  /** A list with one more element is without repeats exactly when the list is and lacks the element. */
  lemma DistinctSnoc<T>(s: seq<T>, x: T)
    ensures Distinct(s + [x]) <==> Distinct(s) && x !in s
  {
    var t := s + [x];
    if Distinct(t) {
      forall i, j | 0 <= i < j < |s|
        ensures s[i] != s[j]
      {
        assert t[i] == s[i] && t[j] == s[j];
      }
      assert forall i | 0 <= i < |s| :: t[i] == s[i] && t[i] != t[|s|];
    }
    if Distinct(s) && x !in s {
      forall i, j | 0 <= i < j < |t|
        ensures t[i] != t[j]
      {
        if j < |s| {
          assert t[i] == s[i] && t[j] == s[j];
        } else {
          assert t[i] == s[i];
        }
      }
    }
  }

  /** The lines whose field count matches the header, in order. */
  function MatchingLines(columns: seq<string>, lines: seq<string>): (r: seq<string>)
    ensures |r| <= |lines|
    ensures forall l | l in r :: l in lines && Fields(columns, l).Some?
    ensures forall l | l in lines && Fields(columns, l).Some? :: l in r
    decreases |lines|
  {
    if |lines| == 0 then []
    else
      var init := lines[..|lines| - 1];
      var rest := MatchingLines(columns, init);
      assert forall l | l in init :: l in lines;
      assert forall l | l in lines :: l in init || l == Last(lines);
      if Fields(columns, Last(lines)).Some? then rest + [Last(lines)] else rest
  }

  /** The data-line loop of parseFile: skip mismatched lines, add an item for every other. */
  function ParseLines(columns: seq<string>, lines: seq<string>): (r: Outcome<seq<CsvItem>>)
    ensures r.Ok? ==> |r.value| == |MatchingLines(columns, lines)|
    ensures r.Throws? <==> |MatchingLines(columns, lines)| > 0 && !Distinct(columns)
    ensures r.Throws? ==> r == Throws(DuplicateKey)
    ensures r.Ok? ==> forall k | 0 <= k < |r.value| ::
              var fields := Fields(columns, MatchingLines(columns, lines)[k]).value;
              ItemOf(columns, fields) == Ok(r.value[k].properties)
    decreases |lines|
  {
    if |lines| == 0 then Ok([])
    else
      var init := lines[..|lines| - 1];
      var before :- ParseLines(columns, init);
      var fields := Fields(columns, Last(lines));
      if fields.None? then Ok(before)
      else
        var item :- ItemOf(columns, fields.value);
        Ok(before + [CsvItem(item)])
  }

  /**
    parseFile over the file's lines. A file without a first line throws
    (ReadLine gives null, which is then split). The items of this file are
    added after those of earlier calls; the collected property values are
    left alone.
   */
  function ParseFile(p: CsvParser, file: seq<string>): (r: Outcome<CsvParser>)
    ensures |file| == 0 ==> r == Throws(NullReference)
    ensures |file| > 0 ==> var columns := Split(file[0], Separator);
              && (r.Throws? <==> |MatchingLines(columns, file[1..])| > 0 && !Distinct(columns))
              && (r.Throws? ==> r == Throws(DuplicateKey))
    ensures r.Ok? ==> r.value.propertyValues == p.propertyValues
    ensures r.Ok? ==> |r.value.items| >= |p.items| && r.value.items[..|p.items|] == p.items
    ensures r.Ok? ==> |r.value.items| == |p.items| + |MatchingLines(Split(file[0], Separator), file[1..])|
    ensures r.Ok? ==> r.value.items == p.items + ParseLines(Split(file[0], Separator), file[1..]).value
    ensures r.Ok? ==> var columns := Split(file[0], Separator);
              var lines := MatchingLines(columns, file[1..]);
              forall k | 0 <= k < |lines| ::
                ItemOf(columns, Fields(columns, lines[k]).value) == Ok(r.value.items[|p.items| + k].properties)
  {
    if |file| == 0 then Throws(NullReference)
    else
      var columns := Split(file[0], Separator);
      var items :- ParseLines(columns, file[1..]);
      Ok(p.(items := p.items + items))
  }

  /**
    Every item rebuilds the data line it was read from: its values, taken
    in column order and joined with ';', give that line back.
   */
  lemma ItemRebuildsLine(file: seq<string>, k: nat)
    requires |file| > 0
    requires var columns := Split(file[0], Separator);
             var items := ParseLines(columns, file[1..]);
             items.Ok? && k < |items.value|
    ensures var columns := Split(file[0], Separator);
            var item := ParseLines(columns, file[1..]).value[k];
            var line := MatchingLines(columns, file[1..])[k];
            && (forall c | c in columns :: c in item.properties)
            && Join(seq(|columns|, i requires 0 <= i < |columns| => item.properties[columns[i]]), Separator) == line
  {
    var columns := Split(file[0], Separator);
    var item := ParseLines(columns, file[1..]).value[k];
    var line := MatchingLines(columns, file[1..])[k];
    var fields := Fields(columns, line).value;
    assert line in MatchingLines(columns, file[1..]);
    var values := seq(|columns|, i requires 0 <= i < |columns| => item.properties[columns[i]]);
    assert values == fields;
  }

  /** The header "id;id" has the two columns "id" and "id". */
  lemma RepeatedHeader()
    ensures Split("id;id", Separator) == ["id", "id"]
  {
    assert "id;id"[1..] == "d;id" && "d;id"[1..] == ";id" && ";id"[1..] == "id" && "id"[1..] == "d" && "d"[1..] == "";
    assert Split("d", Separator) == ["d"];
    assert Split("id", Separator) == ["id"];
    assert Split(";id", Separator) == ["", "id"];
    assert Split("d;id", Separator) == ["d", "id"];
  }

  /** A header "id;id" with a data line: Dictionary.Add throws on the second "id". */
  lemma DuplicateColumnThrows()
    ensures ParseFile(NewParser, ["id;id", "1;2"]) == Throws(DuplicateKey)
  {
    RepeatedHeader();
    var columns := ["id", "id"];
    assert ["id;id", "1;2"][1..] == ["1;2"];
    assert !Distinct(columns) by {
      assert columns[0] == columns[1];
    }
    assert Fields(columns, "1;2").Some? by {
      assert "1;2"[1..] == ";2" && ";2"[1..] == "2" && "2"[1..] == "";
      assert CountChar("1;2", Separator) == 1;
    }
    assert MatchingLines(columns, ["1;2"]) == ["1;2"] by {
      assert ["1;2"][..0] == [];
    }
  }

  // ---------------------------------------------------- getUniquePropertyValues

  /** The index of the last column named `property`; column 0 when there is none. */
  function SearchColumn(columns: seq<string>, property: string): (k: nat)
    requires |columns| > 0
    ensures k < |columns|
    ensures property in columns ==> columns[k] == property && forall j | k < j < |columns| :: columns[j] != property
    ensures property !in columns ==> k == 0
    decreases |columns|
  {
    if |columns| == 1 then 0
    else if Last(columns) == property then |columns| - 1
    else
      var init := columns[..|columns| - 1];
      assert property in columns && Last(columns) != property ==> property in init by {
        if property in columns && Last(columns) != property {
          var i :| 0 <= i < |columns| && columns[i] == property;
          assert init[i] == property;
        }
      }
      assert property in init ==> property in columns;
      SearchColumn(init, property)
  }

  /** The chosen column's field of every matching line, in order. */
  function ColumnValues(columns: seq<string>, lines: seq<string>, k: nat): (r: seq<string>)
    requires k < |columns|
    ensures |r| == |MatchingLines(columns, lines)|
    ensures forall i | 0 <= i < |r| :: r[i] == Fields(columns, MatchingLines(columns, lines)[i]).value[k]
    decreases |lines|
  {
    if |lines| == 0 then []
    else
      var rest := ColumnValues(columns, lines[..|lines| - 1], k);
      var fields := Fields(columns, Last(lines));
      if fields.Some? then rest + [fields.value[k]] else rest
  }

  /** A value is in the column exactly when some matching line has it in that field. */
  lemma ColumnValuesMembers(columns: seq<string>, lines: seq<string>, k: nat)
    requires k < |columns|
    ensures forall x :: x in ColumnValues(columns, lines, k) <==>
              exists l | l in MatchingLines(columns, lines) :: Fields(columns, l).value[k] == x
  {
    var vs := ColumnValues(columns, lines, k);
    var ms := MatchingLines(columns, lines);
    forall x
      ensures x in vs <==> exists l | l in ms :: Fields(columns, l).value[k] == x
    {
      if x in vs {
        var i :| 0 <= i < |vs| && vs[i] == x;
        assert ms[i] in ms;
      }
      if exists l | l in ms :: Fields(columns, l).value[k] == x {
        var l :| l in ms && Fields(columns, l).value[k] == x;
        var i :| 0 <= i < |ms| && ms[i] == l;
        assert vs[i] == x;
      }
    }
  }

  /** The `Contains`/`Add` loop: a value not yet in the list is appended. */
  function AddUnique(acc: seq<string>, vs: seq<string>): (r: seq<string>)
    ensures |r| >= |acc| && r[..|acc|] == acc
    ensures forall x :: x in r <==> x in acc || x in vs
    ensures Distinct(acc) ==> Distinct(r)
    decreases |vs|
  {
    if |vs| == 0 then acc
    else
      var init := vs[..|vs| - 1];
      var before := AddUnique(acc, init);
      assert forall x :: x in vs <==> x in init || x == Last(vs);
      if Last(vs) in before then before
      else
        var r := before + [Last(vs)];
        assert r[..|acc|] == before[..|acc|];
        r
  }

  /** The position where `x` first occurs. */
  function FirstIndex(vs: seq<string>, x: string): (k: nat)
    requires x in vs
    ensures k < |vs| && vs[k] == x && forall j | 0 <= j < k :: vs[j] != x
    decreases |vs|
  {
    if vs[0] == x then 0 else 1 + FirstIndex(vs[1..], x)
  }

  lemma FirstIndexPrefix(vs: seq<string>, m: nat, x: string)
    requires m <= |vs| && x in vs[..m]
    ensures FirstIndex(vs, x) == FirstIndex(vs[..m], x)
  {
    var k := FirstIndex(vs[..m], x);
    var l := FirstIndex(vs, x);
    assert vs[k] == x;
  }

  /**
    The values added after `acc` come in the order of their first
    occurrence in `vs`.
   */
  lemma {:induction false} AddUniqueFirstSeenOrder(acc: seq<string>, vs: seq<string>, i: nat, j: nat)
    requires var r := AddUnique(acc, vs); |acc| <= i < j < |r|
    ensures var r := AddUnique(acc, vs);
            r[i] in vs && r[j] in vs && FirstIndex(vs, r[i]) < FirstIndex(vs, r[j])
    decreases |vs|
  {
    var r := AddUnique(acc, vs);
    var n := |vs| - 1;
    var init := vs[..n];
    var before := AddUnique(acc, init);
    assert r[i] !in acc by {
      assert r[..|acc|] == acc;
      assert r[i] in acc ==> false by {
        if r[i] in acc {
          var a :| 0 <= a < |acc| && acc[a] == r[i];
          assert r[a] == acc[a];
          AddUniqueKeepsDistinctNew(acc, vs, a, i);
        }
      }
    }
    if j < |before| {
      assert r[i] == before[i] && r[j] == before[j];
      AddUniqueFirstSeenOrder(acc, init, i, j);
      FirstIndexPrefix(vs, n, r[i]);
      FirstIndexPrefix(vs, n, r[j]);
    } else {
      assert r == before + [vs[n]] && j == |before|;
      assert r[i] == before[i] && before[i] in before;
      assert r[i] in init;
      FirstIndexPrefix(vs, n, r[i]);
      assert vs[n] !in init;
      assert FirstIndex(vs, vs[n]) == n by {
        var k := FirstIndex(vs, vs[n]);
      }
    }
  }

  /** A value at a position beyond `acc` is not the value at a position within it. */
  lemma AddUniqueKeepsDistinctNew(acc: seq<string>, vs: seq<string>, a: nat, i: nat)
    requires var r := AddUnique(acc, vs); a < |acc| <= i < |r|
    ensures var r := AddUnique(acc, vs); r[a] != r[i]
    decreases |vs|
  {
    var r := AddUnique(acc, vs);
    if |vs| > 0 {
      var before := AddUnique(acc, vs[..|vs| - 1]);
      if i < |before| {
        AddUniqueKeepsDistinctNew(acc, vs[..|vs| - 1], a, i);
      } else {
        assert r[a] == before[a] && before[a] in before;
      }
    }
  }

  /**
    getUniquePropertyValues over the file's lines: the field in the last
    column named `property` (column 0 when none is) of every matching line,
    added when it is not in the list yet. A file without a first line throws.
   */
  function UniquePropertyValues(p: CsvParser, property: string, file: seq<string>): (r: Outcome<CsvParser>)
    ensures r.Throws? <==> |file| == 0
    ensures r.Ok? ==> r.value.items == p.items
    ensures |file| > 0 && r.Ok? ==> var columns := Split(file[0], Separator);
              var k := SearchColumn(columns, property);
              && |r.value.propertyValues| >= |p.propertyValues|
              && r.value.propertyValues[..|p.propertyValues|] == p.propertyValues
              && (Distinct(p.propertyValues) ==> Distinct(r.value.propertyValues))
              && forall x :: x in r.value.propertyValues <==>
                   x in p.propertyValues || exists l | l in MatchingLines(columns, file[1..]) :: Fields(columns, l).value[k] == x
  {
    if |file| == 0 then Throws(NullReference)
    else
      var columns := Split(file[0], Separator);
      var k := SearchColumn(columns, property);
      var vs := ColumnValues(columns, file[1..], k);
      ColumnValuesMembers(columns, file[1..], k);
      Ok(p.(propertyValues := AddUnique(p.propertyValues, vs)))
  }
}

=== FILE: meshops.dfy ===
/**
  A SubObject is the mesh of one feature on its way into a tile. This module
  models the operations on it: merging corners that share a position and
  (nearly) a normal, flattening height spikes, recomputing flat normals, and
  writing back a mesh that the mesh library has simplified or clipped.
 */
module MeshOps {
  import opened Common

  datatype Centroid = Centroid(x: Num, y: Num)

  datatype SubObject = SubObject(
    vertices: seq<Vec3>,
    normals: seq<Vec3>,
    uvs: seq<Vec2>,
    triangleIndices: seq<int>,
    centroid: Centroid,
    parentSubmeshIndex: int,
    id: string,
    maxVerticesPerSquareMeter: real)

  /** `new SubObject()`: empty lists, centroid (0, 0), submesh 0, empty id, density 0. */
  function EmptySubObject(): SubObject {
    SubObject([], [], [], [], Centroid(Finite(0.0), Finite(0.0)), 0, "", 0.0)
  }

  /** A triangle mesh whose index list references existing vertices, with one normal per vertex. */
  predicate ValidMesh(so: SubObject) {
    && |so.triangleIndices| % 3 == 0
    && |so.normals| == |so.vertices|
    && forall i | 0 <= i < |so.triangleIndices| :: 0 <= so.triangleIndices[i] < |so.vertices|
  }

  /** Proof helper, not a property of the model: three times a count is a multiple of three. */
  lemma MultipleOfThree(n: nat)
    ensures (3 * n) % 3 == 0
  {
  }

  // ------------------------------------------------------ similar vertices

  /**
    The stored key a dictionary lookup of `x` finds, -1 when there is none;
    `eq` says whether a stored key matches. A bucket is searched from the most
    recently added key back, so of several matching keys the latest wins.
   */
  function Lookup<K>(reps: seq<K>, x: K, eq: (K, K) -> bool): (j: int)
    ensures -1 <= j < |reps|
    ensures j >= 0 ==> eq(reps[j], x)
    ensures forall k | j < k < |reps| :: !eq(reps[k], x)
    decreases |reps|
  {
    if |reps| == 0 then -1
    else if eq(Last(reps), x) then |reps| - 1
    else Lookup(reps[..|reps| - 1], x, eq)
  }

  /** The merged keys and, for every corner, its new vertex index. */
  datatype Merge<K> = Merge(reps: seq<K>, indices: seq<int>)

  /** One corner of the merge loop: reuse the key the lookup finds, or add the corner as a new vertex. */
  function MergeStep<K>(m: Merge<K>, x: K, eq: (K, K) -> bool): Merge<K> {
    var j := Lookup(m.reps, x, eq);
    if j < 0 then Merge(m.reps + [x], m.indices + [|m.reps|]) else Merge(m.reps, m.indices + [j])
  }

  /** A corner that matches no stored key becomes a new vertex. */
  lemma StepAddsVertex<K>(m: Merge<K>, x: K, eq: (K, K) -> bool)
    requires forall k | 0 <= k < |m.reps| :: !eq(m.reps[k], x)
    ensures MergeStep(m, x, eq) == Merge(m.reps + [x], m.indices + [|m.reps|])
  {
  }

  /** A corner that matches key p, and no later key, reuses vertex p. */
  lemma StepReusesVertex<K>(m: Merge<K>, x: K, p: nat, eq: (K, K) -> bool)
    requires p < |m.reps| && eq(m.reps[p], x)
    requires forall k | p < k < |m.reps| :: !eq(m.reps[k], x)
    ensures MergeStep(m, x, eq) == Merge(m.reps, m.indices + [p])
  {
  }

  /** The merge over a list of corner keys, one MergeStep per corner in order. */
  function Dedup<K>(ks: seq<K>, eq: (K, K) -> bool): (m: Merge<K>)
    ensures |m.indices| == |ks|
    ensures |m.reps| <= |ks|
    decreases |ks|
  {
    if |ks| == 0 then Merge([], [])
    else MergeStep(Dedup(ks[..|ks| - 1], eq), Last(ks), eq)
  }

  lemma DedupSnoc<K>(ks: seq<K>, x: K, eq: (K, K) -> bool)
    ensures Dedup(ks + [x], eq) == MergeStep(Dedup(ks, eq), x, eq)
  {
    assert (ks + [x])[..|ks|] == ks;
  }

  /**
    What a merge guarantees: every corner gets an index whose key it matches,
    and no merged key matches a later one.
   */
  ghost predicate MergeShape<K>(ks: seq<K>, m: Merge<K>, eq: (K, K) -> bool) {
    && |m.indices| == |ks|
    && (forall i | 0 <= i < |ks| :: 0 <= m.indices[i] < |m.reps| && eq(m.reps[m.indices[i]], ks[i]))
    && (forall j, k | 0 <= j < k < |m.reps| :: !eq(m.reps[j], m.reps[k]))
  }

  /**
    How the merge numbers its vertices: every kept key is used by some
    corner; the corner that first uses a vertex is the key kept for it; and a
    corner's vertex is at most one past those the corners before it use, so
    vertices are numbered in the order they are first used.
   */
  ghost predicate MergeCanonical<K>(ks: seq<K>, m: Merge<K>) {
    && |m.indices| == |ks|
    && (forall i | 0 <= i < |ks| :: 0 <= m.indices[i] < |m.reps|)
    && (forall j | 0 <= j < |m.reps| :: j in m.indices)
    && (forall i | 0 <= i < |ks| && m.indices[i] !in m.indices[..i] :: m.reps[m.indices[i]] == ks[i])
    && (forall i, j | 0 <= i < |ks| && 0 <= j < m.indices[i] :: j in m.indices[..i])
  }

  /** A key relation that every key satisfies with itself and that does not depend on argument order. */
  ghost predicate ReflexiveSymmetric<K(!new)>(eq: (K, K) -> bool) {
    (forall a: K :: eq(a, a)) && forall a: K, b: K :: eq(a, b) ==> eq(b, a)
  }

  lemma {:induction false} DedupShape<K(!new)>(ks: seq<K>, eq: (K, K) -> bool)
    requires ReflexiveSymmetric(eq)
    ensures MergeShape(ks, Dedup(ks, eq), eq)
    decreases |ks|
  {
    if |ks| > 0 {
      var init := ks[..|ks| - 1];
      var x := Last(ks);
      DedupShape(init, eq);
      var m := Dedup(init, eq);
      assert MergeShape(init, m, eq);
      var r := Dedup(ks, eq);
      assert r == MergeStep(m, x, eq);
      assert ks == init + [x];
      var j := Lookup(m.reps, x, eq);
      if j < 0 {
        assert r.reps == m.reps + [x] && r.indices == m.indices + [|m.reps|];
      } else {
        assert r.reps == m.reps && r.indices == m.indices + [j];
      }
      forall i | 0 <= i < |ks|
        ensures 0 <= r.indices[i] < |r.reps| && eq(r.reps[r.indices[i]], ks[i])
      {
        if i < |init| {
          assert r.indices[i] == m.indices[i] && ks[i] == init[i];
          assert r.reps[m.indices[i]] == m.reps[m.indices[i]];
        }
      }
    }
  }

  lemma {:induction false} DedupCanonical<K>(ks: seq<K>, eq: (K, K) -> bool)
    ensures MergeCanonical(ks, Dedup(ks, eq))
    decreases |ks|
  {
    if |ks| > 0 {
      var init := ks[..|ks| - 1];
      DedupCanonical(init, eq);
      assert ks == init + [Last(ks)];
      StepCanonical(init, Dedup(init, eq), Last(ks), eq);
    }
  }

  /** One merge step keeps the numbering canonical. */
  lemma StepCanonical<K>(ks: seq<K>, m: Merge<K>, x: K, eq: (K, K) -> bool)
    requires MergeCanonical(ks, m)
    ensures MergeCanonical(ks + [x], MergeStep(m, x, eq))
  {
    var r := MergeStep(m, x, eq);
    var j := Lookup(m.reps, x, eq);
    var t := if j < 0 then |m.reps| else j;
    assert r.indices == m.indices + [t];
    assert (t == |m.reps| && r.reps == m.reps + [x]) || (t < |m.reps| && r.reps == m.reps);
    StepUsesEveryVertex(ks, m, r, x, t);
    StepFirstUse(ks, m, r, x, t);
    StepNumbering(ks, m, r, x, t);
  }

  /** After a step, every vertex is still used by some corner. */
  lemma StepUsesEveryVertex<K>(ks: seq<K>, m: Merge<K>, r: Merge<K>, x: K, t: nat)
    requires MergeCanonical(ks, m)
    requires r.indices == m.indices + [t]
    requires (t == |m.reps| && r.reps == m.reps + [x]) || (t < |m.reps| && r.reps == m.reps)
    ensures forall i | 0 <= i < |ks| + 1 :: 0 <= r.indices[i] < |r.reps|
    ensures forall k | 0 <= k < |r.reps| :: k in r.indices
  {
    forall k | 0 <= k < |r.reps|
      ensures k in r.indices
    {
      if k < |m.reps| {
        assert k in m.indices;
      } else {
        assert r.indices[|ks|] == k;
      }
    }
  }

  /** After a step, the corner that first uses a vertex is still the key kept for it. */
  lemma StepFirstUse<K>(ks: seq<K>, m: Merge<K>, r: Merge<K>, x: K, t: nat)
    requires MergeCanonical(ks, m)
    requires r.indices == m.indices + [t]
    requires (t == |m.reps| && r.reps == m.reps + [x]) || (t < |m.reps| && r.reps == m.reps)
    ensures forall i | 0 <= i < |ks| + 1 && r.indices[i] !in r.indices[..i] :: r.reps[r.indices[i]] == (ks + [x])[i]
  {
    var n := |ks|;
    forall i | 0 <= i < n + 1 && r.indices[i] !in r.indices[..i]
      ensures r.reps[r.indices[i]] == (ks + [x])[i]
    {
      if i < n {
        assert r.indices[..i] == m.indices[..i];
        assert r.indices[i] == m.indices[i];
      } else {
        assert r.indices[..i] == m.indices;
        if t < |m.reps| {
          assert false;
        }
      }
    }
  }

  /** After a step, a corner's vertex is still at most one past those used before it. */
  lemma StepNumbering<K>(ks: seq<K>, m: Merge<K>, r: Merge<K>, x: K, t: nat)
    requires MergeCanonical(ks, m)
    requires r.indices == m.indices + [t]
    requires (t == |m.reps| && r.reps == m.reps + [x]) || (t < |m.reps| && r.reps == m.reps)
    ensures forall i, k | 0 <= i < |ks| + 1 && 0 <= k < r.indices[i] :: k in r.indices[..i]
  {
    var n := |ks|;
    forall i, k | 0 <= i < n + 1 && 0 <= k < r.indices[i]
      ensures k in r.indices[..i]
    {
      if i < n {
        assert r.indices[..i] == m.indices[..i];
      } else {
        assert k in m.indices;
        assert r.indices[..i] == m.indices;
      }
    }
  }

  /** The merge of a prefix is a prefix of the merge: earlier corners keep their indices. */
  lemma {:induction false} DedupPrefix<K>(ks: seq<K>, n: nat, eq: (K, K) -> bool)
    requires n <= |ks|
    ensures var small := Dedup(ks[..n], eq);
            var full := Dedup(ks, eq);
            |small.reps| <= |full.reps| && full.reps[..|small.reps|] == small.reps && full.indices[..n] == small.indices
    decreases |ks|
  {
    if n < |ks| {
      var init := ks[..|ks| - 1];
      assert init[..n] == ks[..n];
      DedupPrefix(init, n, eq);
    } else {
      assert ks[..n] == ks;
    }
  }

  /** With keys that do not match each other, a lookup of a stored key finds exactly that key. */
  lemma LookupFindsItself<K(!new)>(reps: seq<K>, j: nat, eq: (K, K) -> bool)
    requires ReflexiveSymmetric(eq)
    requires j < |reps|
    requires forall a, b | 0 <= a < b < |reps| :: !eq(reps[a], reps[b])
    ensures Lookup(reps, reps[j], eq) == j
  {
    assert eq(reps[j], reps[j]);
  }

  /** The corner keys a merge leaves behind: each corner's merged key. */
  function Expand<K>(m: Merge<K>): (ks: seq<K>)
    requires forall i | 0 <= i < |m.indices| :: 0 <= m.indices[i] < |m.reps|
    ensures |ks| == |m.indices|
    ensures forall i | 0 <= i < |ks| :: ks[i] == m.reps[m.indices[i]]
  {
    seq(|m.indices|, i requires 0 <= i < |m.indices| => m.reps[m.indices[i]])
  }

  /** The merge of the first n corners is one step on from the merge of the first n - 1. */
  lemma DedupLastStep<K>(ks: seq<K>, n: nat, eq: (K, K) -> bool)
    requires 0 < n <= |ks|
    ensures Dedup(ks[..n], eq) == MergeStep(Dedup(ks[..n - 1], eq), ks[n - 1], eq)
  {
    assert ks[..n][..n - 1] == ks[..n - 1];
  }

  /** No merged key matches a later one. */
  lemma DedupRepsApart<K(!new)>(ks: seq<K>, eq: (K, K) -> bool)
    requires ReflexiveSymmetric(eq)
    ensures var reps := Dedup(ks, eq).reps;
            forall a, b | 0 <= a < b < |reps| :: !eq(reps[a], reps[b])
  {
    DedupShape(ks, eq);
  }

  /** Re-merging the key a corner was merged into takes the same step as the corner itself. */
  lemma StepOfOwnRep<K(!new)>(before: Merge<K>, x: K, eq: (K, K) -> bool)
    requires ReflexiveSymmetric(eq)
    requires forall a, b | 0 <= a < b < |before.reps| :: !eq(before.reps[a], before.reps[b])
    ensures var after := MergeStep(before, x, eq);
            0 <= Last(after.indices) < |after.reps| && MergeStep(before, after.reps[Last(after.indices)], eq) == after
  {
    var j := Lookup(before.reps, x, eq);
    if j >= 0 {
      LookupFindsItself(before.reps, j, eq);
    }
  }

  /** Corner n-1 of the expanded merge is the key corner n-1 was merged into by the merge of the first n corners. */
  lemma ExpandedCorner<K>(ks: seq<K>, n: nat, eq: (K, K) -> bool)
    requires 0 < n <= |ks|
    requires forall i | 0 <= i < |ks| :: 0 <= Dedup(ks, eq).indices[i] < |Dedup(ks, eq).reps|
    ensures var after := Dedup(ks[..n], eq);
            0 <= Last(after.indices) < |after.reps| && Expand(Dedup(ks, eq))[n - 1] == after.reps[Last(after.indices)]
  {
    var full := Dedup(ks, eq);
    var after := Dedup(ks[..n], eq);
    DedupPrefix(ks, n, eq);
    assert full.indices[..n][n - 1] == full.indices[n - 1];
    assert full.reps[..|after.reps|][Last(after.indices)] == full.reps[Last(after.indices)];
  }

  lemma {:induction false} DedupOfExpandedPrefix<K(!new)>(ks: seq<K>, n: nat, eq: (K, K) -> bool)
    requires ReflexiveSymmetric(eq)
    requires n <= |ks|
    requires forall i | 0 <= i < |ks| :: 0 <= Dedup(ks, eq).indices[i] < |Dedup(ks, eq).reps|
    ensures Dedup(Expand(Dedup(ks, eq))[..n], eq) == Dedup(ks[..n], eq)
    decreases n
  {
    var ex := Expand(Dedup(ks, eq));
    if n == 0 {
      assert ex[..0] == [] && ks[..0] == [];
    } else {
      DedupOfExpandedPrefix(ks, n - 1, eq);
      DedupLastStep(ex, n, eq);
      DedupLastStep(ks, n, eq);
      ExpandedCorner(ks, n, eq);
      DedupRepsApart(ks[..n - 1], eq);
      StepOfOwnRep(Dedup(ks[..n - 1], eq), ks[n - 1], eq);
    }
  }

  /** Merging the corners a merge leaves behind gives the same merge again. */
  lemma DedupIdempotent<K(!new)>(ks: seq<K>, eq: (K, K) -> bool)
    requires ReflexiveSymmetric(eq)
    ensures MergeShape(ks, Dedup(ks, eq), eq)
    ensures Dedup(Expand(Dedup(ks, eq)), eq) == Dedup(ks, eq)
  {
    DedupShape(ks, eq);
    var ex := Expand(Dedup(ks, eq));
    DedupOfExpandedPrefix(ks, |ks|, eq);
    assert ex[..|ks|] == ex;
    assert ks[..|ks|] == ks;
  }

  /** The merge loop over the corners, as MergeSimilarVertices runs it. */
  method DedupLoop<K>(ks: seq<K>, eq: (K, K) -> bool) returns (reps: seq<K>, indices: seq<int>)
    ensures Merge(reps, indices) == Dedup(ks, eq)
  {
    reps, indices := [], [];
    for i := 0 to |ks|
      invariant Merge(reps, indices) == Dedup(ks[..i], eq)
    {
      DedupSnoc(ks[..i], ks[i], eq);
      assert ks[..i + 1] == ks[..i] + [ks[i]];
      var j := Lookup(reps, ks[i], eq);
      if j < 0 {
        indices := indices + [|reps|];
        reps := reps + [ks[i]];
      } else {
        indices := indices + [j];
      }
    }
    assert ks[..|ks|] == ks;
  }

  /** The dictionary key of the merge: a corner's position and normal. */
  datatype VertexNormal = VertexNormal(vertex: Vec3, normal: Vec3)

  /** `vertexNormalCombination.Equals`: the same position and a normal within 0.01 / 0.001 / 0.001. */
  predicate Similar(a: VertexNormal, b: VertexNormal) {
    && Abs(b.normal.x - a.normal.x) < 0.01
    && Abs(b.normal.y - a.normal.y) < 0.001
    && Abs(b.normal.z - a.normal.z) < 0.001
    && a.vertex == b.vertex
  }

  /**
    The key match of a dictionary whose hash is derived from the normal: the
    hash codes must agree before Equals is consulted.
   */
  function HashedSimilar(normalHash: Vec3 -> int): (VertexNormal, VertexNormal) -> bool {
    (a: VertexNormal, b: VertexNormal) => normalHash(a.normal) == normalHash(b.normal) && Similar(a, b)
  }

  lemma SimilarIsReflexiveSymmetric(normalHash: Vec3 -> int)
    ensures ReflexiveSymmetric(Similar)
    ensures ReflexiveSymmetric(HashedSimilar(normalHash))
  {
  }

  /** The key of every corner; a corner index outside the vertex or normal list throws. */
  function CornerKeys(so: SubObject): (r: Outcome<seq<VertexNormal>>)
    ensures r.Ok? <==> forall i | 0 <= i < |so.triangleIndices| ::
      0 <= so.triangleIndices[i] < |so.vertices| && so.triangleIndices[i] < |so.normals|
    ensures r.Ok? ==> |r.value| == |so.triangleIndices|
    ensures r.Ok? ==> forall i | 0 <= i < |so.triangleIndices| ::
      r.value[i] == VertexNormal(so.vertices[so.triangleIndices[i]], so.normals[so.triangleIndices[i]])
  {
    var t := so.triangleIndices;
    if forall i | 0 <= i < |t| :: 0 <= t[i] < |so.vertices| && t[i] < |so.normals|
    then Ok(seq(|t|, i requires 0 <= i < |t| => VertexNormal(so.vertices[t[i]], so.normals[t[i]])))
    else Throws(IndexOutOfRange)
  }

  /** The SubObject a merge produces: the merged vertices and normals, the new indices, everything else kept. */
  function Merged(so: SubObject, m: Merge<VertexNormal>): SubObject {
    so.(vertices := seq(|m.reps|, j requires 0 <= j < |m.reps| => m.reps[j].vertex),
        normals := seq(|m.reps|, j requires 0 <= j < |m.reps| => m.reps[j].normal),
        triangleIndices := m.indices)
  }

  /** A SubObject seen as a merge: its vertex/normal pairs as the kept keys, its indices as the corners' vertices. */
  function MergeView(so: SubObject): (m: Merge<VertexNormal>)
    requires |so.normals| == |so.vertices|
    ensures |m.reps| == |so.vertices| && m.indices == so.triangleIndices
    ensures forall j | 0 <= j < |so.vertices| :: m.reps[j] == VertexNormal(so.vertices[j], so.normals[j])
  {
    Merge(seq(|so.vertices|, j requires 0 <= j < |so.vertices| => VertexNormal(so.vertices[j], so.normals[j])),
          so.triangleIndices)
  }

  /** The merge under a key match that implies Equals; vertices no corner uses are dropped, the UVs are kept. */
  function MergeWith(so: SubObject, eq: (VertexNormal, VertexNormal) -> bool): (r: Outcome<SubObject>)
    requires ReflexiveSymmetric(eq)
    requires forall a, b :: eq(a, b) ==> Similar(a, b)
    ensures r.Ok? <==> CornerKeys(so).Ok?
    ensures r.Ok? ==>
      && |r.value.triangleIndices| == |so.triangleIndices|
      && |r.value.vertices| == |r.value.normals| <= |so.triangleIndices|
      && r.value == so.(vertices := r.value.vertices, normals := r.value.normals,
                        triangleIndices := r.value.triangleIndices)
      && forall i | 0 <= i < |so.triangleIndices| ::
           var k := r.value.triangleIndices[i];
           && 0 <= k < |r.value.vertices|
           && r.value.vertices[k] == so.vertices[so.triangleIndices[i]]
           && Similar(VertexNormal(r.value.vertices[k], r.value.normals[k]),
                      VertexNormal(so.vertices[so.triangleIndices[i]], so.normals[so.triangleIndices[i]]))
    ensures r.Ok? ==> MergeShape(CornerKeys(so).value, MergeView(r.value), eq)
    ensures r.Ok? ==> MergeCanonical(CornerKeys(so).value, MergeView(r.value))
  {
    var keys :- CornerKeys(so);
    var m := Dedup(keys, eq);
    DedupShape(keys, eq);
    DedupCanonical(keys, eq);
    var r := Merged(so, m);
    assert MergeView(r) == m;
    assert forall i | 0 <= i < |so.triangleIndices| ::
             var k := r.triangleIndices[i];
             && 0 <= k < |r.vertices|
             && r.vertices[k] == so.vertices[so.triangleIndices[i]]
             && Similar(VertexNormal(r.vertices[k], r.normals[k]), keys[i]) by {
      forall i | 0 <= i < |so.triangleIndices|
        ensures var k := r.triangleIndices[i];
                && 0 <= k < |r.vertices|
                && r.vertices[k] == so.vertices[so.triangleIndices[i]]
                && Similar(VertexNormal(r.vertices[k], r.normals[k]), keys[i])
      {
        var k := m.indices[i];
        assert 0 <= k < |m.reps| && eq(m.reps[k], keys[i]);
        assert Similar(m.reps[k], keys[i]);
        assert VertexNormal(r.vertices[k], r.normals[k]) == m.reps[k];
        assert keys[i].vertex == so.vertices[so.triangleIndices[i]];
      }
    }
    Ok(r)
  }

  /**
    MergeSimilarVertices as it was evidently meant to work: corners with the
    same position and a normal within the tolerance share one vertex. No corner
    moves. A valid mesh stays valid.
   */
  function MergeSimilarVertices(so: SubObject): (r: Outcome<SubObject>)
    ensures ValidMesh(so) ==> r.Ok? && ValidMesh(r.value)
    ensures r.Ok? <==> CornerKeys(so).Ok?
    ensures r.Ok? ==> r.value == so.(vertices := r.value.vertices, normals := r.value.normals,
                                     triangleIndices := r.value.triangleIndices)
    ensures r.Ok? ==> |r.value.triangleIndices| == |so.triangleIndices| && |r.value.normals| == |r.value.vertices|
    ensures r.Ok? ==> forall i | 0 <= i < |so.triangleIndices| ::
              var k := r.value.triangleIndices[i];
              && 0 <= k < |r.value.vertices|
              && r.value.vertices[k] == so.vertices[so.triangleIndices[i]]
              && Similar(VertexNormal(r.value.vertices[k], r.value.normals[k]),
                         VertexNormal(so.vertices[so.triangleIndices[i]], so.normals[so.triangleIndices[i]]))
    ensures r.Ok? ==> MergeShape(CornerKeys(so).value, MergeView(r.value), Similar)
    ensures r.Ok? ==> MergeCanonical(CornerKeys(so).value, MergeView(r.value))
  {
    SimilarIsReflexiveSymmetric(k => 0);
    MergeWith(so, Similar)
  }

  /**
    MergeSimilarVertices as written: vertexNormalCombination does not override
    GetHashCode, and the default value-type hash of this struct depends on its
    first field, the normal. `normalHash` stands for that hash.
   */
  function MergeSimilarVerticesAsWritten(so: SubObject, normalHash: Vec3 -> int): (r: Outcome<SubObject>)
    ensures r.Ok? <==> CornerKeys(so).Ok?
    ensures r.Ok? ==> |r.value.triangleIndices| == |so.triangleIndices| && |r.value.normals| == |r.value.vertices|
    ensures r.Ok? ==> MergeShape(CornerKeys(so).value, MergeView(r.value), HashedSimilar(normalHash))
    ensures r.Ok? ==> MergeCanonical(CornerKeys(so).value, MergeView(r.value))
    ensures r.Ok? ==> forall i, i' | 0 <= i < |so.triangleIndices| && 0 <= i' < |so.triangleIndices| &&
                                     r.value.triangleIndices[i] == r.value.triangleIndices[i'] ::
                        normalHash(so.normals[so.triangleIndices[i]]) == normalHash(so.normals[so.triangleIndices[i']])
  {
    SimilarIsReflexiveSymmetric(normalHash);
    var r :- MergeWith(so, HashedSimilar(normalHash));
    var keys := CornerKeys(so).value;
    var view := MergeView(r);
    assert forall i | 0 <= i < |keys| ::
             normalHash(view.reps[view.indices[i]].normal) == normalHash(so.normals[so.triangleIndices[i]]) by {
      forall i | 0 <= i < |keys|
        ensures normalHash(view.reps[view.indices[i]].normal) == normalHash(so.normals[so.triangleIndices[i]])
      {
        assert HashedSimilar(normalHash)(view.reps[view.indices[i]], keys[i]);
      }
    }
    Ok(r)
  }

  /** The corner keys of a merged SubObject are the keys the merge gives its corners. */
  lemma MergedCornerKeys(so: SubObject, m: Merge<VertexNormal>)
    requires forall i | 0 <= i < |m.indices| :: 0 <= m.indices[i] < |m.reps|
    ensures CornerKeys(Merged(so, m)) == Ok(Expand(m))
    ensures Merged(Merged(so, m), m) == Merged(so, m)
  {
    var merged := Merged(so, m);
    assert forall i | 0 <= i < |m.indices| ::
      VertexNormal(merged.vertices[merged.triangleIndices[i]], merged.normals[merged.triangleIndices[i]]) == m.reps[m.indices[i]];
    assert CornerKeys(merged).Ok?;
    assert CornerKeys(merged).value == Expand(m);
  }

  /** Merging a merged SubObject again changes nothing. */
  lemma MergeIdempotent(so: SubObject)
    requires MergeSimilarVertices(so).Ok?
    ensures MergeSimilarVertices(MergeSimilarVertices(so).value) == MergeSimilarVertices(so)
  {
    var keys := CornerKeys(so).value;
    SimilarIsReflexiveSymmetric(_ => 0);
    var m := Dedup(keys, Similar);
    assert MergeSimilarVertices(so) == Ok(Merged(so, m));
    DedupIdempotent(keys, Similar);
    MergedCornerKeys(so, m);
    assert MergeSimilarVertices(Merged(so, m)) == Ok(Merged(Merged(so, m), m));
  }

  const Origin := Vec3(0.0, 0.0, 0.0)
  const Up := Vec3(0.0, 0.0, 1.0)
  const UpIsh := Vec3(0.0, 0.0, 1.0005)
  const North := Vec3(0.0, 1.0, 0.0)

  /** The two outer corners of fan triangle k (1..4). */
  function RimLeft(k: real): VertexNormal {
    VertexNormal(Vec3(0.0, k, 0.0), Vec3(0.0, 1.0, 0.0))
  }

  function RimRight(k: real): VertexNormal {
    VertexNormal(Vec3(k, k, 0.0), Vec3(1.0, 0.0, 0.0))
  }

  /** Looking a key up after appending y: y is checked first, being the latest. */
  lemma LookupSnoc<K>(reps: seq<K>, y: K, x: K, eq: (K, K) -> bool)
    ensures Lookup(reps + [y], x, eq) == if eq(y, x) then |reps| else Lookup(reps, x, eq)
  {
    assert (reps + [y])[..|reps|] == reps;
  }

  /**
    Two triangles sharing their first corner: the repeated corner is merged
    into the first one, every other corner becomes a vertex of its own.
   */
  lemma MergeTwoTriangles<K>(c0: K, c1: K, c2: K, c4: K, c5: K, eq: (K, K) -> bool)
    requires eq(c0, c0) && !eq(c1, c0) && !eq(c2, c0)
    requires !eq(c0, c1) && !eq(c0, c2) && !eq(c1, c2)
    requires !eq(c0, c4) && !eq(c1, c4) && !eq(c2, c4)
    requires !eq(c0, c5) && !eq(c1, c5) && !eq(c2, c5) && !eq(c4, c5)
    ensures Dedup([c0, c1, c2, c0, c4, c5], eq) == Merge([c0, c1, c2, c4, c5], [0, 1, 2, 0, 3, 4])
  {
    var first := [c0, c1, c2];
    MergeDistinctTriangle(c0, c1, c2, eq);
    DedupFanSteps(first, c0, c4, c5, eq);
    assert first + [c0, c4, c5] == [c0, c1, c2, c0, c4, c5];
    assert first + [c4, c5] == [c0, c1, c2, c4, c5];
  }

  /** A triangle whose three corners match no other keeps all three as vertices. */
  lemma MergeDistinctTriangle<K>(c0: K, c1: K, c2: K, eq: (K, K) -> bool)
    requires !eq(c0, c1) && !eq(c0, c2) && !eq(c1, c2)
    ensures Dedup([c0, c1, c2], eq) == Merge([c0, c1, c2], [0, 1, 2])
  {
    MergeDistinctPair(c0, c1, eq);
    StepAddsVertex(Merge([c0, c1], [0, 1]), c2, eq);
    DedupSnoc([c0, c1], c2, eq);
    assert [c0, c1] + [c2] == [c0, c1, c2];
  }

  /** Two corners that do not match keep both as vertices. */
  lemma MergeDistinctPair<K>(c0: K, c1: K, eq: (K, K) -> bool)
    requires !eq(c0, c1)
    ensures Dedup([c0, c1], eq) == Merge([c0, c1], [0, 1])
  {
    MergeSingle(c0, eq);
    StepAddsVertex(Merge([c0], [0]), c1, eq);
    DedupSnoc([c0], c1, eq);
    assert [c0] + [c1] == [c0, c1];
  }

  /** A single corner becomes vertex 0. */
  lemma MergeSingle<K>(c0: K, eq: (K, K) -> bool)
    ensures Dedup([c0], eq) == Merge([c0], [0])
  {
    DedupSnoc([], c0, eq);
    assert [] + [c0] == [c0];
  }

  /**
    The origin corners of the unit test's third and later triangles carry a
    normal 0.0005 away from Up. Under Equals they match the first origin
    corner, so they are merged into it.
   */
  lemma TiltedOriginMerged()
    ensures Dedup([VertexNormal(Origin, Up), VertexNormal(Origin, UpIsh)], Similar)
         == Merge([VertexNormal(Origin, Up)], [0, 0])
  {
    var c0, c1 := VertexNormal(Origin, Up), VertexNormal(Origin, UpIsh);
    LookupSnoc([], c0, c1, Similar);
    DedupSnoc([], c0, Similar);
    DedupSnoc([] + [c0], c1, Similar);
    assert [] + [c0] + [c1] == [c0, c1];
  }

  /**
    With a hash taken from the exact normal, the lookup never compares the two
    origin corners, so the tilted one becomes a second vertex at the origin:
    the unit test's expectation of three merged corners cannot hold.
   */
  lemma TiltedOriginKeptWithNormalHash(normalHash: Vec3 -> int)
    requires normalHash(Up) != normalHash(UpIsh)
    ensures Dedup([VertexNormal(Origin, Up), VertexNormal(Origin, UpIsh)], HashedSimilar(normalHash))
         == Merge([VertexNormal(Origin, Up), VertexNormal(Origin, UpIsh)], [0, 1])
  {
    var c0, c1 := VertexNormal(Origin, Up), VertexNormal(Origin, UpIsh);
    var eq := HashedSimilar(normalHash);
    LookupSnoc([], c0, c1, eq);
    DedupSnoc([], c0, eq);
    DedupSnoc([] + [c0], c1, eq);
    assert [] + [c0] + [c1] == [c0, c1];
  }

  /**
    The normal of the origin corner of fan triangle n: the first two
    triangles carry Up, the later ones a normal 0.0005 away from it.
   */
  function FanHub(n: nat): Vec3 {
    if n <= 2 then Up else UpIsh
  }

  /** The corners of the first n fan triangles around the origin, triangle k reaching out to height k. */
  function Fan(n: nat): (ks: seq<VertexNormal>)
    ensures |ks| == 3 * n
  {
    if n == 0 then []
    else Fan(n - 1) + [VertexNormal(Origin, FanHub(n)), RimLeft(n as real), RimRight(n as real)]
  }

  /** The outer corners of the first n fan triangles, in order. */
  function Rims(n: nat): (rs: seq<VertexNormal>)
    ensures |rs| == 2 * n
  {
    if n == 0 then [] else Rims(n - 1) + [RimLeft(n as real), RimRight(n as real)]
  }

  /** Every triangle's first corner on the shared vertex 0, its outer corners on vertices 2k-1 and 2k. */
  function FanIndices(n: nat): (ix: seq<int>)
    ensures |ix| == 3 * n
  {
    if n == 0 then [] else FanIndices(n - 1) + [0, 2 * n - 1, 2 * n]
  }

  /** The outer corners of the first n triangles lie above the origin and no higher than n. */
  lemma {:induction false} RimsHeights(n: nat)
    ensures forall k | 0 <= k < |Rims(n)| :: 0.0 < Rims(n)[k].vertex.y <= n as real
  {
    if n > 0 {
      RimsHeights(n - 1);
      var rs := Rims(n);
      forall k | 0 <= k < |rs|
        ensures 0.0 < rs[k].vertex.y <= n as real
      {
        if k < |Rims(n - 1)| { assert rs[k] == Rims(n - 1)[k]; }
      }
    }
  }

  /**
    The kept keys as a further fan triangle finds them: its hub corner
    matches the first key and no other, and its two rim corners match no
    key and not each other.
   */
  predicate FanApart<K>(reps: seq<K>, hub: K, a: K, b: K, eq: (K, K) -> bool) {
    && |reps| > 0 && eq(reps[0], hub)
    && (forall k | 0 < k < |reps| :: !eq(reps[k], hub))
    && (forall k | 0 <= k < |reps| :: !eq(reps[k], a) && !eq(reps[k], b))
    && !eq(a, b)
  }

  /**
    A further fan triangle, one merge step per corner: its hub corner matches
    only the first kept key, and its two rim corners match nothing kept and
    not each other. The hub reuses vertex 0 and the rim corners become two
    new vertices.
   */
  lemma FanSteps<K>(m: Merge<K>, hub: K, a: K, b: K, eq: (K, K) -> bool)
    requires FanApart(m.reps, hub, a, b, eq)
    ensures MergeStep(MergeStep(MergeStep(m, hub, eq), a, eq), b, eq)
            == Merge(m.reps + [a, b], m.indices + [0, |m.reps|, |m.reps| + 1])
  {
    var n := |m.reps|;
    StepReusesVertex(m, hub, 0, eq);
    var m1 := Merge(m.reps, m.indices + [0]);
    StepAddsVertex(m1, a, eq);
    var m2 := Merge(m.reps + [a], m1.indices + [n]);
    assert forall k | 0 <= k < |m2.reps| :: !eq(m2.reps[k], b) by {
      forall k | 0 <= k < |m2.reps|
        ensures !eq(m2.reps[k], b)
      {
        if k == n { assert m2.reps[k] == a; } else { assert m2.reps[k] == m.reps[k]; }
      }
    }
    StepAddsVertex(m2, b, eq);
    assert m1.indices + [n] + [n + 1] == m.indices + [0, n, n + 1];
    assert m.reps + [a] + [b] == m.reps + [a, b];
  }

  /** The merge of three more corners is three merge steps. */
  lemma DedupSnoc3<K>(ks: seq<K>, x: K, y: K, z: K, eq: (K, K) -> bool)
    ensures Dedup(ks + [x, y, z], eq) == MergeStep(MergeStep(MergeStep(Dedup(ks, eq), x, eq), y, eq), z, eq)
  {
    DedupSnoc(ks, x, eq);
    DedupSnoc(ks + [x], y, eq);
    DedupSnoc(ks + [x] + [y], z, eq);
    assert ks + [x] + [y] + [z] == ks + [x, y, z];
  }

  /** The first fan triangle's three corners become three vertices when no two of them match. */
  lemma FanMergedOne(eq: (VertexNormal, VertexNormal) -> bool)
    requires FanFirstApart(eq)
    ensures Dedup(Fan(1), eq) == Merge([VertexNormal(Origin, Up)] + Rims(1), FanIndices(1))
  {
    var hub, a, b := VertexNormal(Origin, Up), RimLeft(1.0), RimRight(1.0);
    assert Fan(1) == [hub, a, b];
    MergeDistinctTriangle(hub, a, b, eq);
    assert [hub] + Rims(1) == [hub, a, b];
  }

  /** No two corners of the first fan triangle match. */
  predicate FanFirstApart(eq: (VertexNormal, VertexNormal) -> bool) {
    var hub, a, b := VertexNormal(Origin, Up), RimLeft(1.0), RimRight(1.0);
    !eq(hub, a) && !eq(hub, b) && !eq(a, b)
  }

  /** The keys kept after n - 1 fan triangles as triangle n's corners find them. */
  predicate FanTriangleApart(n: nat, eq: (VertexNormal, VertexNormal) -> bool)
    requires n >= 1
  {
    FanApart([VertexNormal(Origin, Up)] + Rims(n - 1), VertexNormal(Origin, FanHub(n)),
             RimLeft(n as real), RimRight(n as real), eq)
  }

  /** FanSteps as a merge of the corners so far and three more. */
  lemma DedupFanSteps<K>(ks: seq<K>, hub: K, a: K, b: K, eq: (K, K) -> bool)
    requires FanApart(Dedup(ks, eq).reps, hub, a, b, eq)
    ensures var m := Dedup(ks, eq);
            Dedup(ks + [hub, a, b], eq) == Merge(m.reps + [a, b], m.indices + [0, |m.reps|, |m.reps| + 1])
  {
    DedupSnoc3(ks, hub, a, b, eq);
    FanSteps(Dedup(ks, eq), hub, a, b, eq);
  }

  /**
    Merging the corners of n fan triangles under Equals keeps the origin
    once and every outer corner: each later origin corner, tilted or not,
    is merged into vertex 0.
   */
  lemma FanMerged(n: nat)
    requires n >= 1
    ensures Dedup(Fan(n), Similar) == Merge([VertexNormal(Origin, Up)] + Rims(n), FanIndices(n))
  {
    forall j | 2 <= j <= n
      ensures FanTriangleApart(j, Similar)
    {
      FanKeysApart(j);
    }
    FanMergedBy(n, Similar);
  }

  /**
    The same merge for any key match under which the first triangle's
    corners are apart and every later triangle finds the kept keys as
    FanApart describes.
   */
  lemma {:induction false} FanMergedBy(n: nat, eq: (VertexNormal, VertexNormal) -> bool)
    requires n >= 1
    requires FanFirstApart(eq)
    requires forall j | 2 <= j <= n :: FanTriangleApart(j, eq)
    ensures Dedup(Fan(n), eq) == Merge([VertexNormal(Origin, Up)] + Rims(n), FanIndices(n))
  {
    if n == 1 {
      FanMergedOne(eq);
    } else {
      FanMergedBy(n - 1, eq);
      FanMergedStep(n, eq);
    }
  }

  /**
    The keys kept after n - 1 fan triangles, told apart from triangle n's
    corners by height: only vertex 0 sits at the origin, and every key lies
    below triangle n's outer corners, which differ from each other in x.
   */
  lemma FanKeysApart(n: nat)
    requires n >= 2
    ensures FanTriangleApart(n, Similar)
  {
    var reps := [VertexNormal(Origin, Up)] + Rims(n - 1);
    RimsHeights(n - 1);
    forall k | 0 <= k < |reps|
      ensures reps[k].vertex.y < n as real
      ensures 0 < k ==> 0.0 < reps[k].vertex.y
    {
      if 0 < k { assert reps[k] == Rims(n - 1)[k - 1]; }
    }
  }

  /** Triangle n extends the corners, the outer corners and the indices of the first n - 1 triangles. */
  lemma FanGrows(n: nat)
    requires n >= 2
    ensures Fan(n) == Fan(n - 1) + [VertexNormal(Origin, FanHub(n)), RimLeft(n as real), RimRight(n as real)]
    ensures [VertexNormal(Origin, Up)] + Rims(n) == [VertexNormal(Origin, Up)] + Rims(n - 1) + [RimLeft(n as real), RimRight(n as real)]
    ensures var len := |[VertexNormal(Origin, Up)] + Rims(n - 1)|;
            FanIndices(n) == FanIndices(n - 1) + [0, len, len + 1]
  {
  }

  /** One more fan triangle: its origin corner is merged into vertex 0 and its outer corners are added. */
  lemma FanMergedStep(n: nat, eq: (VertexNormal, VertexNormal) -> bool)
    requires n >= 2 && FanTriangleApart(n, eq)
    requires Dedup(Fan(n - 1), eq) == Merge([VertexNormal(Origin, Up)] + Rims(n - 1), FanIndices(n - 1))
    ensures Dedup(Fan(n), eq) == Merge([VertexNormal(Origin, Up)] + Rims(n), FanIndices(n))
  {
    FanGrows(n);
    DedupGrows(Fan(n - 1), Fan(n), VertexNormal(Origin, FanHub(n)), RimLeft(n as real), RimRight(n as real), eq,
               [VertexNormal(Origin, Up)] + Rims(n - 1), FanIndices(n - 1),
               [VertexNormal(Origin, Up)] + Rims(n), FanIndices(n));
  }

  /** DedupFanSteps with the merge so far and the grown merge given by name. */
  lemma DedupGrows<K>(ks: seq<K>, ks': seq<K>, hub: K, a: K, b: K, eq: (K, K) -> bool,
                      reps: seq<K>, ix: seq<int>, reps': seq<K>, ix': seq<int>)
    requires ks' == ks + [hub, a, b] && Dedup(ks, eq) == Merge(reps, ix) && FanApart(reps, hub, a, b, eq)
    requires reps' == reps + [a, b] && ix' == ix + [0, |reps|, |reps| + 1]
    ensures Dedup(ks', eq) == Merge(reps', ix')
  {
    DedupFanSteps(ks, hub, a, b, eq);
  }

  /** The corners of the duplicate-vertex unit test: four fan triangles around the origin. */
  function FanCorners(): seq<VertexNormal> {
    [ VertexNormal(Origin, Up), RimLeft(1.0), RimRight(1.0),
      VertexNormal(Origin, Up), RimLeft(2.0), RimRight(2.0),
      VertexNormal(Origin, UpIsh), RimLeft(3.0), RimRight(3.0),
      VertexNormal(Origin, UpIsh), RimLeft(4.0), RimRight(4.0) ]
  }

  /** The unit test's SubObject: one vertex per corner and the indices 0 to 11 in order. */
  function FanSubObject(): SubObject {
    var ks := FanCorners();
    EmptySubObject().(vertices := seq(|ks|, i requires 0 <= i < |ks| => ks[i].vertex),
                      normals := seq(|ks|, i requires 0 <= i < |ks| => ks[i].normal),
                      triangleIndices := seq(|ks|, i => i))
  }

  /** The keys kept when the unit test's corners are merged: the origin and the eight rim corners. */
  function FanReps(): seq<VertexNormal> {
    [VertexNormal(Origin, Up), RimLeft(1.0), RimRight(1.0), RimLeft(2.0), RimRight(2.0),
     RimLeft(3.0), RimRight(3.0), RimLeft(4.0), RimRight(4.0)]
  }

  /** All four fan triangles: twelve corners, nine kept keys. */
  lemma FanCornersMerged()
    ensures Dedup(FanCorners(), Similar) == Merge(FanReps(), [0, 1, 2, 0, 3, 4, 0, 5, 6, 0, 7, 8])
  {
    FanMerged(4);
    FourFanTriangles();
  }

  /** The unit test's corners, kept keys and indices are those of four fan triangles. */
  lemma FourFanTriangles()
    ensures Fan(4) == FanCorners()
    ensures [VertexNormal(Origin, Up)] + Rims(4) == FanReps()
    ensures FanIndices(4) == [0, 1, 2, 0, 3, 4, 0, 5, 6, 0, 7, 8]
  {
    FourFanCorners();
    FourFanRims();
  }

  lemma FourFanCorners()
    ensures Fan(4) == FanCorners()
  {
    var o, t := VertexNormal(Origin, Up), VertexNormal(Origin, UpIsh);
    assert Fan(1) == [o, RimLeft(1.0), RimRight(1.0)];
    assert Fan(2) == Fan(1) + [o, RimLeft(2.0), RimRight(2.0)];
    assert Fan(3) == Fan(2) + [t, RimLeft(3.0), RimRight(3.0)];
    assert Fan(4) == Fan(3) + [t, RimLeft(4.0), RimRight(4.0)];
  }

  lemma FourFanRims()
    ensures [VertexNormal(Origin, Up)] + Rims(4) == FanReps()
  {
    assert Rims(1) == [RimLeft(1.0), RimRight(1.0)];
    assert Rims(2) == Rims(1) + [RimLeft(2.0), RimRight(2.0)];
    assert Rims(3) == Rims(2) + [RimLeft(3.0), RimRight(3.0)];
    assert Rims(4) == Rims(3) + [RimLeft(4.0), RimRight(4.0)];
  }

  /**
    The duplicate-vertex unit test: of twelve corners, the three extra origin
    corners (two with a normal 0.0005 off) are merged away, leaving nine
    vertices, and every triangle's first corner becomes vertex 0.
   */
  lemma FanMergesThree()
    ensures var r := MergeSimilarVertices(FanSubObject());
            && r.Ok?
            && |FanSubObject().vertices| == |r.value.vertices| + 3
            && r.value.triangleIndices == [0, 1, 2, 0, 3, 4, 0, 5, 6, 0, 7, 8]
  {
    var so := FanSubObject();
    assert CornerKeys(so).value == FanCorners();
    FanCornersMerged();
    SimilarIsReflexiveSymmetric(_ => 0);
    assert MergeSimilarVertices(so) == Ok(Merged(so, Merge(FanReps(), [0, 1, 2, 0, 3, 4, 0, 5, 6, 0, 7, 8])));
  }

  // ----------------------------------------------------------------- spikes

  /** A height strictly between the floor and the ceiling. */
  predicate InRange(z: real, ceiling: real, floor: real) {
    z < ceiling && z > floor
  }

  /** A height above the ceiling or below the floor; a height equal to either bound is neither. */
  predicate IsSpike(z: real, ceiling: real, floor: real) {
    z > ceiling || z < floor
  }

  /** The heights strictly inside the band, in vertex order. */
  function InRangeHeights(vs: seq<Vec3>, ceiling: real, floor: real): (hs: seq<real>)
    ensures |hs| <= |vs|
    ensures forall i | 0 <= i < |hs| :: InRange(hs[i], ceiling, floor)
    ensures |hs| == |vs| <==> forall i | 0 <= i < |vs| :: InRange(vs[i].z, ceiling, floor)
    decreases |vs|
  {
    if |vs| == 0 then []
    else
      var init := InRangeHeights(vs[..|vs| - 1], ceiling, floor);
      assert forall i | 0 <= i < |vs| - 1 :: vs[..|vs| - 1][i] == vs[i];
      if InRange(Last(vs).z, ceiling, floor) then init + [Last(vs).z] else init
  }

  /** The height a spike is moved to: the mean in-band height, or the middle of the band when there is none. */
  function SpikeHeight(vs: seq<Vec3>, ceiling: real, floor: real): real {
    var hs := InRangeHeights(vs, ceiling, floor);
    if |hs| > 0 then Sum(hs) / |hs| as real else (ceiling + floor) / 2.0
  }

  /**
    ClipSpikes: every vertex above the ceiling or below the floor takes the
    spike height; every other vertex, and every x and y, is left alone.
   */
  function ClipSpikes(vs: seq<Vec3>, ceiling: real, floor: real): (r: seq<Vec3>)
    ensures |r| == |vs|
    ensures forall i | 0 <= i < |vs| :: r[i].x == vs[i].x && r[i].y == vs[i].y
    ensures forall i | 0 <= i < |vs| :: !IsSpike(vs[i].z, ceiling, floor) ==> r[i] == vs[i]
    ensures forall i | 0 <= i < |vs| :: IsSpike(vs[i].z, ceiling, floor) ==> r[i].z == SpikeHeight(vs, ceiling, floor)
  {
    if |InRangeHeights(vs, ceiling, floor)| == |vs| then vs
    else
      var h := SpikeHeight(vs, ceiling, floor);
      seq(|vs|, i requires 0 <= i < |vs| => if IsSpike(vs[i].z, ceiling, floor) then vs[i].(z := h) else vs[i])
  }

  /** After clipping, with floor <= ceiling, every height lies in [floor, ceiling]. */
  lemma ClipSpikesBounded(vs: seq<Vec3>, ceiling: real, floor: real)
    requires floor <= ceiling
    ensures forall i | 0 <= i < |vs| :: floor <= ClipSpikes(vs, ceiling, floor)[i].z <= ceiling
  {
    var hs := InRangeHeights(vs, ceiling, floor);
    if |hs| > 0 {
      MeanBounds(hs, floor, ceiling);
    }
  }

  /** Clipping twice gives the same vertices as clipping once. */
  lemma ClipSpikesIdempotent(vs: seq<Vec3>, ceiling: real, floor: real)
    requires floor <= ceiling
    ensures ClipSpikes(ClipSpikes(vs, ceiling, floor), ceiling, floor) == ClipSpikes(vs, ceiling, floor)
  {
    var once := ClipSpikes(vs, ceiling, floor);
    ClipSpikesBounded(vs, ceiling, floor);
    var twice := ClipSpikes(once, ceiling, floor);
    assert forall i | 0 <= i < |once| :: twice[i] == once[i];
  }

  /** Appending a vertex appends its height exactly when it lies inside the band. */
  lemma InRangeHeightsSnoc(vs: seq<Vec3>, v: Vec3, ceiling: real, floor: real)
    ensures InRangeHeights(vs + [v], ceiling, floor)
         == InRangeHeights(vs, ceiling, floor) + (if InRange(v.z, ceiling, floor) then [v.z] else [])
  {
    assert (vs + [v])[..|vs|] == vs;
  }

  /** The in-band heights of vertices at 5, 30, -15 and 10 with the band (-10, 25) are 5 and 10. */
  lemma InRangeHeightsOfExample(a: Vec3, b: Vec3, c: Vec3, d: Vec3)
    requires a.z == 5.0 && b.z == 30.0 && c.z == -15.0 && d.z == 10.0
    ensures InRangeHeights([a, b, c, d], 25.0, -10.0) == [5.0, 10.0]
  {
    InRangeHeightsSnoc([], a, 25.0, -10.0);
    InRangeHeightsSnoc([a], b, 25.0, -10.0);
    InRangeHeightsSnoc([a, b], c, 25.0, -10.0);
    InRangeHeightsSnoc([a, b, c], d, 25.0, -10.0);
    assert [] + [a] == [a] && [a] + [b] == [a, b] && [a, b] + [c] == [a, b, c] && [a, b, c] + [d] == [a, b, c, d];
  }

  /**
    Four vertices at heights 5, 30, -15 and 10 with the band (-10, 25): both
    spikes move to 7.5, the mean of 5 and 10; nothing else changes.
   */
  lemma ClipSpikesExample(a: Vec3, b: Vec3, c: Vec3, d: Vec3)
    requires a.z == 5.0 && b.z == 30.0 && c.z == -15.0 && d.z == 10.0
    ensures ClipSpikes([a, b, c, d], 25.0, -10.0) == [a, b.(z := 7.5), c.(z := 7.5), d]
  {
    var vs := [a, b, c, d];
    InRangeHeightsOfExample(a, b, c, d);
    var hs := InRangeHeights(vs, 25.0, -10.0);
    assert hs[..1] == [5.0] && [5.0][..0] == [];
    assert Sum([5.0]) == 5.0;
    assert Sum(hs) == 15.0;
    assert SpikeHeight(vs, 25.0, -10.0) == 15.0 / 2.0;
    var r := ClipSpikes(vs, 25.0, -10.0);
    assert r[0] == a && r[1] == b.(z := 7.5) && r[2] == c.(z := 7.5) && r[3] == d;
  }

  // ----------------------------------------------------------------- normals

  /** The flat normal of a triangle: the unit vector along (b - a) x (c - a). */
  function FaceNormal(a: Vec3, b: Vec3, c: Vec3, unitNormal: Vec3 -> Vec3): Vec3 {
    unitNormal(Cross(Sub(b, a), Sub(c, a)))
  }

  /** Triangle t's three corners are valid indices into both lists. */
  predicate TriangleInRange(tri: seq<int>, t: nat, nv: nat, nn: nat)
    requires 3 * t + 2 < |tri|
  {
    forall c | 3 * t <= c <= 3 * t + 2 :: 0 <= tri[c] < nv && tri[c] < nn
  }

  /** The normals after the loop of calculateNormals has handled triangles 0 .. t-1. */
  function NormalsAfter(vertices: seq<Vec3>, normals: seq<Vec3>, tri: seq<int>, t: nat, unitNormal: Vec3 -> Vec3)
    : (r: Outcome<seq<Vec3>>)
    requires 3 * t <= |tri|
    ensures r.Ok? <==> forall u | 0 <= u < t :: TriangleInRange(tri, u, |vertices|, |normals|)
    ensures r.Ok? ==> |r.value| == |normals|
    decreases t
  {
    if t == 0 then Ok(normals)
    else
      var prev :- NormalsAfter(vertices, normals, tri, t - 1, unitNormal);
      var c := 3 * (t - 1);
      if TriangleInRange(tri, t - 1, |vertices|, |normals|) then
        var n := FaceNormal(vertices[tri[c]], vertices[tri[c + 1]], vertices[tri[c + 2]], unitNormal);
        Ok(prev[tri[c] := n][tri[c + 1] := n][tri[c + 2] := n])
      else Throws(IndexOutOfRange)
  }

  /** Triangle u has vertex v as one of its three corners. */
  predicate UsesVertex(tri: seq<int>, u: nat, v: int)
    requires 3 * u + 3 <= |tri|
  {
    tri[3 * u] == v || tri[3 * u + 1] == v || tri[3 * u + 2] == v
  }

  /** The last of triangles 0 .. t-1 that uses vertex v, -1 if none does. */
  function LastTriangleUsing(tri: seq<int>, t: nat, v: int): (u: int)
    requires 3 * t <= |tri|
    ensures -1 <= u < t
    ensures u >= 0 ==> UsesVertex(tri, u, v)
    ensures forall w | u < w < t :: !UsesVertex(tri, w, v)
    decreases t
  {
    if t == 0 then -1
    else if UsesVertex(tri, t - 1, v) then t - 1
    else LastTriangleUsing(tri, t - 1, v)
  }

  /**
    After the loop, each vertex carries the normal of the last triangle that
    uses it; a vertex no triangle uses keeps its old normal.
   */
  lemma {:induction false} NormalOfLastTriangle(vertices: seq<Vec3>, normals: seq<Vec3>, tri: seq<int>, t: nat,
                                                unitNormal: Vec3 -> Vec3, v: nat)
    requires 3 * t <= |tri|
    requires NormalsAfter(vertices, normals, tri, t, unitNormal).Ok?
    requires v < |normals|
    ensures var u := LastTriangleUsing(tri, t, v);
            var r := NormalsAfter(vertices, normals, tri, t, unitNormal).value;
            if u < 0 then r[v] == normals[v]
            else TriangleInRange(tri, u, |vertices|, |normals|) &&
                 r[v] == FaceNormal(vertices[tri[3 * u]], vertices[tri[3 * u + 1]], vertices[tri[3 * u + 2]], unitNormal)
    decreases t
  {
    if t > 0 && !UsesVertex(tri, t - 1, v) {
      NormalOfLastTriangle(vertices, normals, tri, t - 1, unitNormal, v);
    }
  }

  /**
    calculateNormals: an index list whose length is not a multiple of three
    runs off its end; otherwise every triangle writes its flat normal to its
    three vertices, in order.
   */
  function CalculateNormals(so: SubObject, unitNormal: Vec3 -> Vec3): (r: Outcome<SubObject>)
    ensures |so.triangleIndices| % 3 != 0 ==> r == Throws(IndexOutOfRange)
    ensures ValidMesh(so) ==> r.Ok? && ValidMesh(r.value)
    ensures r.Ok? ==> r.value == so.(normals := r.value.normals) && |r.value.normals| == |so.normals|
  {
    if |so.triangleIndices| % 3 != 0 then Throws(IndexOutOfRange)
    else
      var ns :- NormalsAfter(so.vertices, so.normals, so.triangleIndices, |so.triangleIndices| / 3, unitNormal);
      Ok(so.(normals := ns))
  }

  // --------------------------------------------------- meshes from the library

  datatype Triangle = Triangle(a: nat, b: nat, c: nat)

  /**
    A mesh as the mesh library holds it: vertex ids below `maxVertexId`, of
    which `liveIds` (ascending) are in use, a position and a normal per id, and
    triangles over live ids.
   */
  datatype Mesh = Mesh(maxVertexId: nat, liveIds: seq<nat>, positions: seq<Vec3>, vertexNormals: seq<Vec3>,
                       triangles: seq<Triangle>)

  predicate WellFormed(m: Mesh) {
    && |m.positions| == m.maxVertexId
    && |m.vertexNormals| == m.maxVertexId
    && (forall i | 0 <= i < |m.liveIds| :: m.liveIds[i] < m.maxVertexId)
    && (forall i, j | 0 <= i < j < |m.liveIds| :: m.liveIds[i] < m.liveIds[j])
    && forall k | 0 <= k < |m.triangles| ::
         m.triangles[k].a in m.liveIds && m.triangles[k].b in m.liveIds && m.triangles[k].c in m.liveIds
  }

  type LiveMesh = m: Mesh | WellFormed(m) witness Mesh(0, [], [], [], [])

  /** The mesh library operations the SubObject uses; their geometry is not modelled. */
  datatype MeshLibrary = MeshLibrary(
    build: (seq<Vec3>, seq<int>) -> LiveMesh,   // createMesh: the vertices and triangles, normals computed
    mergeEdges: LiveMesh -> LiveMesh,           // normals recomputed, then MergeCoincidentEdges
    area: LiveMesh -> real,                     // total triangle area
    boundaryEdges: LiveMesh -> nat,             // number of boundary edges
    reduce: (LiveMesh, int) -> LiveMesh,        // Reducer.ReduceToVertexCount with boundaries fixed
    bounds: LiveMesh -> Box,                    // axis-aligned bounding box
    planeCut: (LiveMesh, Vec3, Vec3) -> LiveMesh) // MeshPlaneCut: drops the side the normal points to

  datatype Box = Box(min: Vec3, max: Vec3)

  /** The position of a live id in the ascending id list: the compact index `mapV` gives it. */
  function CompactIndex(ids: seq<nat>, id: nat): (k: nat)
    requires id in ids
    ensures k < |ids| && ids[k] == id
    decreases |ids|
  {
    if ids[0] == id then 0 else 1 + CompactIndex(ids[1..], id)
  }

  /** Each triangle's three corners, renumbered to positions in the live id list. */
  function RenumberTriangles(ids: seq<nat>, tris: seq<Triangle>): (r: seq<int>)
    requires forall k | 0 <= k < |tris| :: tris[k].a in ids && tris[k].b in ids && tris[k].c in ids
    ensures |r| == 3 * |tris|
    ensures forall i | 0 <= i < |r| :: 0 <= r[i] < |ids|
    ensures forall k | 0 <= k < |tris| ::
      ids[r[3 * k]] == tris[k].a && ids[r[3 * k + 1]] == tris[k].b && ids[r[3 * k + 2]] == tris[k].c
    decreases |tris|
  {
    if |tris| == 0 then []
    else
      var t := Last(tris);
      RenumberTriangles(ids, tris[..|tris| - 1]) + [CompactIndex(ids, t.a), CompactIndex(ids, t.b), CompactIndex(ids, t.c)]
  }

  /** Renumbering one more triangle appends its three compact indices. */
  lemma RenumberPrefix(ids: seq<nat>, tris: seq<Triangle>, k: nat)
    requires k < |tris|
    requires forall j | 0 <= j < |tris| :: tris[j].a in ids && tris[j].b in ids && tris[j].c in ids
    ensures RenumberTriangles(ids, tris[..k + 1])
         == RenumberTriangles(ids, tris[..k]) + [CompactIndex(ids, tris[k].a), CompactIndex(ids, tris[k].b), CompactIndex(ids, tris[k].c)]
  {
    assert tris[..k + 1][..k] == tris[..k];
  }

  datatype Compacted = Compacted(vertices: seq<Vec3>, normals: seq<Vec3>, triangleIndices: seq<int>)

  /**
    The lists saveMesh writes: the live vertices in id order and each triangle's
    corners renumbered to them. Every corner keeps its position.
   */
  function Compact(m: LiveMesh): (c: Compacted)
    ensures |c.vertices| == |c.normals| == |m.liveIds|
    ensures |c.triangleIndices| == 3 * |m.triangles|
    ensures forall i | 0 <= i < |c.triangleIndices| :: 0 <= c.triangleIndices[i] < |c.vertices|
    ensures forall k | 0 <= k < |m.triangles| ::
      && c.vertices[c.triangleIndices[3 * k]] == m.positions[m.triangles[k].a]
      && c.vertices[c.triangleIndices[3 * k + 1]] == m.positions[m.triangles[k].b]
      && c.vertices[c.triangleIndices[3 * k + 2]] == m.positions[m.triangles[k].c]
    ensures forall k | 0 <= k < |m.liveIds| ::
      c.vertices[k] == m.positions[m.liveIds[k]] && c.normals[k] == m.vertexNormals[m.liveIds[k]]
  {
    var ids := m.liveIds;
    Compacted(seq(|ids|, k requires 0 <= k < |ids| => m.positions[ids[k]]),
              seq(|ids|, k requires 0 <= k < |ids| => m.vertexNormals[ids[k]]),
              RenumberTriangles(ids, m.triangles))
  }

  /** A map that sends every live id to its position finds the compact index of each live id. */
  lemma MapFindsCompactIndex(ids: seq<nat>, mapV: seq<int>, id: nat)
    requires id in ids
    requires forall j | 0 <= j < |ids| :: ids[j] < |mapV| && mapV[ids[j]] == j
    ensures id < |mapV| && mapV[id] == CompactIndex(ids, id)
  {
  }

  /** The renumbering loops of saveMesh: fill `mapV` over the live ids, then map each triangle's corners. */
  method CompactIndices(m: LiveMesh) returns (tri: seq<int>)
    ensures tri == Compact(m).triangleIndices
  {
    var mapV := PositionMap(m.liveIds, m.maxVertexId);
    tri := RenumberWith(m.liveIds, mapV, m.triangles);
  }

  /** The first loop of the renumbering: `mapV` sends each live id to its position in the ascending id list. */
  method PositionMap(ids: seq<nat>, size: nat) returns (mapV: seq<int>)
    requires forall i | 0 <= i < |ids| :: ids[i] < size
    requires forall i, j | 0 <= i < j < |ids| :: ids[i] < ids[j]
    ensures |mapV| == size
    ensures forall j | 0 <= j < |ids| :: mapV[ids[j]] == j
  {
    mapV := seq(size, _ => 0);
    for k := 0 to |ids|
      invariant |mapV| == size
      invariant forall j | 0 <= j < k :: mapV[ids[j]] == j
    {
      mapV := mapV[ids[k] := k];
    }
  }

  /** The second loop of the renumbering: each triangle's corners looked up in `mapV`. */
  method RenumberWith(ids: seq<nat>, mapV: seq<int>, tris: seq<Triangle>) returns (tri: seq<int>)
    requires forall j | 0 <= j < |ids| :: ids[j] < |mapV| && mapV[ids[j]] == j
    requires forall k | 0 <= k < |tris| :: tris[k].a in ids && tris[k].b in ids && tris[k].c in ids
    ensures tri == RenumberTriangles(ids, tris)
  {
    tri := [];
    for k := 0 to |tris|
      invariant tri == RenumberTriangles(ids, tris[..k])
    {
      var t := tris[k];
      RenumberPrefix(ids, tris, k);
      MapFindsCompactIndex(ids, mapV, t.a);
      MapFindsCompactIndex(ids, mapV, t.b);
      MapFindsCompactIndex(ids, mapV, t.c);
      tri := tri + [mapV[t.a], mapV[t.b], mapV[t.c]];
    }
    assert tris[..|tris|] == tris;
  }

  /**
    saveMesh as written: the vertex and index lists are replaced, but the
    normals list is never cleared, so the mesh's normals are appended after
    the SubObject's old ones, and the merge that follows reads the old ones.
   */
  function SaveMeshAsWritten(so: SubObject, m: LiveMesh): SubObject {
    MergeSimilarVertices(WrittenBack(so, m, so.normals)).value
  }

  /** The SubObject after the compacted mesh is copied in, its normals placed after `kept`. */
  function WrittenBack(so: SubObject, m: LiveMesh, kept: seq<Vec3>): SubObject {
    var c := Compact(m);
    so.(vertices := c.vertices, normals := kept + c.normals, triangleIndices := c.triangleIndices)
  }

  /** With nothing kept, the written-back SubObject is the compacted mesh, and it is a valid mesh. */
  lemma WrittenBackFresh(so: SubObject, m: LiveMesh)
    ensures var w := WrittenBack(so, m, []);
            var c := Compact(m);
            && w.vertices == c.vertices && w.normals == c.normals && w.triangleIndices == c.triangleIndices
            && ValidMesh(w)
  {
    var c := Compact(m);
    assert [] + c.normals == c.normals;
    MultipleOfThree(|m.triangles|);
  }

  /**
    saveMesh with the normals list replaced as well: the live mesh is written
    back and merged, giving a valid mesh whose corners sit where the mesh's
    triangles put them. UVs, id, submesh index and centroid are kept.
   */
  function SaveMesh(so: SubObject, m: LiveMesh): (r: SubObject)
    ensures ValidMesh(r)
    ensures |r.triangleIndices| == 3 * |m.triangles|
    ensures r == so.(vertices := r.vertices, normals := r.normals, triangleIndices := r.triangleIndices)
  {
    var c := Compact(m);
    var w := WrittenBack(so, m, []);
    WrittenBackFresh(so, m);
    MergeSimilarVertices(w).value
  }

  /**
    Every corner of the saved SubObject sits where the mesh's triangle puts it
    and carries, within the tolerance, the mesh's normal for that vertex.
   */
  lemma SaveMeshKeepsCorners(so: SubObject, m: LiveMesh)
    ensures var r := SaveMesh(so, m);
            forall k | 0 <= k < |m.triangles| ::
              && r.vertices[r.triangleIndices[3 * k]] == m.positions[m.triangles[k].a]
              && r.vertices[r.triangleIndices[3 * k + 1]] == m.positions[m.triangles[k].b]
              && r.vertices[r.triangleIndices[3 * k + 2]] == m.positions[m.triangles[k].c]
  {
    forall k | 0 <= k < |m.triangles|
      ensures var r := SaveMesh(so, m);
              && r.vertices[r.triangleIndices[3 * k]] == m.positions[m.triangles[k].a]
              && r.vertices[r.triangleIndices[3 * k + 1]] == m.positions[m.triangles[k].b]
              && r.vertices[r.triangleIndices[3 * k + 2]] == m.positions[m.triangles[k].c]
    {
      SaveMeshTriangle(so, m, k);
    }
  }

  /** The three corners of triangle k of the saved SubObject. */
  lemma SaveMeshTriangle(so: SubObject, m: LiveMesh, k: nat)
    requires k < |m.triangles|
    ensures var r := SaveMesh(so, m);
            && 3 * k + 2 < |r.triangleIndices|
            && 0 <= r.triangleIndices[3 * k] < |r.vertices|
            && 0 <= r.triangleIndices[3 * k + 1] < |r.vertices|
            && 0 <= r.triangleIndices[3 * k + 2] < |r.vertices|
            && r.vertices[r.triangleIndices[3 * k]] == m.positions[m.triangles[k].a]
            && r.vertices[r.triangleIndices[3 * k + 1]] == m.positions[m.triangles[k].b]
            && r.vertices[r.triangleIndices[3 * k + 2]] == m.positions[m.triangles[k].c]
  {
    var c := Compact(m);
    SaveMeshCorner(so, m, 3 * k);
    SaveMeshCorner(so, m, 3 * k + 1);
    SaveMeshCorner(so, m, 3 * k + 2);
    assert c.vertices[c.triangleIndices[3 * k]] == m.positions[m.triangles[k].a];
    assert c.vertices[c.triangleIndices[3 * k + 1]] == m.positions[m.triangles[k].b];
    assert c.vertices[c.triangleIndices[3 * k + 2]] == m.positions[m.triangles[k].c];
  }

  /** Corner i of the saved SubObject is at the position corner i of the compacted mesh has. */
  lemma SaveMeshCorner(so: SubObject, m: LiveMesh, i: nat)
    requires i < 3 * |m.triangles|
    ensures var r := SaveMesh(so, m);
            var c := Compact(m);
            && i < |r.triangleIndices| && 0 <= r.triangleIndices[i] < |r.vertices|
            && r.vertices[r.triangleIndices[i]] == c.vertices[c.triangleIndices[i]]
  {
    var w := WrittenBack(so, m, []);
    WrittenBackFresh(so, m);
    assert SaveMesh(so, m) == MergeSimilarVertices(w).value;
  }

  /** A SubObject that has no normals yet (a fresh one made by clipping) is unaffected by the stale list. */
  lemma SaveMeshFreshAgrees(so: SubObject, m: LiveMesh)
    requires so.normals == []
    ensures SaveMeshAsWritten(so, m) == SaveMesh(so, m)
  {
    assert WrittenBack(so, m, so.normals) == WrittenBack(so, m, []);
  }

  /** The normal a saved SubObject shows at corner i: the normal of the vertex that corner uses. */
  function CornerNormal(so: SubObject, i: nat): Vec3
    requires i < |so.triangleIndices| && 0 <= so.triangleIndices[i] < |so.normals|
  {
    so.normals[so.triangleIndices[i]]
  }

  /**
    As written, when the SubObject already held at least as many normals as
    the mesh has vertices, every corner ends up with (a normal within the
    tolerance of) the stale normal of its vertex index, not the mesh's normal.
   */
  lemma SaveMeshAsWrittenUsesStaleNormals(so: SubObject, m: LiveMesh)
    requires |m.liveIds| <= |so.normals|
    ensures var r := SaveMeshAsWritten(so, m);
            var c := Compact(m);
            && |r.triangleIndices| == |c.triangleIndices|
            && forall i | 0 <= i < |c.triangleIndices| ::
                 && 0 <= r.triangleIndices[i] < |r.normals|
                 && Similar(VertexNormal(c.vertices[c.triangleIndices[i]], CornerNormal(r, i)),
                            VertexNormal(c.vertices[c.triangleIndices[i]], so.normals[c.triangleIndices[i]]))
  {
    var c := Compact(m);
    var w := WrittenBack(so, m, so.normals);
    assert CornerKeys(w).Ok?;
    var r := MergeSimilarVertices(w).value;
    assert r == SaveMeshAsWritten(so, m);
    forall i | 0 <= i < |c.triangleIndices|
      ensures && 0 <= r.triangleIndices[i] < |r.normals|
              && Similar(VertexNormal(c.vertices[c.triangleIndices[i]], CornerNormal(r, i)),
                         VertexNormal(c.vertices[c.triangleIndices[i]], so.normals[c.triangleIndices[i]]))
    {
      var k := r.triangleIndices[i];
      assert w.normals[w.triangleIndices[i]] == so.normals[c.triangleIndices[i]];
      assert Similar(VertexNormal(r.vertices[k], r.normals[k]), VertexNormal(w.vertices[w.triangleIndices[i]], w.normals[w.triangleIndices[i]]));
    }
  }

  /** Corrected, every corner carries (within the tolerance) the mesh's own normal for its vertex. */
  lemma SaveMeshUsesMeshNormals(so: SubObject, m: LiveMesh)
    ensures var r := SaveMesh(so, m);
            var c := Compact(m);
            && |r.triangleIndices| == |c.triangleIndices|
            && forall i | 0 <= i < |c.triangleIndices| ::
                 && 0 <= r.triangleIndices[i] < |r.normals|
                 && Similar(VertexNormal(c.vertices[c.triangleIndices[i]], CornerNormal(r, i)),
                            VertexNormal(c.vertices[c.triangleIndices[i]], c.normals[c.triangleIndices[i]]))
  {
    var c := Compact(m);
    var w := WrittenBack(so, m, []);
    WrittenBackFresh(so, m);
    var r := MergeSimilarVertices(w).value;
    assert r == SaveMesh(so, m);
    forall i | 0 <= i < |c.triangleIndices|
      ensures && 0 <= r.triangleIndices[i] < |r.normals|
              && Similar(VertexNormal(c.vertices[c.triangleIndices[i]], CornerNormal(r, i)),
                         VertexNormal(c.vertices[c.triangleIndices[i]], c.normals[c.triangleIndices[i]]))
    {
      var k := r.triangleIndices[i];
      assert Similar(VertexNormal(r.vertices[k], r.normals[k]),
                     VertexNormal(w.vertices[w.triangleIndices[i]], w.normals[w.triangleIndices[i]]));
    }
  }

  /**
    A one-vertex mesh whose computed normal is "up", written into a SubObject
    that still holds a "north" normal from before: as written the corners keep
    the stale "north" normal, corrected they carry "up".
   */
  lemma SaveMeshKeepsStaleNormal()
    ensures var so := EmptySubObject().(vertices := [Origin], normals := [North], triangleIndices := [0, 0, 0]);
            var m := Mesh(1, [0], [Origin], [Up], [Triangle(0, 0, 0)]);
            && WellFormed(m)
            && !Similar(VertexNormal(Origin, CornerNormal(SaveMeshAsWritten(so, m), 0)), VertexNormal(Origin, Up))
            && Similar(VertexNormal(Origin, CornerNormal(SaveMesh(so, m), 0)), VertexNormal(Origin, Up))
  {
    var so := EmptySubObject().(vertices := [Origin], normals := [North], triangleIndices := [0, 0, 0]);
    var m: LiveMesh := Mesh(1, [0], [Origin], [Up], [Triangle(0, 0, 0)]);
    var c := Compact(m);
    assert c.vertices == [Origin] && c.normals == [Up];
    assert c.triangleIndices[0] == 0;
    SaveMeshAsWrittenUsesStaleNormals(so, m);
    SaveMeshUsesMeshNormals(so, m);
  }

  // ---------------------------------------------------------- simplification

  /** `(int)x` on a double: truncation toward zero. */
  function Truncate(x: real): (n: int)
    ensures x >= 0.0 ==> n as real <= x < n as real + 1.0
    ensures x < 0.0 ==> n as real - 1.0 < x <= n as real
  {
    if x >= 0.0 then x.Floor else -((-x).Floor)
  }

  /** The vertex budget of SimplifyMesh: area times density, truncated, plus the boundary edge count. */
  function VertexBudget(area: real, density: real, boundaryEdges: nat): (b: int)
    ensures area * density >= 0.0 ==> boundaryEdges as real + area * density - 1.0 < b as real <= boundaryEdges as real + area * density
  {
    Truncate(area * density) + boundaryEdges
  }

  /** 10 m² at 0.15 vertices per m² allows one vertex beyond the boundary, not the two rounding would give. */
  lemma VertexBudgetTruncates()
    ensures VertexBudget(10.0, 0.15, 4) == 5
  {
  }

  /**
    SimplifyMesh: the mesh is reduced only when it has more vertices than the
    budget, and then to the budget; the result is written back with SaveMesh.
   */
  function SimplifyMesh(so: SubObject, lib: MeshLibrary): (r: SubObject)
    ensures ValidMesh(r)
    ensures r == so.(vertices := r.vertices, normals := r.normals, triangleIndices := r.triangleIndices)
  {
    var m := SimplifyInput(so, lib);
    var budget := VertexBudget(lib.area(m), so.maxVerticesPerSquareMeter, lib.boundaryEdges(m));
    SaveMesh(so, if |m.liveIds| > budget then lib.reduce(m, budget) else m)
  }

  /** The mesh SimplifyMesh works on: the SubObject's mesh with its coincident edges merged. */
  function SimplifyInput(so: SubObject, lib: MeshLibrary): LiveMesh {
    lib.mergeEdges(lib.build(so.vertices, so.triangleIndices))
  }

  /** A mesh within its vertex budget is not reduced: simplifying only writes it back. */
  lemma SimplifyKeepsSmallMesh(so: SubObject, lib: MeshLibrary)
    requires var m := SimplifyInput(so, lib);
             |m.liveIds| <= VertexBudget(lib.area(m), so.maxVerticesPerSquareMeter, lib.boundaryEdges(m))
    ensures SimplifyMesh(so, lib) == SaveMesh(so, SimplifyInput(so, lib))
  {
  }

  /**
    A mesh over its budget is reduced to the budget, and every corner of the
    result sits where a triangle of the reduced mesh puts it.
   */
  lemma SimplifyReducesLargeMesh(so: SubObject, lib: MeshLibrary)
    requires var m := SimplifyInput(so, lib);
             |m.liveIds| > VertexBudget(lib.area(m), so.maxVerticesPerSquareMeter, lib.boundaryEdges(m))
    ensures var m := SimplifyInput(so, lib);
            var small := lib.reduce(m, VertexBudget(lib.area(m), so.maxVerticesPerSquareMeter, lib.boundaryEdges(m)));
            var r := SimplifyMesh(so, lib);
            && |r.triangleIndices| == 3 * |small.triangles|
            && forall k | 0 <= k < |small.triangles| ::
                 && r.vertices[r.triangleIndices[3 * k]] == small.positions[small.triangles[k].a]
                 && r.vertices[r.triangleIndices[3 * k + 1]] == small.positions[small.triangles[k].b]
                 && r.vertices[r.triangleIndices[3 * k + 2]] == small.positions[small.triangles[k].c]
  {
    var m := SimplifyInput(so, lib);
    var small := lib.reduce(m, VertexBudget(lib.area(m), so.maxVerticesPerSquareMeter, lib.boundaryEdges(m)));
    SaveMeshKeepsCorners(so, small);
  }
}

=== FILE: text.dfy ===
/**
  The string operations the core relies on: `String.Split` on one separator
  character, ordinal `String.Contains`, `String.Replace(x, "")` and the
  formatting of whole numbers into tile file names.
 */
module Text {

  function CountChar(s: string, c: char): nat
    decreases |s|
  {
    if |s| == 0 then 0 else (if s[0] == c then 1 else 0) + CountChar(s[1..], c)
  }

  /** Glues fields back together with the separator between them. */
  function Join(parts: seq<string>, sep: char): string
    decreases |parts|
  {
    if |parts| == 0 then ""
    else if |parts| == 1 then parts[0]
    else parts[0] + [sep] + Join(parts[1..], sep)
  }

  /**
    `s.Split(sep)` without options: empty fields are kept, so a line with k
    separators has k + 1 fields and joining them gives the line back.
   */
  function Split(s: string, sep: char): (r: seq<string>)
    ensures |r| == CountChar(s, sep) + 1
    ensures forall i | 0 <= i < |r| :: sep !in r[i]
    ensures Join(r, sep) == s
    decreases |s|
  {
    if |s| == 0 then [""]
    else if s[0] == sep then
      var rest := Split(s[1..], sep);
      assert s == [sep] + s[1..];
      [""] + rest
    else
      var rest := Split(s[1..], sep);
      var r := [[s[0]] + rest[0]] + rest[1..];
      assert forall i | 1 <= i < |r| :: r[i] == rest[i];
      assert Join(r, sep) == [s[0]] + Join(rest, sep) by {
        if |rest| > 1 {
          assert r[1..] == rest[1..];
        }
      }
      r
  }

  /** Moving the first character of the first field out in front of the join. */
  lemma JoinFirstChar(parts: seq<string>, sep: char)
    requires |parts| > 0 && |parts[0]| > 0
    ensures Join(parts, sep) == [parts[0][0]] + Join([parts[0][1..]] + parts[1..], sep)
  {
    var p0 := parts[0];
    var tail := [p0[1..]] + parts[1..];
    assert p0 == [p0[0]] + p0[1..];
    if |parts| > 1 {
      assert tail[1..] == parts[1..];
    }
  }

  /** Splitting a joined list of separator-free fields gives the fields back. */
  lemma {:induction false} SplitJoin(parts: seq<string>, sep: char)
    requires |parts| > 0
    requires forall i | 0 <= i < |parts| :: sep !in parts[i]
    ensures Split(Join(parts, sep), sep) == parts
    decreases |parts|, |parts[0]|
  {
    var p0 := parts[0];
    var j := Join(parts, sep);
    if |p0| > 0 {
      var tail := [p0[1..]] + parts[1..];
      assert forall i | 1 <= i < |tail| :: tail[i] == parts[i];
      SplitJoin(tail, sep);
      JoinFirstChar(parts, sep);
      assert j[0] == p0[0] && j[0] != sep;
      assert j[1..] == Join(tail, sep);
      assert [j[0]] + tail[0] == p0;
      assert tail[1..] == parts[1..];
      assert [[j[0]] + tail[0]] + tail[1..] == parts;
    } else if |parts| > 1 {
      SplitJoin(parts[1..], sep);
      assert j == [sep] + Join(parts[1..], sep);
      assert j[1..] == Join(parts[1..], sep);
      assert [""] + parts[1..] == parts;
    }
  }

  /** Ordinal `s.Contains(pat)`. */
  predicate Contains(s: string, pat: string)
    decreases |s|
  {
    |pat| <= |s| && (s[..|pat|] == pat || Contains(s[1..], pat))
  }

  lemma {:induction false} ContainsAfterPrefix(a: string, pat: string, b: string)
    ensures Contains(a + pat + b, pat)
    decreases |a|
  {
    var s := a + pat + b;
    if |a| == 0 {
      assert s[..|pat|] == pat;
    } else {
      assert s[1..] == a[1..] + pat + b;
      ContainsAfterPrefix(a[1..], pat, b);
    }
  }

  lemma {:induction false} NoCharNoContains(s: string, pat: string)
    requires |pat| > 0 && pat[0] !in s
    ensures !Contains(s, pat)
    decreases |s|
  {
    if |pat| <= |s| {
      assert s[..|pat|][0] == s[0];
      NoCharNoContains(s[1..], pat);
    }
  }

  /**
    `s.Replace(pat, "")`: every non-overlapping occurrence, found left to right,
    is deleted.
   */
  function RemoveAll(s: string, pat: string): (r: string)
    requires |pat| > 0
    ensures |r| <= |s|
    decreases |s|
  {
    if |s| < |pat| then s
    else if s[..|pat|] == pat then RemoveAll(s[|pat|..], pat)
    else [s[0]] + RemoveAll(s[1..], pat)
  }

  /** A text that does not contain `pat` comes back unchanged. */
  lemma {:induction false} RemoveAllAbsent(s: string, pat: string)
    requires |pat| > 0
    ensures !Contains(s, pat) ==> RemoveAll(s, pat) == s
    decreases |s|
  {
    if |s| >= |pat| && !Contains(s, pat) {
      RemoveAllAbsent(s[1..], pat);
      assert s == [s[0]] + s[1..];
    }
  }

  /** `pat` occurs in `s` starting at position k. */
  predicate OccursAt(s: string, pat: string, k: nat) {
    k + |pat| <= |s| && s[k..k + |pat|] == pat
  }

  /**
    Where the leftmost occurrence of `pat` starts at position i, the text
    before it is kept, the occurrence is deleted, and the removal carries on
    after it. With RemoveAllAbsent this pins down the result for every
    input.
   */
  lemma {:induction false} RemoveAllFirstOccurrence(s: string, pat: string, i: nat)
    requires |pat| > 0 && OccursAt(s, pat, i)
    requires forall k | 0 <= k < i :: !OccursAt(s, pat, k)
    ensures RemovedAfter(s, pat, i)
    ensures RemoveAll(s, pat) == s[..i] + RemoveAll(s[i + |pat|..], pat)
    decreases i
  {
    if i == 0 {
      RemoveAllStep(s, pat);
    } else {
      FirstOccurrenceInTail(s, pat, i);
      RemoveAllFirstOccurrence(s[1..], pat, i - 1);
      KeptFirstChar(s, pat, i);
    }
  }

  /** The leftmost occurrence at i > 0 is the leftmost occurrence of the tail, at i - 1. */
  lemma FirstOccurrenceInTail(s: string, pat: string, i: nat)
    requires 0 < i && OccursAt(s, pat, i)
    requires forall k | 0 <= k < i :: !OccursAt(s, pat, k)
    ensures !OccursAt(s, pat, 0) && OccursAt(s[1..], pat, i - 1)
    ensures forall k | 0 <= k < i - 1 :: !OccursAt(s[1..], pat, k)
  {
    OccursShift(s, pat, i - 1);
    forall k | 0 <= k < i - 1
      ensures !OccursAt(s[1..], pat, k)
    {
      OccursShift(s, pat, k);
    }
  }

  /** The removal keeps s[..i] and carries on after an occurrence at i. */
  predicate RemovedAfter(s: string, pat: string, i: nat)
    requires |pat| > 0 && i + |pat| <= |s|
  {
    RemoveAll(s, pat) == s[..i] + RemoveAll(s[i + |pat|..], pat)
  }

  /** A first character that starts no occurrence stays in front of what the removal makes of the rest. */
  lemma KeptFirstChar(s: string, pat: string, i: nat)
    requires |pat| > 0 && 0 < i && i + |pat| <= |s| && !OccursAt(s, pat, 0)
    requires RemovedAfter(s[1..], pat, i - 1)
    ensures RemovedAfter(s, pat, i)
  {
    var t := s[1..];
    RemoveAllStep(s, pat);
    SplitAfterFirst(s, i, i + |pat|);
    var u := s[i + |pat|..];
    assert t[i - 1 + |pat|..] == u;
    var rest := RemoveAll(u, pat);
    assert RemoveAll(t[i - 1 + |pat|..], pat) == rest;
    assert RemoveAll(s, pat) == [s[0]] + (t[..i - 1] + rest);
  }

  /** Cutting s at i and j, seen from its tail s[1..]. */
  lemma SplitAfterFirst<T>(s: seq<T>, i: nat, j: nat)
    requires 0 < i <= j <= |s|
    ensures s[1..][j - 1..] == s[j..]
    ensures forall r: seq<T> {:trigger [s[0]] + (s[1..][..i - 1] + r)} :: [s[0]] + (s[1..][..i - 1] + r) == s[..i] + r
  {
    assert s[..i] == [s[0]] + s[1..][..i - 1];
  }

  /** One step of the removal: an occurrence at the front is deleted, any other first character kept. */
  lemma RemoveAllStep(s: string, pat: string)
    requires |pat| > 0 && |pat| <= |s|
    ensures OccursAt(s, pat, 0) ==> RemoveAll(s, pat) == RemoveAll(s[|pat|..], pat)
    ensures !OccursAt(s, pat, 0) ==> RemoveAll(s, pat) == [s[0]] + RemoveAll(s[1..], pat)
  {
  }

  /** Dropping the first character moves every occurrence one place to the left. */
  lemma OccursShift(s: string, pat: string, k: nat)
    requires |s| > 0
    ensures OccursAt(s, pat, k + 1) <==> OccursAt(s[1..], pat, k)
  {
    if k + 1 + |pat| <= |s| {
      assert s[1..][k..k + |pat|] == s[k + 1..k + 1 + |pat|];
    }
  }

  /**
    Removing a one-character text deletes every copy of that character and
    keeps every other character as often as it occurs.
   */
  lemma {:induction false} RemoveAllOneChar(s: string, c: char)
    ensures c !in RemoveAll(s, [c])
    ensures forall x | x != c :: multiset(RemoveAll(s, [c]))[x] == multiset(s)[x]
    decreases |s|
  {
    if |s| > 0 {
      RemoveAllOneChar(s[1..], c);
      assert s == [s[0]] + s[1..];
      assert s[..1] == [s[0]];
    }
  }

  function DigitChar(d: nat): char
    requires d < 10
  {
    "0123456789"[d]
  }

  function NatToString(n: nat): (r: string)
    ensures |r| > 0
    ensures forall i | 0 <= i < |r| :: '0' <= r[i] <= '9'
    decreases n
  {
    if n < 10 then [DigitChar(n)] else NatToString(n / 10) + [DigitChar(n % 10)]
  }

  /** The text of a whole-valued double, as string interpolation renders it. */
  function IntToString(n: int): (r: string)
    ensures |r| > 0
    ensures forall i | 0 <= i < |r| :: r[i] == '-' || '0' <= r[i] <= '9'
  {
    if n < 0 then "-" + NatToString(-n) else NatToString(n)
  }
}

=== FILE: tileclip.dfy ===
/**
  Clipping a SubObject along the tile grid (clipSubobject and its helpers).
  The mesh is cut into vertical columns one grid cell wide, each column into
  cells, and every non-empty cell becomes a new SubObject whose centroid is the
  centre of its cell, so that bucketing by centroid puts it in that cell.

  The cutting itself is the mesh library's: `planeCut` and `bounds` of a
  `MeshLibrary` stand for MeshPlaneCut and MeshMeasurements.Bounds. A plane cut
  works on the mesh it is given; where the source hands it the SubObject's own
  mesh rather than a copy, the model threads that mesh through the columns.
 */
module TileClip {
  import opened Common
  import opened MeshOps

  // ------------------------------------------------------------ grid lines

  lemma NonNegIntProduct(a: int, b: int)
    requires a >= 0 && b > 0
    ensures a * b >= 0
  {
  }

  /** Exact division: `k * size / size` is `k`. */
  lemma ExactQuotient(k: int, size: int)
    requires size > 0
    ensures (k * size) / size == k
  {
    var d := (k * size) / size;
    var m := (k * size) % size;
    assert k * size == d * size + m;
    assert (k - d) * size == m;
    if k > d {
      NonNegIntProduct(k - d - 1, size);
      assert false;
    } else if k < d {
      NonNegIntProduct(d - k - 1, size);
      assert false;
    }
  }

  /** A whole number of cells: `k * size` is a grid line. */
  lemma MultipleMod(k: int, size: int)
    requires size > 0
    ensures (k * size) % size == 0
  {
    ExactQuotient(k, size);
  }

  lemma NonNegProduct(a: real, b: real)
    requires a >= 0.0 && b > 0.0
    ensures a * b >= 0.0
  {
  }

  lemma PosProduct(a: real, b: real)
    requires a > 0.0 && b > 0.0
    ensures a * b > 0.0
  {
  }

  /** Scaling `fr <= q < fr + 1` by a positive `s`, where `q * s == v`. */
  lemma ScaledBracket(v: real, s: real, q: real, fr: real)
    requires s > 0.0 && q * s == v && fr <= q < fr + 1.0
    ensures fr * s <= v < fr * s + s
  {
    var d := fr + 1.0 - q;
    PosProduct(d, s);
    assert d * s == fr * s + s - v by {
      assert d * s == fr * s + 1.0 * s - q * s;
    }
    NonNegProduct(q - fr, s);
    assert (q - fr) * s == v - fr * s;
  }

  /** `floor(v / size)` brackets `v` between two neighbouring grid lines. */
  lemma FloorBrackets(v: real, size: int)
    requires size > 0
    ensures var f := (v / size as real).Floor;
            f as real * size as real <= v < f as real * size as real + size as real
  {
    var s := size as real;
    ScaledBracket(v, s, v / s, (v / s).Floor as real);
  }

  /**
    `(int)Math.Floor(v / size) * (int)size`: the grid line at or below `v`.
    The tile size is a whole number of metres, so `(int)size` is the size.
   */
  function GridFloor(v: real, size: int): (g: int)
    requires size > 0
    ensures g as real <= v < g as real + size as real
    ensures g % size == 0
  {
    var f := (v / size as real).Floor;
    FloorBrackets(v, size);
    MultipleMod(f, size);
    f * size
  }

  /** `(int)Math.Ceiling(v / size) * (int)size`: the grid line at or above `v`. */
  function GridCeil(v: real, size: int): (g: int)
    requires size > 0
    ensures g as real - size as real < v <= g as real
    ensures g % size == 0
  {
    var f := GridFloor(-v, size);
    assert (-f) % size == 0 by {
      assert f == (f / size) * size;
      assert -f == (-(f / size)) * size;
      MultipleMod(-(f / size), size);
    }
    -f
  }

  /** A grid line itself is its own floor. */
  lemma GridFloorOfLine(x: int, size: int)
    requires size > 0 && x % size == 0
    ensures GridFloor(x as real, size) == x
  {
    CellPointFloor(x, 0.0, size);
  }

  /** A positive factor keeps the sign of a non-negative product. */
  lemma NonNegFactor(a: real, s: real)
    requires s > 0.0 && a * s >= 0.0
    ensures a >= 0.0
  {
    if a < 0.0 {
      PosProduct(-a, s);
      assert false;
    }
  }

  /** The cell of `k * size + h`, for `0 <= h < size`, is cell `k`. */
  lemma FloorOfCellPoint(k: int, h: real, size: int)
    requires size > 0 && 0.0 <= h < size as real
    ensures (((k * size) as real + h) / size as real).Floor == k
  {
    var s := size as real;
    var kr := k as real;
    var q := ((k * size) as real + h) / s;
    assert q * s == (k * size) as real + h;
    assert (k * size) as real == kr * s;
    assert (q - kr) * s == h by {
      assert (q - kr) * s == q * s - kr * s;
    }
    NonNegFactor(q - kr, s);
    assert (kr + 1.0 - q) * s == s - h by {
      assert (kr + 1.0 - q) * s == kr * s + 1.0 * s - q * s;
    }
    PositiveFactor(kr + 1.0 - q, s);
  }

  /** A point `h` into the cell at grid line `x` (0 <= h < size) has that line as its floor. */
  lemma CellPointFloor(x: int, h: real, size: int)
    requires size > 0 && x % size == 0
    requires 0.0 <= h < size as real
    ensures GridFloor(x as real + h, size) == x
  {
    var k := x / size;
    assert x == k * size;
    FloorOfCellPoint(k, h, size);
  }

  /** `c` lies in the cell that starts at grid line `x`. */
  predicate InCell(c: real, x: int, size: int) {
    x as real <= c < (x + size) as real
  }

  /** A coordinate in the cell at grid line `x` has `x` as its grid floor: bucketing finds the cell. */
  lemma CellFloor(c: real, x: int, size: int)
    requires size > 0 && x % size == 0 && InCell(c, x, size)
    ensures GridFloor(c, size) == x
  {
    CellPointFloor(x, c - x as real, size);
    assert x as real + (c - x as real) == c;
  }

  /**
    The centre coordinate createSubobjectFromMesh gives the cell at grid line
    `x`, with the integer half `size / 2`: it lies in that cell.
   */
  function IntCentre(x: int, size: int): (c: real)
    requires size > 0
    ensures InCell(c, x, size)
  {
    (x + size / 2) as real
  }

  /** The centre coordinate clipMesh gives, with the real half `size / 2f`: it lies in the cell too. */
  function HalfCentre(x: int, size: int): (c: real)
    requires size > 0
    ensures InCell(c, x, size)
  {
    x as real + size as real / 2.0
  }

  /** `for (v = lo; v < hi; v += size)`: the grid lines of the cells from `lo` up to `hi`. */
  function Steps(lo: int, hi: int, size: int): (r: seq<int>)
    requires size > 0
    ensures forall i | 0 <= i < |r| :: lo <= r[i] < hi
    ensures forall i | 0 <= i < |r| :: r[i] == lo + i * size
    ensures lo < hi <==> |r| > 0
    ensures |r| > 0 ==> hi <= Last(r) + size
    decreases hi - lo
  {
    if lo >= hi then []
    else
      var rest := Steps(lo + size, hi, size);
      var r := [lo] + rest;
      assert forall i | 1 <= i < |r| :: r[i] == rest[i - 1];
      r
  }

  /** Every step from a grid line is a grid line. */
  lemma StepsOnGrid(lo: int, hi: int, size: int)
    requires size > 0 && lo % size == 0
    ensures forall i | 0 <= i < |Steps(lo, hi, size)| :: Steps(lo, hi, size)[i] % size == 0
  {
    var r := Steps(lo, hi, size);
    forall i | 0 <= i < |r|
      ensures r[i] % size == 0
    {
      assert r[i] == (lo / size + i) * size;
      MultipleMod(lo / size + i, size);
    }
  }

  /** Two grid lines with `lo < hi` are at least a cell apart. */
  lemma GridGap(lo: int, hi: int, size: int)
    requires size > 0 && lo % size == 0 && hi % size == 0 && lo < hi
    ensures lo + size <= hi
  {
    var a := lo / size;
    var b := hi / size;
    assert lo == a * size && hi == b * size;
    assert hi - lo == (b - a) * size;
    if b - a <= 0 {
      NonNegIntProduct(a - b, size);
      assert false;
    }
    NonNegIntProduct(b - a - 1, size);
    assert (b - a - 1) * size == hi - lo - size;
  }

  /** Between grid lines, every step leaves a whole cell before `hi`. */
  lemma {:induction false} StepsFit(lo: int, hi: int, size: int)
    requires size > 0 && lo % size == 0 && hi % size == 0
    ensures forall i | 0 <= i < |Steps(lo, hi, size)| :: Steps(lo, hi, size)[i] + size <= hi
    decreases hi - lo
  {
    if lo < hi {
      GridGap(lo, hi, size);
      assert (lo + size) % size == 0 by {
        assert lo + size == (lo / size + 1) * size;
        MultipleMod(lo / size + 1, size);
      }
      StepsFit(lo + size, hi, size);
      var r := Steps(lo, hi, size);
      assert forall i | 1 <= i < |r| :: r[i] == Steps(lo + size, hi, size)[i - 1];
    }
  }

  // ------------------------------------------------------------- clipping

  /** The grid cells around a bounding box: lines at or below the minimum, at or above the maximum. */
  datatype Span = Span(xmin: int, xmax: int, ymin: int, ymax: int)

  function GridSpan(b: Box, size: int): (s: Span)
    requires size > 0
    ensures s.xmin as real <= b.min.x && b.max.x <= s.xmax as real
    ensures s.ymin as real <= b.min.y && b.max.y <= s.ymax as real
    ensures s.xmin % size == 0 && s.xmax % size == 0 && s.ymin % size == 0 && s.ymax % size == 0
  {
    Span(GridFloor(b.min.x, size), GridCeil(b.max.x, size), GridFloor(b.min.y, size), GridCeil(b.max.y, size))
  }

  /** The object lies in one cell: the check that makes clipSubobject return no pieces. */
  predicate SingleCell(s: Span, size: int) {
    s.xmax - s.xmin == size && s.ymax - s.ymin == size
  }

  /** The result of CutColumnMesh: the column, and the SubObject's own mesh after the cut. */
  datatype ColumnCut = ColumnCut(column: LiveMesh, own: LiveMesh)

  /**
    CutColumnMesh: the part of the mesh between the grid lines X and X + size.
    The left side is cut off the SubObject's own mesh (not the copy), which
    then serves as the column; the right side is cut off the column. So after
    a left cut the own mesh is the column, and otherwise it is untouched.
   */
  function CutColumnMesh(lib: MeshLibrary, own: LiveMesh, x: int, y: int, size: int): (c: ColumnCut)
    ensures lib.bounds(own).min.x < x as real ==> c.own == c.column
    ensures lib.bounds(own).min.x >= x as real ==> c.own == own
    ensures lib.bounds(own).max.x <= (x + size) as real ==>
              c.column == if lib.bounds(own).min.x < x as real then lib.planeCut(own, Vec3(x as real, y as real, 0.0), Vec3(-1.0, 0.0, 0.0)) else own
  {
    var b := lib.bounds(own);
    var cutLeft := b.min.x < x as real;
    var afterLeft := if cutLeft then lib.planeCut(own, Vec3(x as real, y as real, 0.0), Vec3(-1.0, 0.0, 0.0)) else own;
    var column := if b.max.x > (x + size) as real
                  then lib.planeCut(afterLeft, Vec3((x + size) as real, y as real, 0.0), Vec3(1.0, 0.0, 0.0))
                  else afterLeft;
    ColumnCut(column, if cutLeft then column else own)
  }

  /** A new SubObject for a piece: the parent's id and submesh index, the given centroid, the mesh saved into it. */
  function Piece(so: SubObject, m: LiveMesh, cx: real, cy: real): (p: SubObject)
    ensures ValidMesh(p)
    ensures p.id == so.id && p.parentSubmeshIndex == so.parentSubmeshIndex
    ensures p.centroid == Centroid(Finite(cx), Finite(cy))
  {
    var blank := EmptySubObject().(centroid := Centroid(Finite(cx), Finite(cy)), id := so.id,
                                   parentSubmeshIndex := so.parentSubmeshIndex);
    // A fresh SubObject has no normals, so the stale-normals defect of saveMesh cannot show here.
    SaveMeshFreshAgrees(blank, m);
    SaveMesh(blank, m)
  }

  /** createSubobjectFromMesh: the whole column is one cell; its centre uses the integer half size. */
  function CreateSubobjectFromMesh(so: SubObject, m: LiveMesh, x: int, y: int, size: int): (p: SubObject)
    requires size > 0
    ensures ValidMesh(p) && p.id == so.id && p.parentSubmeshIndex == so.parentSubmeshIndex
    ensures p.centroid.x.Finite? && p.centroid.y.Finite?
    ensures InCell(p.centroid.x.value, x, size) && InCell(p.centroid.y.value, y, size)
    ensures p.centroid == Centroid(Finite(IntCentre(x, size)), Finite(IntCentre(y, size)))
  {
    Piece(so, m, IntCentre(x, size), IntCentre(y, size))
  }

  /**
    The cuts of clipMesh: the top is cut off above Y + size and the bottom
    below Y, each only when the column reaches past that line.
   */
  function RowCut(lib: MeshLibrary, column: LiveMesh, x: int, y: int, size: int): (m: LiveMesh)
    ensures lib.bounds(column).min.y >= y as real && lib.bounds(column).max.y <= (y + size) as real ==> m == column
  {
    var b := lib.bounds(column);
    var afterTop := if b.max.y > (y + size) as real
                    then lib.planeCut(column, Vec3((x + size) as real, (y + size) as real, 0.0), Vec3(0.0, 1.0, 0.0))
                    else column;
    if b.min.y < y as real
    then lib.planeCut(afterTop, Vec3(x as real, y as real, 0.0), Vec3(0.0, -1.0, 0.0))
    else afterTop
  }

  /** The piece clipMesh makes for the cell at (x, y): its centre uses the real half size. */
  function CellPiece(so: SubObject, m: LiveMesh, x: int, y: int, size: int): (p: SubObject)
    requires size > 0
    ensures ValidMesh(p) && p.id == so.id && p.parentSubmeshIndex == so.parentSubmeshIndex
    ensures p.centroid.x.Finite? && p.centroid.y.Finite?
    ensures InCell(p.centroid.x.value, x, size) && InCell(p.centroid.y.value, y, size)
    ensures p.centroid == Centroid(Finite(HalfCentre(x, size)), Finite(HalfCentre(y, size)))
  {
    Piece(so, m, HalfCentre(x, size), HalfCentre(y, size))
  }

  /** clipMesh: the column cut down to the row at Y; an empty remainder gives no piece. */
  function ClipMesh(lib: MeshLibrary, so: SubObject, column: LiveMesh, x: int, y: int, size: int): (r: Option<SubObject>)
    requires size > 0
    ensures r.Some? <==> |RowCut(lib, column, x, y, size).liveIds| > 0
    ensures r.Some? ==> r.value == CellPiece(so, RowCut(lib, column, x, y, size), x, y, size)
  {
    var clipped := RowCut(lib, column, x, y, size);
    if |clipped.liveIds| > 0 then Some(CellPiece(so, clipped, x, y, size)) else None
  }

  /** A piece of `so`: a valid mesh with its id and submesh, and a finite centroid. */
  predicate PieceOf(p: SubObject, so: SubObject) {
    && ValidMesh(p)
    && p.id == so.id && p.parentSubmeshIndex == so.parentSubmeshIndex
    && p.centroid.x.Finite? && p.centroid.y.Finite?
  }

  /**
    The centre coordinate a piece of the cell at grid line `x` gets: with the
    integer half size (a column kept whole) or the real one (a row cut).
   */
  predicate CellCentre(c: real, x: int, size: int)
    requires size > 0
  {
    x % size == 0 && (c == IntCentre(x, size) || c == HalfCentre(x, size))
  }

  /** A piece of `so` centred in the grid cell with lower-left corner (x, y). */
  predicate PieceInCell(p: SubObject, so: SubObject, x: int, y: int, size: int)
    requires size > 0
  {
    && PieceOf(p, so)
    && CellCentre(p.centroid.x.value, x, size)
    && CellCentre(p.centroid.y.value, y, size)
  }

  /** A piece of `so` centred in a cell of the column at grid line `x`, between the row lines `ylo` and `yhi`. */
  ghost predicate PieceInColumn(p: SubObject, so: SubObject, x: int, ylo: int, yhi: int, size: int)
    requires size > 0
  {
    && PieceOf(p, so)
    && exists y | ylo <= y && y + size <= yhi :: PieceInCell(p, so, x, y, size)
  }

  /** The rows loop: one clipMesh per row line, the non-null pieces kept in row order. */
  function RowPieces(lib: MeshLibrary, so: SubObject, column: LiveMesh, x: int, ys: seq<int>, size: int,
                     ylo: int, yhi: int): (r: seq<SubObject>)
    requires size > 0 && x % size == 0
    requires forall i | 0 <= i < |ys| :: ys[i] % size == 0 && ylo <= ys[i] && ys[i] + size <= yhi
    ensures |r| <= |ys|
    ensures forall p | p in r :: PieceInColumn(p, so, x, ylo, yhi, size)
    decreases |ys|
  {
    if |ys| == 0 then []
    else
      var rest := RowPieces(lib, so, column, x, ys[1..], size, ylo, yhi);
      var piece := ClipMesh(lib, so, column, x, ys[0], size);
      if piece.None? then rest
      else
        assert PieceInCell(piece.value, so, x, ys[0], size);
        [piece.value] + rest
  }

  /**
    One column: when its own bounds span a single row it becomes one piece as
    it is, otherwise it is cut row by row. Every piece is centred in a cell of
    the column between the grid lines around the column's bounds.
   */
  function ColumnPieces(lib: MeshLibrary, so: SubObject, column: LiveMesh, x: int, size: int): (r: seq<SubObject>)
    requires size > 0 && x % size == 0
    ensures var lb := lib.bounds(column);
            forall p | p in r :: PieceInColumn(p, so, x, GridFloor(lb.min.y, size), GridCeil(lb.max.y, size), size)
  {
    var lb := lib.bounds(column);
    var lo := GridFloor(lb.min.y, size);
    var hi := GridCeil(lb.max.y, size);
    if hi - lo == size then
      var p := CreateSubobjectFromMesh(so, column, x, lo, size);
      assert PieceInCell(p, so, x, lo, size);
      [p]
    else
      StepsOnGrid(lo, hi, size);
      StepsFit(lo, hi, size);
      RowPieces(lib, so, column, x, Steps(lo, hi, size), size, lo, hi)
  }

  /** A piece of `so` centred in a grid cell whose column lies between the grid lines `lo` and `hi`. */
  ghost predicate PieceInSpan(p: SubObject, so: SubObject, lo: int, hi: int, size: int)
    requires size > 0
  {
    && PieceOf(p, so)
    && exists x, y | lo <= x && x + size <= hi :: PieceInCell(p, so, x, y, size)
  }

  /** The columns loop, threading the SubObject's own mesh from one column cut to the next. */
  function ColumnsPieces(lib: MeshLibrary, so: SubObject, own: LiveMesh, xs: seq<int>, ymin: int, size: int,
                         lo: int, hi: int): (r: seq<SubObject>)
    requires size > 0
    requires forall i | 0 <= i < |xs| :: xs[i] % size == 0 && lo <= xs[i] && xs[i] + size <= hi
    ensures forall p | p in r :: PieceInSpan(p, so, lo, hi, size)
    decreases |xs|
  {
    if |xs| == 0 then []
    else
      var cut := CutColumnMesh(lib, own, xs[0], ymin, size);
      var here := ColumnPieces(lib, so, cut.column, xs[0], size);
      var rest := ColumnsPieces(lib, so, cut.own, xs[1..], ymin, size, lo, hi);
      assert forall p | p in here :: PieceInSpan(p, so, lo, hi, size) by {
        forall p | p in here
          ensures PieceInSpan(p, so, lo, hi, size)
        {
          var lb := lib.bounds(cut.column);
          assert PieceInColumn(p, so, xs[0], GridFloor(lb.min.y, size), GridCeil(lb.max.y, size), size);
          var y :| PieceInCell(p, so, xs[0], y, size);
          assert PieceInCell(p, so, xs[0], y, size);
        }
      }
      here + rest
  }

  /**
    clipSubobject: builds the mesh, and returns no pieces when the object lies
    in a single cell; otherwise the pieces of every column, each in a cell
    whose column lies inside the object's grid span.
   */
  function ClipSubobject(lib: MeshLibrary, so: SubObject, size: int): (r: seq<SubObject>)
    requires size > 0
    ensures var s := GridSpan(lib.bounds(lib.build(so.vertices, so.triangleIndices)), size);
            && (SingleCell(s, size) ==> r == [])
            && forall p | p in r :: PieceInSpan(p, so, s.xmin, s.xmax, size)
  {
    var mesh := lib.build(so.vertices, so.triangleIndices);
    var s := GridSpan(lib.bounds(mesh), size);
    if SingleCell(s, size) then []
    else
      var xs := Steps(s.xmin, s.xmax, size);
      StepsOnGrid(s.xmin, s.xmax, size);
      StepsFit(s.xmin, s.xmax, size);
      ColumnsPieces(lib, so, mesh, xs, s.ymin, size, s.xmin, s.xmax)
  }
}

=== FILE: tiling.dfy ===
/**
  Bucketing the SubObjects of a run into tiles (TileSubobjects) and the
  decision which tiles get written (WriteTileData).

  A SubObject's tile is found from its centroid with `Math.Floor(c / tileSize)
  * tileSize` per axis. Tile positions are compared with `==` on doubles, so a
  NaN coordinate (the centroid of an object without vertices) matches no tile,
  not even its own: every such object opens a tile of its own, whose file name
  reads "NaN", and which is then skipped.
 */
module Tiling {
  import opened Common
  import opened Text
  import opened MeshOps
  import opened TileClip

  /** A tile position: the grid lines at the lower-left corner, or NaN. */
  datatype TileKey = TileKey(x: Num, y: Num)

  datatype Tile = Tile(position: TileKey, size: int, filePath: string, subObjects: seq<SubObject>)

  /** One coordinate of a tile key; NaN stays NaN. */
  function TileCoord(c: Num, tileSize: int): (t: Num)
    requires tileSize > 0
    ensures t.NaN? <==> c.NaN?
    ensures c.Finite? ==> t.value <= c.value < t.value + tileSize as real
  {
    match c
    case NaN => NaN
    case Finite(v) => Finite(GridFloor(v, tileSize) as real)
  }

  function KeyOf(so: SubObject, tileSize: int): TileKey
    requires tileSize > 0
  {
    TileKey(TileCoord(so.centroid.x, tileSize), TileCoord(so.centroid.y, tileSize))
  }

  /** `tileposition.X == tileX && tileposition.Y == tileY` on doubles. */
  predicate SameKey(a: TileKey, b: TileKey) {
    NumEq(a.x, b.x) && NumEq(a.y, b.y)
  }

  predicate FiniteKey(k: TileKey) {
    k.x.Finite? && k.y.Finite?
  }

  /** For tileSize 1000, centroid (1500, 2500) lies in tile (1000, 2000) and (999, 999) in tile (0, 0). */
  lemma TileKeyExamples()
    ensures KeyOf(EmptySubObject().(centroid := Centroid(Finite(1500.0), Finite(2500.0))), 1000)
            == TileKey(Finite(1000.0), Finite(2000.0))
    ensures KeyOf(EmptySubObject().(centroid := Centroid(Finite(999.0), Finite(999.0))), 1000)
            == TileKey(Finite(0.0), Finite(0.0))
  {
    CellFloor(1500.0, 1000, 1000);
    CellFloor(2500.0, 2000, 1000);
    CellFloor(999.0, 0, 1000);
  }

  /**
    A piece made by clipping, with its centroid at the centre of the cell at
    grid lines (x, y), lands in the tile at (x, y): clipping and bucketing
    use the same grid.
   */
  lemma ClippedPieceTile(so: SubObject, m: LiveMesh, x: int, y: int, tileSize: int)
    requires tileSize > 0 && x % tileSize == 0 && y % tileSize == 0
    ensures KeyOf(CellPiece(so, m, x, y, tileSize), tileSize) == TileKey(Finite(x as real), Finite(y as real))
    ensures KeyOf(CreateSubobjectFromMesh(so, m, x, y, tileSize), tileSize) == TileKey(Finite(x as real), Finite(y as real))
  {
    var p := CellPiece(so, m, x, y, tileSize);
    CellFloor(p.centroid.x.value, x, tileSize);
    CellFloor(p.centroid.y.value, y, tileSize);
    var q := CreateSubobjectFromMesh(so, m, x, y, tileSize);
    CellFloor(q.centroid.x.value, x, tileSize);
    CellFloor(q.centroid.y.value, y, tileSize);
  }

  /** Any piece centred in the cell at grid lines (x, y) lands in the tile at (x, y). */
  lemma PieceInCellTile(p: SubObject, so: SubObject, x: int, y: int, tileSize: int)
    requires tileSize > 0 && PieceInCell(p, so, x, y, tileSize)
    ensures KeyOf(p, tileSize) == TileKey(Finite(x as real), Finite(y as real))
  {
    CellFloor(p.centroid.x.value, x, tileSize);
    CellFloor(p.centroid.y.value, y, tileSize);
  }

  /**
    Every piece clipSubobject makes gets a finite tile key whose x is a
    column of the mesh's grid span: clipped pieces never go to a NaN tile
    and never to a column outside the object.
   */
  lemma ClippedPiecesTiled(lib: MeshLibrary, so: SubObject, tileSize: int)
    requires tileSize > 0
    ensures var s := GridSpan(lib.bounds(lib.build(so.vertices, so.triangleIndices)), tileSize);
            forall p | p in ClipSubobject(lib, so, tileSize) ::
              && FiniteKey(KeyOf(p, tileSize))
              && s.xmin as real <= KeyOf(p, tileSize).x.value < s.xmax as real
  {
    var s := GridSpan(lib.bounds(lib.build(so.vertices, so.triangleIndices)), tileSize);
    forall p | p in ClipSubobject(lib, so, tileSize)
      ensures FiniteKey(KeyOf(p, tileSize)) && s.xmin as real <= KeyOf(p, tileSize).x.value < s.xmax as real
    {
      assert PieceInSpan(p, so, s.xmin, s.xmax, tileSize);
      var x, y :| s.xmin <= x && x + tileSize <= s.xmax && PieceInCell(p, so, x, y, tileSize);
      PieceInCellTile(p, so, x, y, tileSize);
    }
  }

  // ------------------------------------------------------------- file names

  /** A whole-valued double as string interpolation writes it; NaN as "NaN". */
  function CoordText(c: Num): string {
    match c
    case NaN => "NaN"
    case Finite(v) => IntToString(v.Floor)
  }

  /** `$"{outputPath}{tileX}_{tileY}.{lod}.bin"`; `lodText` is the text of the LOD. */
  function TilePath(outputPath: string, k: TileKey, lodText: string): string {
    outputPath + CoordText(k.x) + "_" + CoordText(k.y) + "." + lodText + ".bin"
  }

  function NewTile(k: TileKey, tileSize: int, outputPath: string, lodText: string, so: SubObject): Tile {
    Tile(k, tileSize, TilePath(outputPath, k, lodText), [so])
  }

  // -------------------------------------------------------------- bucketing

  /** The inner loop: index of the first tile whose position equals `k`, -1 when there is none. */
  function FindTile(tiles: seq<Tile>, k: TileKey): (i: int)
    ensures -1 <= i < |tiles|
    ensures i >= 0 ==> SameKey(tiles[i].position, k)
    ensures i >= 0 ==> forall j | 0 <= j < i :: !SameKey(tiles[j].position, k)
    ensures i < 0 ==> forall j | 0 <= j < |tiles| :: !SameKey(tiles[j].position, k)
    decreases |tiles|
  {
    if |tiles| == 0 then -1
    else
      var i := FindTile(tiles[..|tiles| - 1], k);
      if i >= 0 then i
      else if SameKey(Last(tiles).position, k) then |tiles| - 1
      else -1
  }

  /** One step of the outer loop: add the SubObject to its tile, or open a new tile at the end. */
  function AddToTiles(tiles: seq<Tile>, so: SubObject, tileSize: int, outputPath: string, lodText: string)
    : seq<Tile>
    requires tileSize > 0
  {
    var k := KeyOf(so, tileSize);
    var i := FindTile(tiles, k);
    if i >= 0 then tiles[i := tiles[i].(subObjects := tiles[i].subObjects + [so])]
    else tiles + [NewTile(k, tileSize, outputPath, lodText, so)]
  }

  /** TileSubobjects as a fold over the SubObjects in order. */
  function Bucket(objs: seq<SubObject>, tileSize: int, outputPath: string, lodText: string): seq<Tile>
    requires tileSize > 0
    decreases |objs|
  {
    if |objs| == 0 then []
    else AddToTiles(Bucket(objs[..|objs| - 1], tileSize, outputPath, lodText), Last(objs), tileSize, outputPath, lodText)
  }

  /** The SubObjects whose tile key equals `k`, in input order. */
  function WithKey(objs: seq<SubObject>, k: TileKey, tileSize: int): (r: seq<SubObject>)
    requires tileSize > 0
    ensures |r| <= |objs|
    decreases |objs|
  {
    if |objs| == 0 then []
    else
      var init := WithKey(objs[..|objs| - 1], k, tileSize);
      if SameKey(KeyOf(Last(objs), tileSize), k) then init + [Last(objs)] else init
  }

  /** Number of SubObjects over all tiles. */
  function TotalCount(tiles: seq<Tile>): nat
    decreases |tiles|
  {
    if |tiles| == 0 then 0 else TotalCount(tiles[..|tiles| - 1]) + |Last(tiles).subObjects|
  }

  /** Tile positions are pairwise different (as `==` on doubles sees them). */
  predicate DistinctPositions(tiles: seq<Tile>) {
    forall i, j | 0 <= i < j < |tiles| :: !SameKey(tiles[i].position, tiles[j].position)
  }

  predicate NoEmptyTile(tiles: seq<Tile>) {
    forall i | 0 <= i < |tiles| :: |tiles[i].subObjects| > 0
  }

  /** A tile at a finite position holds exactly the SubObjects with that key, in input order. */
  predicate FiniteTilesHold(tiles: seq<Tile>, objs: seq<SubObject>, tileSize: int)
    requires tileSize > 0
  {
    forall i | 0 <= i < |tiles| && FiniteKey(tiles[i].position) ::
      tiles[i].subObjects == WithKey(objs, tiles[i].position, tileSize)
  }

  /** A tile at a NaN position holds a single SubObject, whose key it is. */
  predicate NaNTilesSingle(tiles: seq<Tile>, tileSize: int)
    requires tileSize > 0
  {
    forall i | 0 <= i < |tiles| && !FiniteKey(tiles[i].position) ::
      |tiles[i].subObjects| == 1 && tiles[i].position == KeyOf(tiles[i].subObjects[0], tileSize)
  }

  /** Every SubObject with a finite key has a tile at that key. */
  predicate EveryKeyHasTile(tiles: seq<Tile>, objs: seq<SubObject>, tileSize: int)
    requires tileSize > 0
  {
    forall o | o in objs && FiniteKey(KeyOf(o, tileSize)) :: FindTile(tiles, KeyOf(o, tileSize)) >= 0
  }

  /** Each tile's size and file name follow from its position. */
  predicate TilesNamed(tiles: seq<Tile>, tileSize: int, outputPath: string, lodText: string) {
    forall i | 0 <= i < |tiles| ::
      tiles[i].size == tileSize && tiles[i].filePath == TilePath(outputPath, tiles[i].position, lodText)
  }

  /**
    What TileSubobjects promises about its tiles for the SubObjects `objs`:
    the positions are pairwise different, no tile is empty, the tiles hold
    all SubObjects between them, a tile at a finite position holds exactly the
    SubObjects with that key in input order, a tile at a NaN position holds
    one SubObject with a NaN key, every finite key has its tile, and each
    tile's size and file name follow from its position.
   */
  predicate Partitions(tiles: seq<Tile>, objs: seq<SubObject>, tileSize: int, outputPath: string, lodText: string)
    requires tileSize > 0
  {
    && DistinctPositions(tiles)
    && NoEmptyTile(tiles)
    && TotalCount(tiles) == |objs|
    && FiniteTilesHold(tiles, objs, tileSize)
    && NaNTilesSingle(tiles, tileSize)
    && EveryKeyHasTile(tiles, objs, tileSize)
    && TilesNamed(tiles, tileSize, outputPath, lodText)
  }

  lemma {:induction false} TotalCountAppend(tiles: seq<Tile>, t: Tile)
    ensures TotalCount(tiles + [t]) == TotalCount(tiles) + |t.subObjects|
  {
    assert (tiles + [t])[..|tiles|] == tiles;
  }

  lemma {:induction false} TotalCountUpdate(tiles: seq<Tile>, i: nat, t: Tile)
    requires i < |tiles|
    ensures TotalCount(tiles[i := t]) == TotalCount(tiles) - |tiles[i].subObjects| + |t.subObjects|
    decreases |tiles|
  {
    var n := |tiles| - 1;
    var u := tiles[i := t];
    assert u[..n] == if i < n then tiles[..n][i := t] else tiles[..n];
    if i < n {
      TotalCountUpdate(tiles[..n], i, t);
    }
  }

  /** Adding one more SubObject to the input extends WithKey exactly when its key matches. */
  lemma WithKeySnoc(objs: seq<SubObject>, o: SubObject, k: TileKey, tileSize: int)
    requires tileSize > 0
    ensures WithKey(objs + [o], k, tileSize)
            == if SameKey(KeyOf(o, tileSize), k) then WithKey(objs, k, tileSize) + [o] else WithKey(objs, k, tileSize)
  {
    assert (objs + [o])[..|objs|] == objs;
  }

  /** No SubObject with key `k` in the input leaves WithKey empty. */
  lemma {:induction false} WithKeyEmpty(objs: seq<SubObject>, k: TileKey, tileSize: int)
    requires tileSize > 0
    requires forall o | o in objs :: !SameKey(KeyOf(o, tileSize), k)
    ensures WithKey(objs, k, tileSize) == []
    decreases |objs|
  {
    if |objs| > 0 {
      var init := objs[..|objs| - 1];
      assert forall o | o in init :: o in objs;
      WithKeyEmpty(init, k, tileSize);
    }
  }

  lemma AddKeepsDistinct(tiles: seq<Tile>, so: SubObject, tileSize: int, outputPath: string, lodText: string)
    requires tileSize > 0 && DistinctPositions(tiles)
    ensures DistinctPositions(AddToTiles(tiles, so, tileSize, outputPath, lodText))
  {
    var k := KeyOf(so, tileSize);
    var r := AddToTiles(tiles, so, tileSize, outputPath, lodText);
    if FindTile(tiles, k) >= 0 {
      assert forall j | 0 <= j < |tiles| :: r[j].position == tiles[j].position;
    } else {
      assert forall j | 0 <= j < |tiles| :: r[j] == tiles[j];
      assert r[|tiles|].position == k;
    }
  }

  lemma AddKeepsCount(tiles: seq<Tile>, objs: seq<SubObject>, so: SubObject, tileSize: int,
                      outputPath: string, lodText: string)
    requires tileSize > 0 && NoEmptyTile(tiles) && TotalCount(tiles) == |objs|
    ensures var r := AddToTiles(tiles, so, tileSize, outputPath, lodText);
            NoEmptyTile(r) && TotalCount(r) == |objs + [so]|
  {
    var k := KeyOf(so, tileSize);
    var i := FindTile(tiles, k);
    if i >= 0 {
      TotalCountUpdate(tiles, i, tiles[i].(subObjects := tiles[i].subObjects + [so]));
    } else {
      TotalCountAppend(tiles, NewTile(k, tileSize, outputPath, lodText, so));
    }
  }

  /** `==` on finite tile keys is symmetric and transitive. */
  lemma SameKeyFacts(a: TileKey, b: TileKey, c: TileKey)
    ensures SameKey(a, b) ==> SameKey(b, a) && FiniteKey(a) && FiniteKey(b)
    ensures SameKey(a, b) && SameKey(b, c) ==> SameKey(a, c)
  {
  }

  lemma AddKeepsContents(tiles: seq<Tile>, objs: seq<SubObject>, so: SubObject, tileSize: int,
                         outputPath: string, lodText: string)
    requires tileSize > 0 && DistinctPositions(tiles)
    requires FiniteTilesHold(tiles, objs, tileSize) && EveryKeyHasTile(tiles, objs, tileSize)
    ensures FiniteTilesHold(AddToTiles(tiles, so, tileSize, outputPath, lodText), objs + [so], tileSize)
  {
    var k := KeyOf(so, tileSize);
    var i := FindTile(tiles, k);
    var r := AddToTiles(tiles, so, tileSize, outputPath, lodText);
    forall j | 0 <= j < |tiles| && FiniteKey(tiles[j].position)
      ensures r[j].subObjects == WithKey(objs + [so], r[j].position, tileSize)
    {
      WithKeySnoc(objs, so, tiles[j].position, tileSize);
      SameKeyFacts(k, tiles[j].position, k);
      if i >= 0 && j != i && SameKey(k, tiles[j].position) {
        assert false;
      }
    }
    if i < 0 && FiniteKey(k) {
      forall o | o in objs
        ensures !SameKey(KeyOf(o, tileSize), k)
      {
        if SameKey(KeyOf(o, tileSize), k) {
          assert false;
        }
      }
      WithKeyEmpty(objs, k, tileSize);
      WithKeySnoc(objs, so, k, tileSize);
    }
  }

  lemma AddKeepsNaNTiles(tiles: seq<Tile>, so: SubObject, tileSize: int, outputPath: string, lodText: string)
    requires tileSize > 0 && NaNTilesSingle(tiles, tileSize)
    ensures NaNTilesSingle(AddToTiles(tiles, so, tileSize, outputPath, lodText), tileSize)
  {
  }

  lemma AddKeepsKeysCovered(tiles: seq<Tile>, objs: seq<SubObject>, so: SubObject, tileSize: int,
                            outputPath: string, lodText: string)
    requires tileSize > 0 && EveryKeyHasTile(tiles, objs, tileSize)
    ensures EveryKeyHasTile(AddToTiles(tiles, so, tileSize, outputPath, lodText), objs + [so], tileSize)
  {
    var k := KeyOf(so, tileSize);
    var i := FindTile(tiles, k);
    var r := AddToTiles(tiles, so, tileSize, outputPath, lodText);
    forall o | o in objs + [so] && FiniteKey(KeyOf(o, tileSize))
      ensures FindTile(r, KeyOf(o, tileSize)) >= 0
    {
      if o in objs {
        var j := FindTile(tiles, KeyOf(o, tileSize));
        assert r[j].position == tiles[j].position;
        assert SameKey(r[j].position, KeyOf(o, tileSize));
      } else if i >= 0 {
        assert SameKey(r[i].position, k);
      } else {
        assert SameKey(r[|tiles|].position, k);
      }
    }
  }

  /** One bucketing step keeps the partition, for the input extended by that SubObject. */
  lemma AddKeepsPartition(tiles: seq<Tile>, objs: seq<SubObject>, so: SubObject, tileSize: int,
                          outputPath: string, lodText: string)
    requires tileSize > 0
    requires Partitions(tiles, objs, tileSize, outputPath, lodText)
    ensures Partitions(AddToTiles(tiles, so, tileSize, outputPath, lodText), objs + [so], tileSize, outputPath, lodText)
  {
    AddKeepsDistinct(tiles, so, tileSize, outputPath, lodText);
    AddKeepsCount(tiles, objs, so, tileSize, outputPath, lodText);
    AddKeepsContents(tiles, objs, so, tileSize, outputPath, lodText);
    AddKeepsNaNTiles(tiles, so, tileSize, outputPath, lodText);
    AddKeepsKeysCovered(tiles, objs, so, tileSize, outputPath, lodText);
  }

  /** TileSubobjects partitions its input: see Partitions. */
  lemma {:induction false} BucketPartitions(objs: seq<SubObject>, tileSize: int, outputPath: string, lodText: string)
    requires tileSize > 0
    ensures Partitions(Bucket(objs, tileSize, outputPath, lodText), objs, tileSize, outputPath, lodText)
    decreases |objs|
  {
    if |objs| > 0 {
      var init := objs[..|objs| - 1];
      BucketPartitions(init, tileSize, outputPath, lodText);
      AddKeepsPartition(Bucket(init, tileSize, outputPath, lodText), init, Last(objs), tileSize, outputPath, lodText);
      assert init + [Last(objs)] == objs;
    }
  }

  /** The positions of a list of tiles. */
  function Positions(tiles: seq<Tile>): (r: seq<TileKey>)
    ensures |r| == |tiles|
    ensures forall i | 0 <= i < |tiles| :: r[i] == tiles[i].position
  {
    seq(|tiles|, i requires 0 <= i < |tiles| => tiles[i].position)
  }

  /** Adding one SubObject keeps the positions of the tiles so far, and may add one after them. */
  lemma AddKeepsPositions(tiles: seq<Tile>, so: SubObject, tileSize: int, outputPath: string, lodText: string)
    requires tileSize > 0
    ensures var added := Positions(AddToTiles(tiles, so, tileSize, outputPath, lodText));
            |tiles| <= |added| && added[..|tiles|] == Positions(tiles)
  {
  }

  /**
    Tiles appear in the order their keys first occur: bucketing a prefix of
    the input gives a prefix of the positions of bucketing all of it.
   */
  lemma {:induction false} BucketOrder(objs: seq<SubObject>, n: nat, tileSize: int, outputPath: string, lodText: string)
    requires tileSize > 0 && n <= |objs|
    ensures var before := Positions(Bucket(objs[..n], tileSize, outputPath, lodText));
            var after := Positions(Bucket(objs, tileSize, outputPath, lodText));
            |before| <= |after| && after[..|before|] == before
    decreases |objs| - n
  {
    if n < |objs| {
      BucketOrder(objs, n + 1, tileSize, outputPath, lodText);
      var b := Bucket(objs[..n], tileSize, outputPath, lodText);
      assert objs[..n + 1][..n] == objs[..n];
      var b1 := Bucket(objs[..n + 1], tileSize, outputPath, lodText);
      assert b1 == AddToTiles(b, objs[n], tileSize, outputPath, lodText);
      AddKeepsPositions(b, objs[n], tileSize, outputPath, lodText);
      var after := Positions(Bucket(objs, tileSize, outputPath, lodText));
      assert after[..|b|] == after[..|b1|][..|b|];
    } else {
      assert objs[..n] == objs;
    }
  }

  /** The TileSubobjects loop, with the inner search and its `break`. */
  method TileSubobjects(objs: seq<SubObject>, tileSize: int, outputPath: string, lodText: string)
    returns (tiles: seq<Tile>)
    requires tileSize > 0
    ensures tiles == Bucket(objs, tileSize, outputPath, lodText)
    ensures Partitions(tiles, objs, tileSize, outputPath, lodText)
  {
    tiles := [];
    for n := 0 to |objs|
      invariant tiles == Bucket(objs[..n], tileSize, outputPath, lodText)
    {
      var so := objs[n];
      var k := KeyOf(so, tileSize);
      var found, i := SearchTiles(tiles, k);
      assert objs[..n + 1][..n] == objs[..n];
      if found {
        tiles := tiles[i := tiles[i].(subObjects := tiles[i].subObjects + [so])];
      } else {
        tiles := tiles + [NewTile(k, tileSize, outputPath, lodText, so)];
      }
    }
    assert objs[..|objs|] == objs;
    BucketPartitions(objs, tileSize, outputPath, lodText);
  }

  /** The inner loop of TileSubobjects: the first tile with key `k`, stopping at it. */
  method SearchTiles(tiles: seq<Tile>, k: TileKey) returns (found: bool, i: int)
    ensures found <==> FindTile(tiles, k) >= 0
    ensures found ==> i == FindTile(tiles, k)
  {
    found, i := false, 0;
    while i < |tiles|
      invariant 0 <= i <= |tiles|
      invariant forall j | 0 <= j < i :: !SameKey(tiles[j].position, k)
    {
      if SameKey(tiles[i].position, k) {
        found := true;
        return;
      }
      i := i + 1;
    }
  }

  // ------------------------------------------------------------ writing

  /** WriteTileData's test: a tile is skipped when it is empty or its file name contains "NaN". */
  predicate Skipped(t: Tile) {
    |t.subObjects| == 0 || Contains(t.filePath, "NaN")
  }

  /** The write loop's counters: every tile is counted as written or as skipped, never both. */
  method WriteTileData(tiles: seq<Tile>) returns (written: nat, skipped: nat, toWrite: seq<Tile>)
    ensures written + skipped == |tiles|
    ensures |toWrite| == written
    ensures forall t | t in toWrite :: t in tiles && !Skipped(t)
    ensures forall t | t in tiles && !Skipped(t) :: t in toWrite
  {
    written, skipped, toWrite := 0, 0, [];
    for n := 0 to |tiles|
      invariant written + skipped == n
      invariant |toWrite| == written
      invariant forall t | t in toWrite :: t in tiles[..n] && !Skipped(t)
      invariant forall t | t in tiles[..n] && !Skipped(t) :: t in toWrite
    {
      assert tiles[..n + 1] == tiles[..n] + [tiles[n]];
      if |tiles[n].subObjects| == 0 || Contains(tiles[n].filePath, "NaN") {
        skipped := skipped + 1;
      } else {
        toWrite := toWrite + [tiles[n]];
        written := written + 1;
      }
    }
    assert tiles[..|tiles|] == tiles;
  }

  /** The evident intent of the test: skip a tile that is empty or whose position is NaN. */
  predicate SkippedByPosition(t: Tile) {
    |t.subObjects| == 0 || !FiniteKey(t.position)
  }

  /**
    When neither the output folder nor the LOD text contains an 'N', the
    file-name test skips exactly the tiles that are empty or at a NaN
    position.
   */
  lemma SkipMatchesPosition(outputPath: string, k: TileKey, lodText: string, subObjects: seq<SubObject>, tileSize: int)
    requires 'N' !in outputPath && 'N' !in lodText
    ensures var t := Tile(k, tileSize, TilePath(outputPath, k, lodText), subObjects);
            Skipped(t) <==> SkippedByPosition(t)
  {
    var path := TilePath(outputPath, k, lodText);
    var xs := CoordText(k.x);
    var ys := CoordText(k.y);
    var tail := "." + lodText + ".bin";
    assert path == outputPath + xs + ("_" + ys + tail);
    if k.x.NaN? {
      ContainsAfterPrefix(outputPath, "NaN", "_" + ys + tail);
    } else if k.y.NaN? {
      assert path == (outputPath + xs + "_") + "NaN" + tail;
      ContainsAfterPrefix(outputPath + xs + "_", "NaN", tail);
    } else {
      assert 'N' !in path;
      NoCharNoContains(path, "NaN");
    }
  }

  /**
    An output folder whose name contains "NaN" makes the test skip every
    tile, even one with SubObjects at a finite position.
   */
  lemma NaNFolderSkipsEveryTile(so: SubObject)
    ensures var k := TileKey(Finite(1000.0), Finite(2000.0));
            var t := Tile(k, 1000, TilePath("out/NaN/", k, "2.2"), [so]);
            Skipped(t) && !SkippedByPosition(t)
  {
    var k := TileKey(Finite(1000.0), Finite(2000.0));
    var path := TilePath("out/NaN/", k, "2.2");
    var rest := "/" + CoordText(k.x) + "_" + CoordText(k.y) + ".2.2.bin";
    assert path == "out/" + "NaN" + rest;
    ContainsAfterPrefix("out/", "NaN", rest);
  }
}
